=== FILE: README.md ===
# Botris battle room server in Dafny

This project models the room server of Botris battle, a two-player falling-block
bot arena. The server keeps a registry of rooms in memory. Each room has a host,
settings, seats (`players`), spectators and a ban list. Clients reach it in two
ways:

- over a socket: `server/plugins/websockets.ts` handles joining, the host's room
  commands (`kick`, `ban`, `unban`, `start_game`, `reset_game`, `transfer_host`,
  `room_settings`), the seated player's messages (`ready`, `unready`,
  `commands`) and disconnection;
- over HTTP: the endpoints `create`, `start`, `reset`, `kick`, `ban`, `unban`,
  `edit` and `transferHost` under `server/api/room`.

Two periodic sweeps drop empty rooms. The model also covers:

- the message validators;
- the room projections sent to clients (`getRoomInfo`, `getPublicPlayers`);
- `sendRoom`;
- the pace and messiness schedules;
- the bot avatar helpers, `toPublicBot` and `getBotCreator`.

Modules:

- `Wrappers`, `Json`: `Option` and parsed JSON values, the input of every
  validator.
- `Messages`: `AuthSchema` and `PlayerMessageSchema`, as parsers with their
  encoders and round trips.
- `Avatar`: random, mirrored and empty avatars, and `AvatarSchema`.
- `Bots`: `toPublicBot` and `getBotCreator`.
- `Pace`: `getPps` and `calculateMessiness`, over the reals.
- `Tetris`: the game engine, as a record of total functions. Its rules are not
  part of this model.
- `Rooms`: the records, and JavaScript `Map`s as sequences of entries in
  insertion order. It also holds the `Room` and `Registry` classes, `sendRoom`
  and the projections.
- `Sockets`: the join handler and the close handlers.
- `GeneralMessages`: the host's socket commands.
- `PlayerMessages`: the seated player's socket messages.
- `RoomApi`: the HTTP endpoints.
- `Sweeps`: the cleanup and timeout plugins.
- `Lifecycle`: invariants that every handler keeps, and what they imply.
  - A room is *idle* when it is not ongoing and no seat is ready.
  - It is *anonymous* when neither the host record nor any seat's record
    carries an `id`.

Sockets are identified by their ids. Everything the server sends or closes is
appended, in order, to the registry's `outbox`. Handlers registered with
`ws.on` are appended to the registry's `listeners`.

Each handler that changes a room has two parts:

- a specification function from the room's state (`RoomState`) to its new
  state and effects;
- a method that changes the `Room` object in place and is proved to agree
  with that function.

The meaning of each handler is stated by lemmas about its specification
function.

## Behaviour of the code as written

The files disagree with one another in places. Where they do, the model
follows each file as written. These lemmas pin down the consequences:

- The socket `start_game` counts ready players, but only `ready` sets the
  flag, and `ready` is ignored unless `ongoing` is set. Only `start_game` sets
  `ongoing`. So every room stays idle: `start_game` always answers "Not enough
  players" (`Lifecycle.HostCommandsKeepIdle`).
- The HTTP `start` and `unban` endpoints compare `room.host.id` with the
  caller. No host record carries an `id`: `create`, `transferHost` and the
  socket `transfer_host` all write records with a `userId` only. So `start`
  always answers 403 and `unban` always answers 401
  (`Lifecycle.HostChecksAlwaysRefuse`).
- The HTTP `ban` stores the caller's record in the ban map, under the
  caller's id. It then deletes `player.sessionId`, which is never a key of
  `players`, so the target keeps its seat (`RoomApi.BanRoomKeepsSeats`).
- The HTTP `kick` closes the target's socket and announces its departure, but
  does not remove the seat (`RoomApi.KickRoom`).
- The HTTP `transferHost` makes the caller, not the target, the host
  (`RoomApi.TransferHostRoom`).
- `reset` and `kick` parse their body with `parse`, which throws on a body that
  does not match. The model answers `Thrown`, which stands for an HTTP 500.
- `reset`, `kick`, `ban`, `edit` and `transferHost` have no host check.
- In the socket `start_game`, the first player who is not ready ends the
  command. The room is left marked ongoing and nothing is sent
  (`GeneralMessages.StartGameStopsAtUnready`).
- `create` gives every room a `banned` map, and the socket `unban`, the join
  checks and the HTTP `ban` and `unban` all work on that map. The socket
  `ban` calls `add` on it, which a map does not have: that handler throws
  before it changes anything, so a banned player keeps its seat and nothing
  is sent (`GeneralMessages.BanRejected`).
- The join handler checks `room.banned` against the new socket's id. That id is
  fresh, so a socket is refused only if a host banned that very socket id.
- The join's room-full and second ban check send an `error` message, not a
  close.
- The close handler does not announce the departure and does not reset the
  game. It removes the socket and drops the room when nobody is left in it.

## Model

| member | source | states |
|---|---|---|
| Messages.ParseCommand | server/utils/messages.ts:20-31 | A command parses exactly when the value is the string naming it; the parsed command's name is the input |
| Messages.ParseCommands | server/utils/messages.ts:20-32 | The array parses exactly when every element is a command name; the result holds those commands in order |
| Messages.ParseAction | server/utils/messages.ts:16-33 | Only an `action` object is accepted by this branch |
| Messages.ParsePlayerMessage | server/utils/messages.ts:15-34 | The union: an accepted action carries type "action", an accepted ping type "ping"; any object of type "ping" is a ping; every other type is rejected |
| Messages.CommandRoundTrip | server/utils/messages.ts:20-31 | Every command's name parses back to that command |
| Messages.CommandsRoundTrip | server/utils/messages.ts:20-32 | Any command list, encoded, parses back to itself |
| Messages.PlayerMessageRoundTrip | server/utils/messages.ts:15-34 | Every player message (an action or a ping) survives encoding and parsing |
| Messages.ActionAcceptance | server/utils/messages.ts:16-33 | An action message is accepted if and only if every element of `commands` is one of the ten names |
| Messages.EmptyActionAccepted | server/utils/messages.ts:16-33 | An action with an empty command list is accepted |
| Messages.PingAccepted | server/utils/messages.ts:34 | Any object whose type is "ping" is a ping, whatever else it holds |
| Messages.OtherTypesRejected | server/utils/messages.ts:15-34 | A message whose type is neither "action" nor "ping" is rejected |
| Messages.ParseAuth | server/utils/messages.ts:5-11 | Accepted if and only if type is "auth" and both tokens are strings; the result carries those strings |
| Avatar.Reverse | utils/avatar.ts:47-49 | `toReversed`: same length, element i is the input's element n-1-i |
| Avatar.LineCell | utils/avatar.ts:11-15 | A cell is empty exactly when the first draw is below 0.6; otherwise it is one of the seven pieces, never G |
| Avatar.GenerateLine | utils/avatar.ts:8-19 | Five cells; each is the cell its two draws decide |
| Avatar.GenerateSquare | utils/avatar.ts:21-27 | A 5x5 square; each cell is decided by its own draws |
| Avatar.EmptyAvatar | utils/avatar.ts:29-41 | A 10x10 grid in which every cell is empty |
| Avatar.GenerateEmptyAvatar | utils/avatar.ts:29-41 | The nested loops build exactly the empty 10x10 grid |
| Avatar.GenerateRandomAvatar | utils/avatar.ts:44-65 | The result is 10x10, its top-left quadrant is the square, and it is mirror-symmetric left-right and top-bottom |
| Avatar.ParseBlock | utils/avatar.ts:67-76 | A cell parses only from the JSON that prints it (a piece letter, "G" or null) |
| Avatar.ParseRow | utils/avatar.ts:67-77 | A row parses exactly when every element is a valid cell; the result holds those cells in order |
| Avatar.ParseRows | utils/avatar.ts:77 | The rows parse exactly when each is an array of ten valid cells |
| Avatar.ParseAvatar | utils/avatar.ts:67-77 | Accepted exactly when the value is an array of ten rows, each ten valid cells; the result is 10x10 and row i is row i of the input, parsed |
| Avatar.ParseAvatarAccepts | utils/avatar.ts:67-77 | The schema accepts exactly ten arrays of ten cells, each a piece letter, "G" or null |
| Avatar.ParseAvatarSound | utils/avatar.ts:67-77 | An accepted value is 10x10, and printing the parsed grid gives back the input |
| Avatar.AvatarRoundTrip | utils/avatar.ts:67-77 | Every 10x10 grid passes the schema unchanged |
| Avatar.EmptyAvatarValid | utils/avatar.ts:29-77 | The empty avatar passes `AvatarSchema` |
| Bots.PublicDevelopers | server/utils/bot.ts:19 | One public developer per developer, in order, with the same id and display name |
| Bots.ToPublicBot | server/utils/bot.ts:9-23 | Copies the descriptive fields. Keeps a stored avatar that passes the schema and otherwise uses the empty one, so the avatar always passes. Developers are projected in order |
| Bots.DisplayNames | utils/general.ts:25 | The developers' display names, in list order |
| Bots.Join | utils/general.ts:25 | `join`: the result begins with the first item and ends with the last |
| Bots.JoinSnoc | utils/general.ts:25 | `join`: appending an item adds one separator and that item at the end |
| Bots.JoinLength | utils/general.ts:25 | `join`: the length is the items' total plus one separator fewer than there are items |
| Bots.GetBotCreator | utils/general.ts:24-26 | The team when it is not null (an empty team included); otherwise "" for no developers, or the single developer's name |
| Bots.CreatorAppendsDeveloper | utils/general.ts:24-26 | With no team, adding a developer adds ", " and its name at the end of the creator |
| Pace.GetPps | server/utils/game.ts:1-17 | The initial pace before the start margin and the final pace from the end margin on; always between the two |
| Pace.GetPpsInterpolates | server/utils/game.ts:13-16 | Inside the window, the pace is the linear interpolation at the elapsed fraction |
| Pace.GetPpsDegenerate | server/utils/game.ts:9-15 | With the end margin at or before the start margin, every time from the start gets the final pace |
| Pace.GetPpsMonotone | server/utils/game.ts:1-17 | A rising schedule never falls as time passes |
| Pace.CalculateMessiness | utils/game.ts:3-21 | Same as `GetPps`, with the margins given in seconds against a time in milliseconds |
| Pace.MessinessIsScaledPps | utils/game.ts:3-21 | The messiness schedule is the pace schedule with both margins multiplied by 1000 |
| Pace.MessinessAtStart | utils/game.ts:9-20 | At the start margin of a non-empty window, the messiness is still exactly the initial value |
| Pace.MessinessDegenerate | utils/game.ts:13-15 | With the end margin at or before the start margin, every time from the start gets the final messiness |
| Pace.MessinessMonotone | utils/game.ts:3-21 | A rising messiness schedule never falls as time passes |
| Rooms.Get | server/utils/rooms.ts:38 | `Map.get`: a value is found exactly for a present key, and it is that key's entry |
| Rooms.GetAt | server/utils/rooms.ts:38 | With distinct keys, `get` finds the entry at any index under its own key |
| Rooms.Delete | server/utils/rooms.ts:38 | `Map.delete`: exactly that key leaves the key set |
| Rooms.DeleteMembers | server/utils/rooms.ts:38 | After `delete`, an entry is present if and only if it was present under another key |
| Rooms.DeleteKeepsShape | server/utils/rooms.ts:38 | Deleting keeps the keys distinct and every player under its own id |
| Rooms.Put | server/utils/rooms.ts:38 | `Map.set`: an existing key keeps its place; a new key goes last; the key set gains the key |
| Rooms.PutInPlace | server/utils/rooms.ts:38 | `set` on a present key replaces that key's entry where it stands and leaves every other entry as it was |
| Rooms.PutGet | server/utils/rooms.ts:38 | After `set`, `get` finds the new value, and every other key keeps its value |
| Rooms.PutKeepsShape | server/utils/rooms.ts:38 | `set` keeps the keys distinct, and keeps every player under its id when the new one is |
| Rooms.Without | server/utils/rooms.ts:39 | `spectators.delete`: the socket is gone and nothing new appears |
| Rooms.AddSpectator | server/utils/rooms.ts:39 | `spectators.set`: the new socket is in, the others stay, and distinctness is kept |
| Rooms.Room.constructor | server/api/room/create.post.ts:44-69 | The record `create` builds: two seats, all game flags off, nobody banned or inside |
| Rooms.GetPublicPlayerData | server/utils/rooms.ts:76-85 | Every field but the socket, with the engine's public game state |
| Rooms.GetPublicPlayers | server/utils/rooms.ts:87-89 | One public record per seat, in map order |
| Rooms.GetRoomInfo | server/utils/rooms.ts:91-101 | The room's id, host, visibility, first-to, seat count and ongoing flag, and each seat's public record (`getPublicPlayerData`) in map order |
| Rooms.RoomInfoHidesBansAndSpectators | server/utils/rooms.ts:91-101 | The room info does not depend on the ban map or on who is watching |
| Rooms.Recipients | server/utils/rooms.ts:58-63 | One recipient per player socket and per spectator |
| Rooms.Broadcast | server/utils/rooms.ts:54-64 | The same message to every player's socket in map order, then to every spectator |
| Rooms.BroadcastSplit | server/utils/rooms.ts:58-63 | The players' sends come before the spectators' |
| Rooms.BroadcastOnce | server/utils/rooms.ts:54-64 | With distinct recipients, each recipient gets the message exactly once and nobody else gets it |
| Rooms.BroadcastDelivers | server/utils/rooms.ts:54-64 | Each recipient receives the message once per place it holds among the recipients, and receives no other message |
| Rooms.Registry.constructor | server/utils/rooms.ts:51-52 | The process starts with no rooms, no connections and nothing sent |
| Rooms.Registry.SendRoom | server/utils/rooms.ts:54-64 | An unknown room gets nothing. Otherwise the outbox grows by exactly the room's broadcast; no room or map changes |
| Rooms.Registry.SendEach | server/utils/rooms.ts:58-63 | The two loops append exactly the broadcast |
| Rooms.Registry.SendToPlayers | server/utils/rooms.ts:58-60 | The first loop sends to each player's socket in order |
| Rooms.Registry.SendToSpectators | server/utils/rooms.ts:61-63 | The second loop sends to each spectator in order |
| Sockets.Param | server/plugins/websockets.ts:298-300 | `urlParams.get`: present exactly when the query names the parameter |
| Sockets.RoomIdParam | server/plugins/websockets.ts:292-301 | A room id exists exactly when there is a query string and its `roomId` is non-empty |
| Sockets.ConnectSpec | server/plugins/websockets.ts:322-360 | A banned non-spectator is closed with 4001 and nothing else happens. Otherwise the socket is first sent `room_info` with the room's info, only a spectator changes the room, by joining the spectators, and the socket is closed with 4005 exactly when it is neither spectating nor carrying a token; nothing is sent to anybody else |
| Sockets.ConnectKeepsWellFormed | server/plugins/websockets.ts:322-352 | The first part of a join keeps a room well formed |
| Sockets.Connect | server/plugins/websockets.ts:289-361 | See below |
| Sockets.InfoOf | server/plugins/websockets.ts:36-47 | The connection's record is the profile's id, creator and name, with no `id` and no avatar |
| Sockets.NewSeat | server/plugins/websockets.ts:394-402 | A new seat: under the socket id, not ready, not playing, no game state |
| Sockets.SeatSpec | server/plugins/websockets.ts:372-402 | Only the seats change (stated in full by `SeatOnlyWithinCapacity`) |
| Sockets.Seats | server/plugins/websockets.ts:372-392 | The seat test: not spectating, not banned, fewer players than the maximum; `SeatOnlyWithinCapacity` states that a seat is given exactly when it holds |
| Sockets.SeatOnlyWithinCapacity | server/plugins/websockets.ts:372-402 | See below |
| Sockets.Authenticate | server/plugins/websockets.ts:363-404 | See below |
| Sockets.TakeSeat | server/plugins/websockets.ts:372-404 | The room, outbox and listeners change exactly as `SeatSpec` says; the room stays well formed |
| Sockets.CloseSpec | server/plugins/websockets.ts:335-343 | A close changes only the seats and the spectators |
| Sockets.CloseRemovesOnlySocket | server/plugins/websockets.ts:337-339 | After a close, the socket has no seat and is no spectator, everybody else is kept, and the room stays well formed |
| Sockets.CloseIdempotent | server/plugins/websockets.ts:335-343 | Closing twice is closing once |
| Sockets.CloseCleanup | server/plugins/websockets.ts:335-343 | The connection is forgotten, the room changes as `CloseSpec` says, and the room leaves the registry exactly when it is left empty |
| Sockets.CloseSpectator | server/plugins/websockets.ts:348-351 | The spectator's close handler removes only that socket from the spectators |
| Sockets.SpectatorCloseAfterCleanup | server/plugins/websockets.ts:335-351 | The spectator's handler, run after the first handler, changes nothing more |
| PlayerMessages.SetReadySpec | server/plugins/websockets.ts:210-240 | Outside a game or from a socket without a seat, nothing changes and nothing is sent; otherwise only the seats change (the lemmas below state how) |
| PlayerMessages.SetReadyNeedsGame | server/plugins/websockets.ts:210-240 | Outside a game, `ready` and `unready` change nothing and send nothing |
| PlayerMessages.SetReadyChangesOnlySender | server/plugins/websockets.ts:210-240 | See below |
| PlayerMessages.SetReadyAnnounces | server/plugins/websockets.ts:210-240 | During a game, the sends are `player_ready` (or `player_unready`) for the sender to every player and spectator, then `all_ready` to the same recipients exactly when the flag was set and every seat is now ready |
| PlayerMessages.SetReadyDeliveries | server/plugins/websockets.ts:210-240 | Each recipient gets the sender's `player_ready` (or `player_unready`) once per place it holds among the recipients, and `all_ready` as often exactly when it is sent, never otherwise |
| PlayerMessages.AttackAll | server/plugins/websockets.ts:258-268 | Every seat but the sender's gets one garbage packet of that size queued; the seats are otherwise unchanged |
| PlayerMessages.CommandsSpec | server/plugins/websockets.ts:241-279 | A socket without a seat changes nothing; otherwise only the seats change |
| PlayerMessages.ApplyEventsFrame | server/plugins/websockets.ts:249-269 | See below |
| PlayerMessages.ApplyEvents | server/plugins/websockets.ts:249-269 | The events in report order change only the seats, keep their number, and only append effects |
| PlayerMessages.CommandsUpdatesSender | server/plugins/websockets.ts:242-248 | The sender's seat holds exactly the engine's new state, and every seat keeps its key |
| PlayerMessages.CommandsEffectCount | server/plugins/websockets.ts:249-278 | The effects number one broadcast's worth (one per player socket and spectator) for each `game_over` event, plus one more |
| PlayerMessages.CommandsAnnounces | server/plugins/websockets.ts:249-278 | The sends are one `player_died` for the sender per `game_over` event, then one `player_commands` with the commands, the public form of the new state and the events, each to every player and spectator |
| PlayerMessages.CommandsDeliveries | server/plugins/websockets.ts:249-278 | Each recipient gets `player_commands` once, and `player_died` once per `game_over` event, per place it holds among the recipients |
| PlayerMessages.PlayerStep | server/plugins/websockets.ts:209-281 | Every player message changes only the seats |
| PlayerMessages.SetReadyCommand | server/plugins/websockets.ts:210-240 | The room and the outbox change exactly as `SetReadySpec` says |
| PlayerMessages.Attack | server/plugins/websockets.ts:260-267 | The loop leaves the seats as `AttackAll` says |
| PlayerMessages.RunEvents | server/plugins/websockets.ts:249-269 | The event loop leaves the room and the outbox as the events, applied in order, say |
| PlayerMessages.CommandsCommand | server/plugins/websockets.ts:241-279 | The room and the outbox change exactly as `CommandsSpec` says |
| PlayerMessages.HandlePlayerMessage | server/plugins/websockets.ts:197-282 | A missing room does nothing; otherwise the room and the outbox change exactly as `PlayerStep` says |
| GeneralMessages.WithoutId | server/plugins/websockets.ts:83-93 | The removal loop's result keeps distinct keys and ids as keys, and adds no key |
| GeneralMessages.WithoutIdMembers | server/plugins/websockets.ts:83-93 | An entry is kept if and only if it was present and has another player id |
| GeneralMessages.DeparturesPresent | server/plugins/websockets.ts:83-93 | In a well-formed room, the removal loop for a present id removes that one seat and sends one `player_left` to those left |
| GeneralMessages.Departures | server/plugins/websockets.ts:83-93 | The removal loop's sends: none unless some remaining entry has the target id |
| GeneralMessages.KickSpec | server/plugins/websockets.ts:79-95 | An unknown key does nothing. Otherwise the target's socket is closed with 4001 first, and every seat with that id is removed |
| GeneralMessages.KickRemovesTarget | server/plugins/websockets.ts:79-95 | In a well-formed room, a kick removes exactly the target and sends one `player_left` to everybody left |
| GeneralMessages.BanRejected | server/plugins/websockets.ts:96-97 | `ban`, even from the host, leaves the room, its ban map and its seats as they were and sends nothing, since `add` throws on the map `create` builds |
| GeneralMessages.UnbanSpec | server/plugins/websockets.ts:112-115 | Exactly that id leaves the ban map, silently; every other id keeps its entry and its record; nothing else in the room changes; an id that was not banned is a no-op |
| GeneralMessages.ReadyCount | server/plugins/websockets.ts:117-119 | The number of seats whose player is ready (the size of the set of their positions); so at most the number of seats, and zero when nobody is ready |
| GeneralMessages.FirstUnready | server/plugins/websockets.ts:140-141 | Everyone before it is ready, and the seat at it (if any) is not |
| GeneralMessages.StartPrefix | server/plugins/websockets.ts:140-145 | The seats before the index are playing with a fresh game state; the others are untouched |
| GeneralMessages.StartGameSpec | server/plugins/websockets.ts:116-156 | The room is either unchanged or ongoing with the ready prefix started (cases stated by the three lemmas below) |
| GeneralMessages.StartGameRefused | server/plugins/websockets.ts:117-137 | Fewer than two ready seats answers "Not enough players". A game under way answers "Game already started". Either goes to the sender alone, with no change |
| GeneralMessages.StartGameAllReady | server/plugins/websockets.ts:139-153 | With everyone ready, all seats play with a fresh state and `game_started` goes to everybody, 3000 ms ahead |
| GeneralMessages.StartGameStopsAtUnready | server/plugins/websockets.ts:139-145 | With someone unready, the room is ongoing, only the seats before that one play, and nothing is sent |
| GeneralMessages.Unready | server/plugins/websockets.ts:168-170 | Every seat, in place, with `ready` cleared |
| GeneralMessages.ResetGameSpec | server/plugins/websockets.ts:157-175 | Outside a game, the sender gets "Game not started". Otherwise the game ends, nobody is ready, and `game_reset` goes to everybody |
| GeneralMessages.TransferHostSpec | server/plugins/websockets.ts:176-187 | An unknown key does nothing. Otherwise that seat's record becomes the host and `host_changed` goes to everybody |
| GeneralMessages.RoomSettingsSpec | server/plugins/websockets.ts:188-193 | The three settings are replaced silently, and every other field of the room (seats, spectators, ban map, host, game flags, pace) is kept |
| GeneralMessages.GeneralStep | server/plugins/websockets.ts:76-194 | A sender who is not the host by user id changes nothing and sends nothing |
| GeneralMessages.GeneralStepKeepsWellFormed | server/plugins/websockets.ts:78-194 | Every host command keeps a room well formed |
| GeneralMessages.StartKeepsKeys | server/plugins/websockets.ts:139-145 | `start_game` keeps a room well formed |
| GeneralMessages.ResetKeepsKeys | server/plugins/websockets.ts:167-170 | `reset_game` keeps a room well formed |
| GeneralMessages.Depart | server/plugins/websockets.ts:86-92 | One removal: deletion of the key, then `player_left` to those left |
| GeneralMessages.RemoveStep | server/plugins/websockets.ts:83-93 | One loop iteration keeps the loop's invariant: the seats filtered so far, and the effects still owed |
| GeneralMessages.RemoveById | server/plugins/websockets.ts:83-93 | The loop removes every seat with the id and emits the departures, in map order |
| GeneralMessages.KickCommand | server/plugins/websockets.ts:79-95 | The room and the outbox change exactly as `KickSpec` says |
| GeneralMessages.StartPlayers | server/plugins/websockets.ts:140-145 | The loop starts the ready prefix and reports whether it reached the end |
| GeneralMessages.StartGameCommand | server/plugins/websockets.ts:116-156 | The room and the outbox change exactly as `StartGameSpec` says |
| GeneralMessages.BeginGame | server/plugins/websockets.ts:139-153 | The accepted branch: ongoing, the prefix started, and the announcement only if everyone was ready |
| GeneralMessages.UnreadyAll | server/plugins/websockets.ts:168-170 | The loop leaves the seats as `Unready` says |
| GeneralMessages.ResetGameCommand | server/plugins/websockets.ts:157-175 | The room and the outbox change exactly as `ResetGameSpec` says |
| GeneralMessages.TransferHostCommand | server/plugins/websockets.ts:176-187 | The room and the outbox change exactly as `TransferHostSpec` says |
| GeneralMessages.UnbanCommand | server/plugins/websockets.ts:112-115 | The room changes exactly as `UnbanSpec` says |
| GeneralMessages.RoomSettingsCommand | server/plugins/websockets.ts:188-193 | The room changes exactly as `RoomSettingsSpec` says |
| GeneralMessages.HandleGeneralMessage | server/plugins/websockets.ts:64-195 | A missing room does nothing. Otherwise the room and the outbox change exactly as `GeneralStep` says, and the room stays well formed |
| GeneralMessages.HostCommand | server/plugins/websockets.ts:78-194 | The dispatch on the command agrees with `GeneralStep` for the host |
| RoomApi.CallerInfo | server/api/room/ban.post.ts:46-51 | The caller's record: the profile's id, name, creator and avatar, with no `id` |
| RoomApi.ParseTarget | server/api/room/kick.post.ts:4 | Accepted exactly when `roomId` and `targetId` are strings; the result carries them |
| RoomApi.ParseRoomId | server/api/room/start.post.ts:4 | Accepted exactly when `roomId` is a string; the result is that string |
| RoomApi.TargetRoundTrip | server/api/room/kick.post.ts:4 | Every target request survives encoding and parsing |
| RoomApi.ParseCreate | server/api/room/create.post.ts:10-19 | An accepted body is within the bounds, and the result carries its fields |
| RoomApi.CreateRoundTrip | server/api/room/create.post.ts:10-19 | A request is accepted exactly as sent when it is within the bounds, and never otherwise |
| RoomApi.ParseEdit | server/api/room/edit.post.ts:5-13 | An accepted body is within the bounds, and the result carries its fields |
| RoomApi.EditRoundTrip | server/api/room/edit.post.ts:5-13 | A request is accepted exactly as sent when it is within the bounds, and never otherwise |
| RoomApi.Gate | server/api/room/start.post.ts:7-31 | The common checks in order: 401 without a profile, then the schema error, then 404 for an unknown room |
| RoomApi.FirstFree | server/api/room/create.post.ts:39-42 | The first candidate id that is not taken |
| RoomApi.PickRoomId | server/api/room/create.post.ts:39-42 | The id loop settles on `FirstFree` |
| RoomApi.NewRoomState | server/api/room/create.post.ts:44-69 | The caller as host, two seats, the requested settings, no game, nobody banned or inside |
| RoomApi.Create | server/api/room/create.post.ts:21-84 | See below |
| RoomApi.Enlisted | server/api/room/start.post.ts:61-64 | Every seat plays with zero wins; keys and everything else are kept |
| RoomApi.EnlistedKeepsShape | server/api/room/start.post.ts:61-64 | Enlisting keeps a room well formed and keeps its keys |
| RoomApi.StartRoom | server/api/room/start.post.ts:33-72 | See below |
| RoomApi.StartNeedsHostId | server/api/room/start.post.ts:33-38 | A host record without an `id` makes `start` answer 403 |
| RoomApi.EnlistAll | server/api/room/start.post.ts:61-64 | The loop leaves the seats as `Enlisted` says |
| RoomApi.StartOnRoom | server/api/room/start.post.ts:24-74 | The reply, room and outbox are as `StartRoom` says; the room stays well formed |
| RoomApi.Start | server/api/room/start.post.ts:6-75 | The gate's answer if it refuses; otherwise `StartRoom` on the named room |
| RoomApi.ResetRoom | server/api/room/reset.post.ts:27-42 | No game answers 400. Otherwise both game flags clear and `game_reset` with the public players goes to everybody |
| RoomApi.Reset | server/api/room/reset.post.ts:6-45 | A bad body throws (500); otherwise the gate, then `ResetRoom` |
| RoomApi.KickRoom | server/api/room/kick.post.ts:26-41 | An unknown target answers 404. Otherwise the socket is closed with 4001 and its session id announced. The room is unchanged in both cases |
| RoomApi.Kick | server/api/room/kick.post.ts:6-44 | A bad body throws (500); otherwise the gate, then `KickRoom`; no room changes |
| RoomApi.KickOnRoom | server/api/room/kick.post.ts:18-43 | The reply and the outbox are as `KickRoom` says |
| RoomApi.BanSweep | server/api/room/ban.post.ts:55-68 | The ban loop over the live map adds no key and keeps the map well formed |
| RoomApi.BanSweepKeepsSeats | server/api/room/ban.post.ts:55-68 | When no seat's session id is a key, the loop deletes nothing and emits only its notices |
| RoomApi.BanNoticesCloseEach | server/api/room/ban.post.ts:55-58 | Every seat of the target user has its socket closed with 4002 |
| RoomApi.BanRoom | server/api/room/ban.post.ts:34-73 | An unknown target answers 404. Otherwise the caller's record enters the ban map, the loop runs, and `player_banned` follows |
| RoomApi.BanRoomKeepsSeats | server/api/room/ban.post.ts:46-68 | A ban keeps every seat, records the caller (not the target), and closes every target socket with 4002 |
| RoomApi.SweepOne | server/api/room/ban.post.ts:55-68 | One iteration keeps the loop's invariant against `BanSweep` |
| RoomApi.SweepBanned | server/api/room/ban.post.ts:55-68 | The loop leaves the seats and the outbox as `BanSweep` says |
| RoomApi.BanOnRoom | server/api/room/ban.post.ts:46-73 | The reply, room and outbox are as `BanRoom` says |
| RoomApi.Ban | server/api/room/ban.post.ts:7-76 | The gate's answer if it refuses; otherwise `BanRoom` on the named room |
| RoomApi.UnbanRoom | server/api/room/unban.post.ts:33-63 | Not the host by `id`: 401. An unknown bot: 404. Otherwise exactly the target leaves the ban map, and `player_unbanned` with its public bot goes out |
| RoomApi.Unban | server/api/room/unban.post.ts:6-66 | The gate's answer if it refuses; otherwise `UnbanRoom` on the named room |
| RoomApi.EditRoom | server/api/room/edit.post.ts:42-52 | Replaces the paces, ft and privacy, and the margins in milliseconds; everything else, `isPublic` included, is kept; `settings_changed` goes to everybody |
| RoomApi.EditedMarginsPositive | server/api/room/edit.post.ts:5-47 | An accepted edit stores positive margins and paces in (0, 30] |
| RoomApi.Edit | server/api/room/edit.post.ts:15-55 | The gate's answer if it refuses; otherwise `EditRoom` on the named room |
| RoomApi.EditOnRoom | server/api/room/edit.post.ts:33-54 | The room and the outbox change as `EditRoom` says |
| RoomApi.TransferHostRoom | server/api/room/transferHost.post.ts:35-54 | An unknown target answers 404. Otherwise the caller's own record becomes the host, silently |
| RoomApi.TransferHost | server/api/room/transferHost.post.ts:7-57 | The gate's answer if it refuses; otherwise `TransferHostRoom` on the named room |
| Sweeps.Occupied | server/plugins/cleanup.ts:17-21 | Exactly the rooms somebody is in, each under its old id |
| Sweeps.Unexpired | server/plugins/timeout.ts:9-13 | Exactly the rooms that are not both empty and older than the timeout |
| Sweeps.Expired | server/plugins/timeout.ts:10 | The age test is strict and needs both the players and the spectators empty; `TimeoutBoundary` and `TimeoutMonotone` state its consequences |
| Sweeps.CleanupIdempotent | server/plugins/cleanup.ts:17-21 | A second cleanup removes nothing more |
| Sweeps.TimeoutWithinCleanup | server/plugins/timeout.ts:10 | The timeout sweep removes only rooms the cleanup removes, so after a cleanup it removes nothing |
| Sweeps.TimeoutMonotone | server/plugins/timeout.ts:10 | A later sweep removes at least what an earlier one does |
| Sweeps.TimeoutBoundary | server/plugins/timeout.ts:3-10 | An empty room survives exactly 10000 ms after creation and expires one millisecond later |
| Sweeps.Cleanup | server/plugins/cleanup.ts:17-21 | The loop leaves the registry as `Occupied` says and keeps rooms filed under their own ids |
| Sweeps.Timeout | server/plugins/timeout.ts:9-13 | The loop leaves the registry as `Unexpired` says and keeps rooms filed under their own ids |
| Lifecycle.HostCommandsKeepIdle | server/plugins/websockets.ts:116-175 | Every host command keeps a room idle; `start_game` from the host answers "Not enough players" |
| Lifecycle.HostCommandsKeepAnonymous | server/plugins/websockets.ts:176-187 | Every host command keeps every record without an `id` |
| Lifecycle.KickKeepsAnonymous | server/plugins/websockets.ts:79-95 | `kick` keeps a room anonymous |
| Lifecycle.StartResetKeepAnonymous | server/plugins/websockets.ts:116-175 | `start_game` and `reset_game` keep a room anonymous |
| Lifecycle.TransferKeepsAnonymous | server/plugins/websockets.ts:177-179 | `transfer_host` installs a seat's record, which has no `id` |
| Lifecycle.PlayerMessagesKeepIdle | server/plugins/websockets.ts:209-281 | Every player message keeps a room idle; `ready` and `unready` change nothing and send nothing |
| Lifecycle.PlayerMessagesKeepAnonymous | server/plugins/websockets.ts:209-281 | Every player message keeps a room anonymous |
| Lifecycle.CommandsKeepSeats | server/plugins/websockets.ts:241-268 | `commands` keeps any property of the seats that ignores game states |
| Lifecycle.JoinKeepsIdle | server/plugins/websockets.ts:394-402 | Both steps of a join keep a room idle |
| Lifecycle.JoinKeepsAnonymous | server/plugins/websockets.ts:36-47 | Both steps of a join keep a room anonymous |
| Lifecycle.CloseKeepsIdleAndAnonymous | server/plugins/websockets.ts:335-343 | A close keeps a room idle and anonymous |
| Lifecycle.CreatedRoomIdle | server/api/room/create.post.ts:44-69 | A new room is idle and anonymous |
| Lifecycle.StartKeepsIdle | server/api/room/start.post.ts:61-64 | `start` keeps a room idle and anonymous |
| Lifecycle.BanKeepsIdle | server/api/room/ban.post.ts:46-68 | `ban` keeps a room idle and anonymous |
| Lifecycle.SettingsEndpointsKeepIdle | server/api/room/transferHost.post.ts:47-54 | `reset`, `kick`, `unban`, `edit` and `transferHost` keep a room idle and anonymous |
| Lifecycle.HostChecksAlwaysRefuse | server/api/room/start.post.ts:33-38 | In an anonymous room, `start` always answers 403 and `unban` always 401 |

The rows marked "See below" have these contracts:

- Sockets.Connect: the connection handler up to the token check.
  - Without a query string, the socket is closed with 4000.
  - A missing or empty room id is reported to the socket alone.
  - So is an unknown room.
  - Otherwise the room changes as `ConnectSpec` says. Unless the socket was
    refused with 4001, the close handlers are registered. The authentication still to do is returned when a
    non-empty token is present.
  - No room enters or leaves the registry.
- Sockets.SeatOnlyWithinCapacity: a socket is seated if and only if it is not
  spectating, not banned and the room is not full.
  - The new seat is found under the socket id, and the other seats are kept.
  - The room stays well formed.
  - A room within capacity stays within capacity.
- Sockets.Authenticate: a token matching no profile closes the socket with 4004.
  Otherwise:
  - the connection is recorded and `authenticated` is sent;
  - the host handler is registered;
  - the seat is taken as `SeatSpec` says, with the player handler only for a
    seated socket.
- PlayerMessages.SetReadyChangesOnlySender: during a game, only the sender's
  seat changes, and only in its flag.
  - The effects number one broadcast's worth, one per player socket and
    spectator.
  - They number two when the flag was set and everyone is now ready, so that
    `all_ready` follows.
  - The keys do not change.
- PlayerMessages.ApplyEventsFrame: the events touch only game states, and never
  the sender's seat. They emit one `player_died` broadcast per `game_over`
  event.
- RoomApi.Create: 401 without a profile, 400 for a bad body. Otherwise:
  - the first free candidate id names a fresh room, built as `NewRoomState`
    says;
  - the room is filed under that id;
  - nothing else in the registry changes.
- RoomApi.StartRoom: success if and only if all of these hold:
  - the host's `id` is the caller's;
  - the room has 2 to `maxPlayers` seats;
  - no game is under way.

  Then every seat is enlisted, `game_started` goes out and a round starts.
  Otherwise the room is unchanged, nothing is sent, and the answer is an
  HTTP error.

## Left out

- Input and output are not modelled: JSON text, `JSON.stringify`,
  `data.toString()` and the socket transport. Messages are datatypes, and
  sockets are ids with an outbox.
- A general message arrives already parsed, as a `GeneralMessage` value. The
  messages file imports a `GeneralMessageSchema` that it does not define, so
  its validator is not part of this model. Unparseable socket messages are
  dropped by the handlers before any of the modelled logic runs.
- PlayerMessages.HandlePlayerMessage: it takes the handler's own cases (`ready`,
  `unready`, `commands`). The player schema accepts `action` and `ping`, which
  the handler's `switch` never matches, so the two are not connected here.
- External calls are inputs. `checkAuth` and `checkAuthToken` become an
  optional profile. The store lookups in `ban`, `unban` and `transferHost`
  become a found flag or an optional bot row. `uuid`, `genRoomId` and `nanoid`
  become given ids, `Date.now()` a given time, and `Math.random()` given draws.
- The room-key row that `create` writes, and the expired-invite deletion that
  precedes the cleanup sweep, are store writes and are left out.
- `startRound` is not part of this model. The `start` endpoint records a
  `StartRound` marker effect where it calls it.
- `getPublicRoomData` is not part of this model. `edit`'s `settings_changed`
  carries the room's new state in its place.
- `getPublicPlayers` calls `getPublicPlayerInfo`, which `rooms.ts` does not
  define. The model uses `getPublicPlayerData`, defined just above it.
- The game engine (`libtris`) is opaque. `createGameState`, `executeCommands`,
  `generateGarbage`, `queueGarbage` and `getPublicGameState` are total
  functions passed in as a record. The `!` on a null game state is therefore
  not modelled as a crash. `generateGarbage` is called once per opponent
  inside the attack loop; as a function of the line count alone it gives
  every opponent the same garbage, so whatever randomness the engine puts
  into each packet is not modelled.
- Numbers are mathematical reals and integers. Floating-point rounding in the
  pace schedules and in the margin scaling is not modelled.
- Timers (`setInterval`) are not modelled: each sweep is one pass.
- Sweeps.Timeout: it takes one `now` for the whole pass. The source reads
  `Date.now()` afresh for each room.
- Concurrency: each handler runs to completion. The join's one suspension point,
  the token check, splits it into `Connect` and `Authenticate`, so other events
  can run between them.
- The `status` of a connection is never changed by any handler and is kept as
  `Idle`.
- `console.log` is left out.
- The socket `ban` handler's rejected promise: what the runtime does with an
  unhandled rejection is not modelled. The model keeps the room and the
  outbox as they were, which is all the handler does before it throws.
- GeneralMessages.StartGameSpec: its own contract only bounds the new room.
  `StartGameRefused`, `StartGameAllReady` and `StartGameStopsAtUnready` state
  its three cases.
- GeneralMessages.GeneralStep: its own contract states only the host gate. The
  per-command specification functions state the commands.
- PlayerMessages.SetReadySpec: its own contract states its no-op cases and
  what it leaves alone. `SetReadyChangesOnlySender` states the seat it
  changes and `SetReadyAnnounces` the messages it sends.
- PlayerMessages.CommandsSpec: its own contract states its no-op case and
  what it leaves alone. `CommandsUpdatesSender` and `ApplyEventsFrame` state
  the seats it changes, and `CommandsAnnounces` the messages it sends.
- PlayerMessages.PlayerStep: its own contract states only what it leaves
  alone. It dispatches to `SetReadySpec` and `CommandsSpec`.
- Sockets.SeatSpec: its own contract only frames the change.
  `SeatOnlyWithinCapacity` states it.
- Sockets.CloseSpec: its own contract only frames the change.
  `CloseRemovesOnlySocket` states it.

=== FILE: avatar.dfy ===
/**
 * Bot avatars (utils/avatar.ts): a 10x10 grid of tetromino blocks, the random
 * mirrored avatar, the all-empty avatar and the `AvatarSchema` validator.
 * `Math.random` is not modelled: its draws are parameters.
 */
module Avatar {
  import opened Wrappers
  import opened Json

  /** A cell of an avatar; `Empty` is the source's `null`. */
  datatype Block = I | O | L | J | S | Z | T | G | Empty

  type Grid = seq<seq<Block>>

  const AVATAR_SIZE: nat := 10
  /** `AVATAR_SIZE / 2`, exact in JavaScript because the size is even. */
  const HALF: nat := 5

  /** The pieces a random line draws from, in the source's order; never `G`. */
  const PIECES: seq<Block> := [I, O, L, J, S, Z, T]

  predicate IsPiece(b: Block) {
    b in PIECES
  }

  /** A grid of exactly 10 rows of exactly 10 cells. */
  predicate IsAvatarShape(a: Grid) {
    |a| == AVATAR_SIZE && forall r :: 0 <= r < |a| ==> |a[r]| == AVATAR_SIZE
  }

  /** `x.toReversed()`. */
  function Reverse<X>(s: seq<X>): (r: seq<X>)
    ensures |r| == |s|
    ensures forall i :: 0 <= i < |s| ==> r[i] == s[|s| - 1 - i]
  {
    seq(|s|, i requires 0 <= i < |s| => s[|s| - 1 - i])
  }

  /**
   * One cell of `generateLine`: empty when the first draw is below 0.6,
   * otherwise the piece at `floor(pick * PIECES.length)`.
   */
  function LineCell(coin: real, pick: real): (b: Block)
    requires 0.0 <= pick < 1.0
    ensures b == Empty <==> coin < 0.6
    ensures b != Empty ==> IsPiece(b) && b != G
  {
    if coin < 0.6 then Empty
    else
      var k := (pick * |PIECES| as real).Floor;
      PIECES[k]
  }

  /** Draws of `Math.random()`: each lies in [0, 1). */
  predicate Draws(xs: seq<real>) {
    forall i :: 0 <= i < |xs| ==> 0.0 <= xs[i] < 1.0
  }

  /**
   * `generateLine`: five cells, the i-th decided by `coins[i]` and, when not
   * empty, `picks[i]`.
   */
  method GenerateLine(coins: seq<real>, picks: seq<real>) returns (line: seq<Block>)
    requires |coins| == HALF && |picks| == HALF && Draws(picks)
    ensures |line| == HALF
    ensures forall i :: 0 <= i < HALF ==> line[i] == LineCell(coins[i], picks[i])
    ensures forall i :: 0 <= i < HALF ==> line[i] == Empty || (IsPiece(line[i]) && line[i] != G)
  {
    line := [];
    for i := 0 to HALF
      invariant |line| == i
      invariant forall k :: 0 <= k < i ==> line[k] == LineCell(coins[k], picks[k])
    {
      if coins[i] < 0.6 {
        line := line + [Empty];
      } else {
        line := line + [PIECES[(picks[i] * |PIECES| as real).Floor]];
      }
    }
  }

  /** `generateSquare`: five lines, line `i` drawn from `coins[i]` and `picks[i]`. */
  method GenerateSquare(coins: seq<seq<real>>, picks: seq<seq<real>>) returns (square: Grid)
    requires |coins| == HALF && |picks| == HALF
    requires forall i :: 0 <= i < HALF ==> |coins[i]| == HALF && |picks[i]| == HALF
    requires forall i, j :: 0 <= i < HALF && 0 <= j < HALF ==> 0.0 <= picks[i][j] < 1.0
    ensures |square| == HALF
    ensures forall r :: 0 <= r < HALF ==> |square[r]| == HALF
    ensures forall r, c :: 0 <= r < HALF && 0 <= c < HALF ==> square[r][c] == LineCell(coins[r][c], picks[r][c])
  {
    square := [];
    for i := 0 to HALF
      invariant |square| == i
      invariant forall r :: 0 <= r < i ==> |square[r]| == HALF
      invariant forall r, c :: 0 <= r < i && 0 <= c < HALF ==> square[r][c] == LineCell(coins[r][c], picks[r][c])
    {
      var line := GenerateLine(coins[i], picks[i]);
      square := square + [line];
    }
  }

  /** The all-null 10x10 grid. */
  function EmptyAvatar(): (a: Grid)
    ensures IsAvatarShape(a)
    ensures forall r, c :: 0 <= r < AVATAR_SIZE && 0 <= c < AVATAR_SIZE ==> a[r][c] == Empty
  {
    seq(AVATAR_SIZE, _ => seq(AVATAR_SIZE, _ => Empty))
  }

  /** `generateEmptyAvatar`: ten rows, each built by pushing ten nulls. */
  method GenerateEmptyAvatar() returns (avatar: Grid)
    ensures IsAvatarShape(avatar)
    ensures forall r, c :: 0 <= r < AVATAR_SIZE && 0 <= c < AVATAR_SIZE ==> avatar[r][c] == Empty
    ensures avatar == EmptyAvatar()
  {
    avatar := [];
    for i := 0 to AVATAR_SIZE
      invariant |avatar| == i
      invariant forall r :: 0 <= r < i ==> avatar[r] == EmptyAvatar()[r]
    {
      var line: seq<Block> := [];
      for j := 0 to AVATAR_SIZE
        invariant |line| == j
        invariant forall c :: 0 <= c < j ==> line[c] == Empty
      {
        line := line + [Empty];
      }
      avatar := avatar + [line];
    }
  }

  /**
   * `generateRandomAvatar`, given the 5x5 square `generateSquare` drew: the
   * square is the top-left quadrant and is mirrored left-right and top-bottom.
   */
  method GenerateRandomAvatar(square: Grid) returns (avatar: Grid)
    requires |square| == HALF && forall r :: 0 <= r < HALF ==> |square[r]| == HALF
    ensures IsAvatarShape(avatar)
    ensures forall r, c :: 0 <= r < HALF && 0 <= c < HALF ==> avatar[r][c] == square[r][c]
    ensures forall r, c :: 0 <= r < AVATAR_SIZE && 0 <= c < AVATAR_SIZE ==> avatar[r][c] == avatar[r][AVATAR_SIZE - 1 - c]
    ensures forall r :: 0 <= r < AVATAR_SIZE ==> avatar[r] == avatar[AVATAR_SIZE - 1 - r]
  {
    var topLeft := square;
    var topRight := seq(HALF, i requires 0 <= i < HALF => Reverse(square[i]));
    var bottomRight := Reverse(topRight);
    var bottomLeft := Reverse(square);
    avatar := [];
    for i := 0 to HALF
      invariant |avatar| == i
      invariant forall r :: 0 <= r < i ==> avatar[r] == topLeft[r] + topRight[r]
    {
      var line: seq<Block> := [];
      line := line + topLeft[i];
      line := line + topRight[i];
      avatar := avatar + [line];
    }
    for i := 0 to HALF
      invariant |avatar| == HALF + i
      invariant forall r :: 0 <= r < HALF ==> avatar[r] == topLeft[r] + topRight[r]
      invariant forall r :: 0 <= r < i ==> avatar[HALF + r] == bottomLeft[r] + bottomRight[r]
    {
      var line: seq<Block> := [];
      line := line + bottomLeft[i];
      line := line + bottomRight[i];
      avatar := avatar + [line];
    }
    // Every row r is square-row q + its reverse, where q is r or its mirror 9 - r.
    forall r | 0 <= r < AVATAR_SIZE
      ensures var q := if r < HALF then r else AVATAR_SIZE - 1 - r;
              avatar[r] == square[q] + Reverse(square[q])
    {
      if r >= HALF {
        assert avatar[r] == bottomLeft[r - HALF] + bottomRight[r - HALF];
      }
    }
  }

  /** One element of `z.union([z.literal('I'), …, z.literal('G'), z.literal(null)])`. */
  function ParseBlock(v: Json): (r: Option<Block>)
    ensures r.Some? ==> BlockToJson(r.value) == v
  {
    match v
    case JNull => Some(Empty)
    case JString(s) =>
      if s == "I" then Some(I) else if s == "O" then Some(O) else if s == "L" then Some(L)
      else if s == "J" then Some(J) else if s == "S" then Some(S) else if s == "Z" then Some(Z)
      else if s == "T" then Some(T) else if s == "G" then Some(G) else None
    case _ => None
  }

  function BlockToJson(b: Block): Json {
    match b
    case I => JString("I")
    case O => JString("O")
    case L => JString("L")
    case J => JString("J")
    case S => JString("S")
    case Z => JString("Z")
    case T => JString("T")
    case G => JString("G")
    case Empty => JNull
  }

  /** `.array()` of blocks: every element must parse. */
  function ParseRow(items: seq<Json>): (r: Option<seq<Block>>)
    ensures r.Some? <==> forall i :: 0 <= i < |items| ==> ParseBlock(items[i]).Some?
    ensures r.Some? ==> |r.value| == |items| && forall i :: 0 <= i < |items| ==> r.value[i] == ParseBlock(items[i]).value
  {
    if items == [] then Some([])
    else match (ParseBlock(items[0]), ParseRow(items[1..]))
      case (Some(b), Some(rest)) => Some([b] + rest)
      case _ => None
  }

  /** `.array().length(AVATAR_SIZE)` over rows: every row must be an array of ten blocks. */
  function ParseRows(rows: seq<Json>): (r: Option<Grid>)
    ensures r.Some? <==> forall i :: 0 <= i < |rows| ==> RowOk(rows[i])
    ensures r.Some? ==> |r.value| == |rows| && forall i :: 0 <= i < |rows| ==> r.value[i] == ParseRow(rows[i].items).value
  {
    if rows == [] then Some([])
    else if !RowOk(rows[0]) then None
    else match ParseRows(rows[1..])
      case Some(rest) => Some([ParseRow(rows[0].items).value] + rest)
      case None => None
  }

  /** A row the schema accepts: an array of exactly ten valid cells. */
  predicate RowOk(v: Json) {
    v.JArray? && |v.items| == AVATAR_SIZE && ParseRow(v.items).Some?
  }

  /** `AvatarSchema.safeParse(v).data`: the grid when `v` is ten rows of ten valid cells. */
  function ParseAvatar(v: Json): (r: Option<Grid>)
    ensures r.Some? <==> v.JArray? && |v.items| == AVATAR_SIZE && forall i :: 0 <= i < |v.items| ==> RowOk(v.items[i])
    ensures r.Some? ==> IsAvatarShape(r.value) && forall i :: 0 <= i < AVATAR_SIZE ==> r.value[i] == ParseRow(v.items[i].items).value
  {
    if v.JArray? && |v.items| == AVATAR_SIZE then ParseRows(v.items) else None
  }

  /** The JSON form of a grid, as it is stored in a bot's `avatar` column. */
  function AvatarToJson(a: Grid): Json {
    JArray(seq(|a|, r requires 0 <= r < |a| => JArray(seq(|a[r]|, c requires 0 <= c < |a[r]| => BlockToJson(a[r][c])))))
  }

  /**
   * The schema accepts exactly the JSON values that are 10 arrays of 10
   * elements, each a piece letter, "G" or null.
   */
  lemma ParseAvatarAccepts(v: Json)
    ensures ParseAvatar(v).Some? <==>
      v.JArray? && |v.items| == AVATAR_SIZE &&
      forall r :: 0 <= r < AVATAR_SIZE ==>
        v.items[r].JArray? && |v.items[r].items| == AVATAR_SIZE &&
        forall c :: 0 <= c < AVATAR_SIZE ==> ParseBlock(v.items[r].items[c]).Some?
  {
    if v.JArray? && |v.items| == AVATAR_SIZE {
      if ParseAvatar(v).Some? {
        forall r | 0 <= r < AVATAR_SIZE
          ensures v.items[r].JArray? && |v.items[r].items| == AVATAR_SIZE
          ensures forall c :: 0 <= c < AVATAR_SIZE ==> ParseBlock(v.items[r].items[c]).Some?
        {
          assert RowOk(v.items[r]);
        }
      }
    }
  }

  /** What the schema accepts it returns unchanged: parsing then printing gives back the input. */
  lemma ParseAvatarSound(v: Json)
    requires ParseAvatar(v).Some?
    ensures IsAvatarShape(ParseAvatar(v).value)
    ensures AvatarToJson(ParseAvatar(v).value) == v
  {
    var a := ParseAvatar(v).value;
    var rows := v.items;
    forall r | 0 <= r < AVATAR_SIZE
      ensures |a[r]| == AVATAR_SIZE
      ensures AvatarToJson(a).items[r] == rows[r]
    {
      assert RowOk(rows[r]);
      var cells := rows[r].items;
      assert a[r] == ParseRow(cells).value;
      forall c | 0 <= c < AVATAR_SIZE
        ensures BlockToJson(a[r][c]) == cells[c]
      {
      }
      assert AvatarToJson(a).items[r].items == cells;
    }
    assert AvatarToJson(a).items == rows;
  }

  /** Every 10x10 grid passes the schema and comes back unchanged. */
  lemma {:induction false} AvatarRoundTrip(a: Grid)
    requires IsAvatarShape(a)
    ensures ParseAvatar(AvatarToJson(a)) == Some(a)
  {
    var v := AvatarToJson(a);
    forall r | 0 <= r < AVATAR_SIZE
      ensures RowOk(v.items[r]) && ParseRow(v.items[r].items).value == a[r]
    {
      var cells := v.items[r].items;
      forall c | 0 <= c < AVATAR_SIZE
        ensures ParseBlock(cells[c]) == Some(a[r][c])
      {
        match a[r][c]
        case I => case O => case L => case J => case S => case Z => case T => case G => case Empty =>
      }
    }
    var p := ParseRows(v.items);
    assert p.Some?;
    assert p.value == a;
  }

  /** The empty avatar satisfies `AvatarSchema`. */
  lemma EmptyAvatarValid()
    ensures ParseAvatar(AvatarToJson(EmptyAvatar())) == Some(EmptyAvatar())
  {
    AvatarRoundTrip(EmptyAvatar());
  }
}

=== FILE: bots.dfy ===
/**
 * Public bot records: `toPublicBot` (server/utils/bot.ts) and
 * `getBotCreator` (utils/general.ts).
 */
module Bots {
  import opened Wrappers
  import opened Json
  import opened Avatar

  /** A developer row as the store returns it; `columns` holds every other column. */
  datatype Developer = Developer(id: string, displayName: string, columns: map<string, Json>)

  /** A bot row with its developers included; `avatar` is stored JSON, not yet validated. */
  datatype Bot = Bot(
    id: string,
    name: string,
    avatar: Json,
    team: Option<string>,
    language: Option<string>,
    eval: Option<string>,
    movegen: Option<string>,
    search: Option<string>,
    developers: seq<Developer>,
    columns: map<string, Json>)

  datatype PublicDeveloper = PublicDeveloper(id: string, displayName: string)

  datatype PublicBot = PublicBot(
    id: string,
    name: string,
    avatar: Grid,
    team: Option<string>,
    language: Option<string>,
    eval: Option<string>,
    movegen: Option<string>,
    search: Option<string>,
    developers: seq<PublicDeveloper>)

  /** `dev => ({ id: dev.id, displayName: dev.displayName })`. */
  function PublicDevelopers(devs: seq<Developer>): (r: seq<PublicDeveloper>)
    ensures |r| == |devs|
    ensures forall i :: 0 <= i < |devs| ==> r[i].id == devs[i].id && r[i].displayName == devs[i].displayName
  {
    seq(|devs|, i requires 0 <= i < |devs| => PublicDeveloper(devs[i].id, devs[i].displayName))
  }

  /**
   * `toPublicBot`: copies the descriptive fields, keeps a stored avatar that
   * passes `AvatarSchema` and otherwise substitutes the empty avatar, so the
   * result's avatar always passes the schema.
   */
  function ToPublicBot(bot: Bot): (p: PublicBot)
    ensures p.id == bot.id && p.name == bot.name && p.team == bot.team && p.language == bot.language
    ensures p.eval == bot.eval && p.movegen == bot.movegen && p.search == bot.search
    ensures ParseAvatar(bot.avatar).Some? ==> p.avatar == ParseAvatar(bot.avatar).value && AvatarToJson(p.avatar) == bot.avatar
    ensures ParseAvatar(bot.avatar).None? ==> p.avatar == EmptyAvatar()
    ensures IsAvatarShape(p.avatar) && ParseAvatar(AvatarToJson(p.avatar)) == Some(p.avatar)
    ensures |p.developers| == |bot.developers|
    ensures forall i :: 0 <= i < |bot.developers| ==>
              p.developers[i] == PublicDeveloper(bot.developers[i].id, bot.developers[i].displayName)
  {
    var avatar := ParseAvatar(bot.avatar).OrElse(EmptyAvatar());
    assert ParseAvatar(bot.avatar).Some? ==> AvatarToJson(avatar) == bot.avatar && IsAvatarShape(avatar) by {
      if ParseAvatar(bot.avatar).Some? { ParseAvatarSound(bot.avatar); }
    }
    AvatarRoundTrip(avatar);
    PublicBot(bot.id, bot.name, avatar, bot.team, bot.language, bot.eval, bot.movegen, bot.search,
              PublicDevelopers(bot.developers))
  }

  /** `Array.prototype.join(sep)`: the items in order with `sep` between neighbours. */
  function Join(items: seq<string>, sep: string): (r: string)
    ensures |items| > 0 ==> items[0] <= r
    ensures |items| > 0 ==> |items[|items| - 1]| <= |r| && r[|r| - |items[|items| - 1]|..] == items[|items| - 1]
  {
    if |items| == 0 then ""
    else if |items| == 1 then items[0]
    else items[0] + sep + Join(items[1..], sep)
  }

  /** Appending an item to a non-empty list adds one separator and the item at the end. */
  lemma {:induction false} JoinSnoc(items: seq<string>, last: string, sep: string)
    requires |items| > 0
    ensures Join(items + [last], sep) == Join(items, sep) + sep + last
  {
    if |items| == 1 {
      assert items + [last] == [items[0], last];
    } else {
      assert (items + [last])[1..] == items[1..] + [last];
      JoinSnoc(items[1..], last, sep);
    }
  }

  /** The joined string holds every item's characters and one separator fewer than items. */
  lemma {:induction false} JoinLength(items: seq<string>, sep: string)
    ensures |Join(items, sep)| == TotalLength(items) + (if |items| == 0 then 0 else (|items| - 1) * |sep|)
  {
    if |items| > 1 {
      JoinLength(items[1..], sep);
    }
  }

  function TotalLength(items: seq<string>): nat {
    if items == [] then 0 else |items[0]| + TotalLength(items[1..])
  }

  /** The developers' display names, in list order. */
  function DisplayNames(devs: seq<PublicDeveloper>): (r: seq<string>)
    ensures |r| == |devs| && forall i :: 0 <= i < |devs| ==> r[i] == devs[i].displayName
  {
    seq(|devs|, i requires 0 <= i < |devs| => devs[i].displayName)
  }

  /**
   * `getBotCreator`: the team when it is not null (an empty team included,
   * since `??` only falls back on null), otherwise the developers' display
   * names joined by ", ".
   */
  function GetBotCreator(bot: PublicBot): (r: string)
    ensures bot.team.Some? ==> r == bot.team.value
    ensures bot.team.None? && |bot.developers| == 0 ==> r == ""
    ensures bot.team.None? && |bot.developers| == 1 ==> r == bot.developers[0].displayName
  {
    bot.team.OrElse(Join(DisplayNames(bot.developers), ", "))
  }

  /**
   * With no team, adding a developer at the end of the list adds ", " and
   * that developer's name at the end of the creator string.
   */
  lemma CreatorAppendsDeveloper(bot: PublicBot, dev: PublicDeveloper)
    requires bot.team.None? && |bot.developers| > 0
    ensures GetBotCreator(bot.(developers := bot.developers + [dev])) == GetBotCreator(bot) + ", " + dev.displayName
  {
    var names := DisplayNames(bot.developers);
    assert DisplayNames(bot.developers + [dev]) == names + [dev.displayName];
    JoinSnoc(names, dev.displayName, ", ");
  }
}

=== FILE: general.dfy ===
/**
 * The host's room commands over a socket: `handleGeneralMessage` in
 * server/plugins/websockets.ts. Each command is a specification function
 * from the room's state to its new state and the effects it emits, and a
 * method that performs the command on a `Room` in place and is proved to
 * agree with that function.
 *
 * The validator for these messages is not part of this model (the shown
 * messages file imports a `GeneralMessageSchema` that it never defines), so
 * a command arrives already parsed.
 */
module GeneralMessages {
  import opened Wrappers
  import opened Messages
  import opened Tetris
  import opened Rooms

  datatype GeneralMessage =
    | Kick(sessionId: string)
    | Ban(userId: string)
    | Unban(userId: string)
    | StartGame
    | ResetGame
    | TransferHost(userId: string)
    | RoomSettings(maxPlayers: int, ft: real, isPublic: bool)

  /** The countdown `start_game` announces, in milliseconds. */
  const COUNTDOWN := 3000

  // ---------------------------------------------------------------------------
  // Removing every player with a given id (the loop of `kick`)

  /** The entries whose player id is not `target`, in map order. */
  function WithoutId(ps: seq<Entry>, target: string): (r: seq<Entry>)
    ensures KeySet(r) <= KeySet(ps)
    ensures DistinctKeys(ps) ==> DistinctKeys(r)
    ensures KeyedById(ps) ==> KeyedById(r)
  {
    if ps == [] then []
    else
      var rest := WithoutId(ps[1..], target);
      assert KeySet(ps) == {ps[0].key} + KeySet(ps[1..]) by { KeySetCons(ps[0], ps[1..]); assert ps == [ps[0]] + ps[1..]; }
      assert DistinctKeys(ps) ==> ps[0].key !in KeySet(ps[1..]) by {
        if DistinctKeys(ps) { DistinctSplit(ps, 0); }
      }
      assert KeyedById(ps) ==> KeyedById(ps[1..]);
      if ps[0].player.id == target then rest
      else
        KeySetCons(ps[0], rest);
        [ps[0]] + rest
  }

  lemma {:induction false} WithoutIdConcat(a: seq<Entry>, b: seq<Entry>, target: string)
    ensures WithoutId(a + b, target) == WithoutId(a, target) + WithoutId(b, target)
  {
    if a == [] {
      assert a + b == b;
    } else {
      assert (a + b)[0] == a[0];
      assert (a + b)[1..] == a[1..] + b;
      WithoutIdConcat(a[1..], b, target);
    }
  }

  /**
   * The effects of the removal loop from the point where `kept` are the
   * entries already passed over and `rest` those still to visit: for each
   * player with the target id, one `player_left` for its key, sent to the
   * players still present and the spectators.
   */
  function Departures(kept: seq<Entry>, rest: seq<Entry>, target: string, specs: seq<SocketId>): (r: seq<Effect>)
    ensures r != [] ==> exists i :: 0 <= i < |rest| && rest[i].player.id == target
    decreases |rest|
  {
    if rest == [] then []
    else if rest[0].player.id != target then Departures(kept + [rest[0]], rest[1..], target, specs)
    else
      Broadcast(kept + rest[1..], specs, PlayerLeft(rest[0].key)) + Departures(kept, rest[1..], target, specs)
  }

  /** Entries with other ids are passed over without effect. */
  lemma {:induction false} DeparturesSkip(kept: seq<Entry>, xs: seq<Entry>, ys: seq<Entry>, target: string, specs: seq<SocketId>)
    requires forall e :: e in xs ==> e.player.id != target
    ensures Departures(kept, xs + ys, target, specs) == Departures(kept + xs, ys, target, specs)
    decreases |xs|
  {
    if xs == [] {
      assert xs + ys == ys;
      assert kept + xs == kept;
    } else {
      assert (xs + ys)[0] == xs[0];
      assert (xs + ys)[1..] == xs[1..] + ys;
      DeparturesSkip(kept + [xs[0]], xs[1..], ys, target, specs);
      assert kept + [xs[0]] + xs[1..] == kept + xs;
    }
  }

  /** With keys distinct and equal to ids, no entry other than the one at `i` has that entry's id. */
  lemma OnlyOneWithId(ps: seq<Entry>, i: int)
    requires DistinctKeys(ps) && KeyedById(ps) && 0 <= i < |ps|
    ensures forall x :: x in ps[..i] ==> x.player.id != ps[i].key
    ensures forall x :: x in ps[i + 1..] ==> x.player.id != ps[i].key
  {
    forall x | x in ps[..i] ensures x.player.id != ps[i].key {
      var j :| 0 <= j < i && ps[..i][j] == x;
      assert ps[j] == x;
    }
    forall x | x in ps[i + 1..] ensures x.player.id != ps[i].key {
      var j :| 0 <= j < |ps| - i - 1 && ps[i + 1..][j] == x;
      assert ps[i + 1 + j] == x;
    }
  }

  /** With no player holding the id, the removal loop keeps everybody and emits nothing. */
  lemma DeparturesAbsent(ps: seq<Entry>, specs: seq<SocketId>, target: string)
    requires KeyedById(ps) && target !in KeySet(ps)
    ensures WithoutId(ps, target) == ps && Departures([], ps, target, specs) == []
  {
    forall e | e in ps ensures e.player.id != target {
      var j :| 0 <= j < |ps| && ps[j] == e;
    }
    DeparturesSkip([], ps, [], target, specs);
    assert ps + [] == ps;
    WithoutIdNone(ps, target);
  }

  /** A matching entry right after `kept` is closed and announced, then the loop goes on. */
  lemma DeparturesMatch(kept: seq<Entry>, e: Entry, b: seq<Entry>, specs: seq<SocketId>, target: string)
    requires e.player.id == target
    ensures Departures(kept, [e] + b, target, specs)
         == Broadcast(kept + b, specs, PlayerLeft(e.key)) + Departures(kept, b, target, specs)
  {
    assert ([e] + b)[0] == e && ([e] + b)[1..] == b;
  }

  /** With no matching entry left, the loop emits nothing more. */
  lemma DeparturesNone(kept: seq<Entry>, b: seq<Entry>, specs: seq<SocketId>, target: string)
    requires forall x :: x in b ==> x.player.id != target
    ensures Departures(kept, b, target, specs) == []
  {
    DeparturesSkip(kept, b, [], target, specs);
    assert b + [] == b;
  }

  /** The removal loop over `a`, one matching entry `e`, then `b`: one departure. */
  lemma DeparturesSplit(a: seq<Entry>, e: Entry, b: seq<Entry>, specs: seq<SocketId>, target: string)
    requires e.player.id == target
    requires forall x :: x in a ==> x.player.id != target
    requires forall x :: x in b ==> x.player.id != target
    ensures Departures([], a + [e] + b, target, specs) == Broadcast(a + b, specs, PlayerLeft(e.key))
  {
    DeparturesSkip([], a, [e] + b, target, specs);
    AppendAssoc(a, [e], b, []);
    assert [] + a == a && ([e] + b) + [] == [e] + b && (a + [e] + b) + [] == a + [e] + b;
    DeparturesMatch(a, e, b, specs, target);
    DeparturesNone(a, b, specs, target);
    assert Broadcast(a + b, specs, PlayerLeft(e.key)) + [] == Broadcast(a + b, specs, PlayerLeft(e.key));
  }

  /** Filtering `a`, one matching entry `e`, then `b` drops exactly `e`. */
  lemma WithoutIdSplit(a: seq<Entry>, e: Entry, b: seq<Entry>, target: string)
    requires e.player.id == target
    requires forall x :: x in a ==> x.player.id != target
    requires forall x :: x in b ==> x.player.id != target
    ensures WithoutId(a + [e] + b, target) == a + b
  {
    WithoutIdConcat(a + [e], b, target);
    WithoutIdConcat(a, [e], target);
    WithoutIdNone(a, target);
    WithoutIdNone(b, target);
    assert [e][1..] == [] && WithoutId([], target) == [];
    assert WithoutId([e], target) == [];
    assert a + [] == a;
  }

  /**
   * In a well-formed room at most one player has a given id, so the loop
   * deletes that one player and sends exactly one `player_left` to
   * everybody left.
   */
  lemma DeparturesPresent(ps: seq<Entry>, specs: seq<SocketId>, target: string)
    requires DistinctKeys(ps) && KeyedById(ps) && target in KeySet(ps)
    ensures var left := Delete(ps, target);
            WithoutId(ps, target) == left &&
            Departures([], ps, target, specs)
              == Broadcast(left, specs, PlayerLeft(target))
  {
    var i :| 0 <= i < |ps| && ps[i].key == target;
    GetAt(ps, i);
    var a, e, b := ps[..i], ps[i], ps[i + 1..];
    assert ps == a + [e] + b;
    DistinctSplit(ps, i);
    OnlyOneWithId(ps, i);
    DeleteEntry(a, e, b);
    DeparturesSplit(a, e, b, specs, target);
    WithoutIdSplit(a, e, b, target);
  }

  /** Filtering by id keeps exactly the entries with other ids. */
  lemma {:induction false} WithoutIdMembers(ps: seq<Entry>, target: string, e: Entry)
    ensures e in WithoutId(ps, target) <==> e in ps && e.player.id != target
  {
    if ps != [] {
      WithoutIdMembers(ps[1..], target, e);
      assert ps == [ps[0]] + ps[1..];
    }
  }

  lemma {:induction false} WithoutIdNone(ps: seq<Entry>, target: string)
    requires forall e :: e in ps ==> e.player.id != target
    ensures WithoutId(ps, target) == ps
  {
    if ps != [] {
      assert ps[0] in ps;
      assert forall e :: e in ps[1..] ==> e in ps;
      WithoutIdNone(ps[1..], target);
    }
  }

  // ---------------------------------------------------------------------------
  // The seven commands

  /** `kick`: an unknown key does nothing; otherwise close its socket with 4001, then remove every player with that id. */
  function KickSpec(s: RoomState, sessionId: string): (r: Step)
    ensures sessionId !in KeySet(s.players) ==> r == Step(s, [])
    ensures sessionId in KeySet(s.players) ==>
              r.room == s.(players := WithoutId(s.players, sessionId)) &&
              |r.effects| > 0 && r.effects[0] == Close(Get(s.players, sessionId).value.ws, 4001)
  {
    match Get(s.players, sessionId)
    case None => Step(s, [])
    case Some(p) =>
      Step(s.(players := WithoutId(s.players, sessionId)),
           [Close(p.ws, 4001)] + Departures([], s.players, sessionId, s.spectators))
  }

  /**
   * In a well-formed room, kicking a present player closes its socket with
   * 4001, deletes it, and sends one `player_left` to everybody left.
   */
  lemma KickRemovesTarget(s: RoomState, sessionId: string)
    requires WellFormed(s) && sessionId in KeySet(s.players)
    ensures var p := Get(s.players, sessionId).value;
            var left := Delete(s.players, sessionId);
            KickSpec(s, sessionId) == Step(s.(players := left), [Close(p.ws, 4001)] + Broadcast(left, s.spectators, PlayerLeft(sessionId)))
  {
    var p := Get(s.players, sessionId).value;
    var left := Delete(s.players, sessionId);
    DeparturesPresent(s.players, s.spectators, sessionId);
    assert [] + Broadcast(left, s.spectators, PlayerLeft(sessionId)) == Broadcast(left, s.spectators, PlayerLeft(sessionId));
  }

  /**
   * `unban`: that id leaves the ban map, silently; every other id keeps its
   * entry, and an id that was not banned leaves the room as it was.
   */
  function UnbanSpec(s: RoomState, userId: string): (r: Step)
    ensures userId !in r.room.banned && r.effects == []
    ensures forall u :: u != userId ==> (u in r.room.banned <==> u in s.banned)
    ensures forall u :: u != userId && u in s.banned ==> r.room.banned[u] == s.banned[u]
    ensures r.room == s.(banned := r.room.banned)
    ensures userId !in s.banned ==> r.room == s
  {
    var left := s.banned - {userId};
    assert userId !in s.banned ==> left == s.banned;
    Step(s.(banned := left), [])
  }

  /** The positions in the map whose player is ready. */
  ghost function ReadyPositions(ps: seq<Entry>): set<int> {
    set i | 0 <= i < |ps| && ps[i].player.ready
  }

  /** How many players are ready: the number of positions in the map whose player is ready. */
  function ReadyCount(ps: seq<Entry>): (n: nat)
    ensures n == |ReadyPositions(ps)|
    ensures n <= |ps|
    ensures (forall i :: 0 <= i < |ps| ==> !ps[i].player.ready) ==> n == 0
  {
    if ps == [] then 0
    else
      var init, last := ps[..|ps| - 1], |ps| - 1;
      assert ReadyPositions(ps) == ReadyPositions(init) + (if ps[last].player.ready then {last} else {});
      ReadyCount(init) + (if ps[last].player.ready then 1 else 0)
  }

  /** The index of the first player who is not ready, or the number of players when all are. */
  function FirstUnready(ps: seq<Entry>): (k: nat)
    ensures k <= |ps|
    ensures forall i :: 0 <= i < k ==> ps[i].player.ready
    ensures k < |ps| ==> !ps[k].player.ready
  {
    if ps == [] || !ps[0].player.ready then 0 else 1 + FirstUnready(ps[1..])
  }

  /** The players before index `k` are marked playing with a fresh game state; the rest stay as they were. */
  function StartPrefix(ps: seq<Entry>, k: nat, engine: Engine): (r: seq<Entry>)
    ensures |r| == |ps|
    ensures forall i :: 0 <= i < |ps| ==> r[i].key == ps[i].key
    ensures forall i :: 0 <= i < |ps| && i < k ==>
              r[i].player == ps[i].player.(playing := true, gameState := Some(engine.createGameState()))
    ensures forall i :: k <= i < |ps| ==> r[i] == ps[i]
  {
    seq(|ps|, i requires 0 <= i < |ps| =>
      if i < k then Entry(ps[i].key, ps[i].player.(playing := true, gameState := Some(engine.createGameState())))
      else ps[i])
  }

  /**
   * `start_game`: fewer than two ready players gets "Not enough players"
   * before the ongoing check; a started game gets "Game already started";
   * both go to the sender only. Otherwise the game is marked ongoing and the
   * players are started in map order; the first player who is not ready
   * ends the command there, with nothing sent. When every player was ready,
   * `game_started` goes out with the countdown deadline.
   */
  function StartGameSpec(s: RoomState, sender: SocketId, now: int, engine: Engine): (r: Step)
    ensures r.room == s || r.room == s.(ongoing := true, players := StartPrefix(s.players, FirstUnready(s.players), engine))
  {
    if ReadyCount(s.players) < 2 then Step(s, [Send(sender, ErrorMsg("Not enough players"))])
    else if s.ongoing then Step(s, [Send(sender, ErrorMsg("Game already started"))])
    else
      var k := FirstUnready(s.players);
      var started := StartPrefix(s.players, k, engine);
      var s' := s.(ongoing := true, players := started);
      if k < |s.players| then Step(s', [])
      else Step(s', Broadcast(started, s.spectators, GameStarted(Some(now + COUNTDOWN), Some(GetPublicPlayers(engine, started)))))
  }

  /** Too few ready players, or a game already under way, refuse the command with an error to the sender alone. */
  lemma StartGameRefused(s: RoomState, sender: SocketId, now: int, engine: Engine)
    ensures ReadyCount(s.players) < 2 ==>
              StartGameSpec(s, sender, now, engine) == Step(s, [Send(sender, ErrorMsg("Not enough players"))])
    ensures ReadyCount(s.players) >= 2 && s.ongoing ==>
              StartGameSpec(s, sender, now, engine) == Step(s, [Send(sender, ErrorMsg("Game already started"))])
  {
  }

  /**
   * When every player is ready, every player is playing with a fresh game
   * state, the room is ongoing, and `game_started` goes to every player and
   * spectator with the deadline three seconds ahead.
   */
  lemma StartGameAllReady(s: RoomState, sender: SocketId, now: int, engine: Engine)
    requires ReadyCount(s.players) >= 2 && !s.ongoing && FirstUnready(s.players) == |s.players|
    ensures var r := StartGameSpec(s, sender, now, engine);
            r.room.ongoing && |r.room.players| == |s.players| &&
            (forall i :: 0 <= i < |s.players| ==>
               r.room.players[i].key == s.players[i].key &&
               r.room.players[i].player == s.players[i].player.(playing := true, gameState := Some(engine.createGameState()))) &&
            r.effects == Broadcast(r.room.players, s.spectators,
                                   GameStarted(Some(now + COUNTDOWN), Some(GetPublicPlayers(engine, r.room.players))))
  {
    var started := StartPrefix(s.players, |s.players|, engine);
    assert StartGameSpec(s, sender, now, engine)
        == Step(s.(ongoing := true, players := started),
                Broadcast(started, s.spectators, GameStarted(Some(now + COUNTDOWN), Some(GetPublicPlayers(engine, started)))));
  }

  /**
   * When some player is not ready, the room is still marked ongoing and the
   * players before the first unready one are started, but nothing is sent
   * and nobody from that player on is touched.
   */
  lemma StartGameStopsAtUnready(s: RoomState, sender: SocketId, now: int, engine: Engine)
    requires ReadyCount(s.players) >= 2 && !s.ongoing && FirstUnready(s.players) < |s.players|
    ensures var r := StartGameSpec(s, sender, now, engine);
            var k := FirstUnready(s.players);
            r.room.ongoing && r.effects == [] && !s.players[k].player.ready &&
            (forall i :: 0 <= i < k ==> r.room.players[i].player.playing) &&
            r.room.players[k..] == s.players[k..]
  {
    var k := FirstUnready(s.players);
    var started := StartPrefix(s.players, k, engine);
    StartPrefixSplit(s.players, k, engine);
    assert StartGameSpec(s, sender, now, engine) == Step(s.(ongoing := true, players := started), []);
  }

  /** Starting the players before `k` marks each of them playing and leaves the rest as they were. */
  lemma StartPrefixSplit(ps: seq<Entry>, k: nat, engine: Engine)
    requires k <= |ps|
    ensures var started := StartPrefix(ps, k, engine);
            (forall i :: 0 <= i < k ==> started[i].player.playing) && started[k..] == ps[k..]
  {
    var started := StartPrefix(ps, k, engine);
    assert started[k..] == ps[k..];
  }

  /** Starting one more player extends the started prefix by one. */
  lemma StartPrefixStep(ps: seq<Entry>, i: nat, engine: Engine)
    requires i < |ps|
    ensures StartPrefix(ps, i + 1, engine)
         == StartPrefix(ps, i, engine)[i := Entry(ps[i].key, ps[i].player.(playing := true, gameState := Some(engine.createGameState())))]
  {
  }

  /** Every player marked not ready, in place. */
  function Unready(ps: seq<Entry>): (r: seq<Entry>)
    ensures |r| == |ps|
    ensures forall i :: 0 <= i < |ps| ==> r[i].key == ps[i].key && r[i].player == ps[i].player.(ready := false)
  {
    seq(|ps|, i requires 0 <= i < |ps| => Entry(ps[i].key, ps[i].player.(ready := false)))
  }

  /**
   * `reset_game`: outside a game the sender gets "Game not started" and
   * nothing changes; otherwise the game ends, nobody is ready, and one
   * `game_reset` (without a payload) goes out.
   */
  function ResetGameSpec(s: RoomState, sender: SocketId): (r: Step)
    ensures !s.ongoing ==> r == Step(s, [Send(sender, ErrorMsg("Game not started"))])
    ensures s.ongoing ==>
              !r.room.ongoing && ReadyCount(r.room.players) == 0 &&
              r.room == s.(ongoing := false, players := Unready(s.players)) &&
              r.effects == Broadcast(r.room.players, s.spectators, GameReset(None))
  {
    if !s.ongoing then Step(s, [Send(sender, ErrorMsg("Game not started"))])
    else
      var ps := Unready(s.players);
      Step(s.(ongoing := false, players := ps), Broadcast(ps, s.spectators, GameReset(None)))
  }

  /** `transfer_host`: an unknown key does nothing; otherwise that player's info becomes the host, announced to all. */
  function TransferHostSpec(s: RoomState, userId: string): (r: Step)
    ensures userId !in KeySet(s.players) ==> r == Step(s, [])
    ensures userId in KeySet(s.players) ==>
              var p := Get(s.players, userId).value;
              r == Step(s.(host := p.info), Broadcast(s.players, s.spectators, HostChanged(p.info)))
  {
    match Get(s.players, userId)
    case None => Step(s, [])
    case Some(p) => Step(s.(host := p.info), Broadcast(s.players, s.spectators, HostChanged(p.info)))
  }

  /** `room_settings`: the three settings are replaced, silently. */
  function RoomSettingsSpec(s: RoomState, maxPlayers: int, ft: real, isPublic: bool): (r: Step)
    ensures r.room.maxPlayers == maxPlayers && r.room.ft == ft && r.room.isPublic == Some(isPublic)
    ensures r.room == s.(maxPlayers := maxPlayers, ft := ft, isPublic := Some(isPublic))
    ensures r.room.players == s.players && r.room.spectators == s.spectators && r.room.banned == s.banned
    ensures r.room.host == s.host && r.room.ongoing == s.ongoing && r.effects == []
  {
    Step(s.(maxPlayers := maxPlayers, ft := ft, isPublic := Some(isPublic)), [])
  }

  /**
   * `handleGeneralMessage` on a room that exists: a sender whose user id is
   * not the host's changes nothing and sends nothing; the host's command is
   * dispatched. `ban` calls `add` on the room's `banned`, which is the map
   * `create` built and has no such method: the call throws before anything
   * else runs, so the handler's promise is rejected with the room and the
   * outbox untouched.
   */
  function GeneralStep(s: RoomState, conn: Connection, msg: GeneralMessage, now: int, engine: Engine): (r: Step)
    ensures conn.info.userId != s.host.userId ==> r == Step(s, [])
  {
    if conn.info.userId != s.host.userId then Step(s, [])
    else match msg
      case Kick(sessionId) => KickSpec(s, sessionId)
      case Ban(_) => Step(s, [])
      case Unban(userId) => UnbanSpec(s, userId)
      case StartGame => StartGameSpec(s, conn.id, now, engine)
      case ResetGame => ResetGameSpec(s, conn.id)
      case TransferHost(userId) => TransferHostSpec(s, userId)
      case RoomSettings(maxPlayers, ft, isPublic) => RoomSettingsSpec(s, maxPlayers, ft, isPublic)
  }

  /** A `ban`, from the host or anyone else, leaves the room, its ban map and its players as they were, and sends nothing. */
  lemma BanRejected(s: RoomState, conn: Connection, userId: string, now: int, engine: Engine)
    ensures var r := GeneralStep(s, conn, Ban(userId), now, engine);
            r.room == s && r.room.banned == s.banned && r.effects == []
  {
  }

  /** Every host command keeps the room well formed. */
  lemma GeneralStepKeepsWellFormed(s: RoomState, conn: Connection, msg: GeneralMessage, now: int, engine: Engine)
    requires WellFormed(s)
    ensures WellFormed(GeneralStep(s, conn, msg, now, engine).room)
  {
    if conn.info.userId == s.host.userId {
      match msg
      case StartGame => StartKeepsKeys(s, conn.id, now, engine);
      case ResetGame => ResetKeepsKeys(s, conn.id);
      case _ =>
    }
  }

  /** `start_game` changes no key and no id. */
  lemma StartKeepsKeys(s: RoomState, sender: SocketId, now: int, engine: Engine)
    requires WellFormed(s)
    ensures WellFormed(StartGameSpec(s, sender, now, engine).room)
  {
    var started := StartPrefix(s.players, FirstUnready(s.players), engine);
    forall i | 0 <= i < |started|
      ensures started[i].key == s.players[i].key && started[i].player.id == s.players[i].player.id
    {
    }
    var r := StartGameSpec(s, sender, now, engine);
    if r.room != s {
      assert r.room == s.(ongoing := true, players := started);
    }
  }

  /** `reset_game` changes no key and no id. */
  lemma ResetKeepsKeys(s: RoomState, sender: SocketId)
    requires WellFormed(s)
    ensures WellFormed(ResetGameSpec(s, sender).room)
  {
    var ps := Unready(s.players);
    assert forall i :: 0 <= i < |ps| ==> ps[i].key == s.players[i].key;
  }

  // ---------------------------------------------------------------------------
  // The handler on a room record

  /** One iteration of the removal loop, stated on values: an entry with another id is kept and passed over. */
  lemma DepartureKept(entries: seq<Entry>, i: int, target: string, specs: seq<SocketId>)
    requires 0 <= i < |entries| && entries[i].player.id != target
    ensures var e := entries[i];
            var kept := WithoutId(entries[..i], target);
            WithoutId(entries[..i + 1], target) == kept + [e] &&
            kept + entries[i..] == (kept + [e]) + entries[i + 1..] &&
            Departures(kept, entries[i..], target, specs) == Departures(kept + [e], entries[i + 1..], target, specs)
  {
    var e := entries[i];
    assert entries[..i + 1] == entries[..i] + [e];
    WithoutIdConcat(entries[..i], [e], target);
    assert WithoutId([e], target) == [e] + WithoutId([e][1..], target);
    var rest := entries[i..];
    assert rest[0] == e && rest[1..] == entries[i + 1..];
    assert rest == [e] + entries[i + 1..];
  }

  /** One iteration of the removal loop, stated on values: an entry with the target id departs. */
  lemma DepartureGone(entries: seq<Entry>, i: int, target: string, specs: seq<SocketId>)
    requires 0 <= i < |entries| && entries[i].player.id == target
    ensures var e := entries[i];
            var kept := WithoutId(entries[..i], target);
            WithoutId(entries[..i + 1], target) == kept &&
            Departures(kept, entries[i..], target, specs)
              == Broadcast(kept + entries[i + 1..], specs, PlayerLeft(e.key))
                 + Departures(kept, entries[i + 1..], target, specs)
  {
    var e := entries[i];
    assert entries[..i + 1] == entries[..i] + [e];
    WithoutIdConcat(entries[..i], [e], target);
    assert WithoutId([e], target) == WithoutId([e][1..], target);
    var rest := entries[i..];
    assert rest[0] == e && rest[1..] == entries[i + 1..];
  }

  /** One removal: delete the key, announce the departure. */
  method Depart(reg: Registry, room: Room, roomId: string, key: string)
    requires roomId in reg.rooms && reg.rooms[roomId] == room
    modifies reg`outbox, room`players
    ensures room.players == Delete(old(room.players), key)
    ensures reg.outbox == old(reg.outbox) + Broadcast(room.players, room.spectators, PlayerLeft(key))
  {
    room.players := Delete(room.players, key);
    reg.SendRoom(roomId, PlayerLeft(key));
    assert reg.rooms[roomId] == room;
  }

  /** One iteration of the removal loop: the entry at `i` departs when it has the target id. */
  method RemoveStep(reg: Registry, room: Room, roomId: string, entries: seq<Entry>, i: int, target: string,
                    ghost kept: seq<Entry>)
    returns (ghost kept': seq<Entry>)
    requires roomId in reg.rooms && reg.rooms[roomId] == room
    requires DistinctKeys(entries) && 0 <= i < |entries|
    requires kept == WithoutId(entries[..i], target) && room.players == kept + entries[i..]
    modifies reg`outbox, room`players
    ensures kept' == WithoutId(entries[..i + 1], target) && room.players == kept' + entries[i + 1..]
    ensures reg.outbox + Departures(kept', entries[i + 1..], target, room.spectators)
            == old(reg.outbox) + Departures(kept, entries[i..], target, room.spectators)
  {
    var sessionId := entries[i].key;
    var player := entries[i].player;
    if player.id == target {
      DepartureGone(entries, i, target, room.spectators);
      DistinctSplit(entries, i);
      assert entries[i..] == [entries[i]] + entries[i + 1..];
      DeleteEntry(kept, entries[i], entries[i + 1..]);
      AppendAssoc3(kept, [entries[i]], entries[i + 1..]);
      Depart(reg, room, roomId, sessionId);
      AppendAssoc3(old(reg.outbox), Broadcast(room.players, room.spectators, PlayerLeft(sessionId)),
                   Departures(kept, entries[i + 1..], target, room.spectators));
      kept' := kept;
    } else {
      DepartureKept(entries, i, target, room.spectators);
      kept' := kept + [entries[i]];
    }
  }

  /** The removal loop of `kick`: every player with the target id is deleted and its departure announced. */
  method RemoveById(reg: Registry, room: Room, roomId: string, target: string)
    requires roomId in reg.rooms && reg.rooms[roomId] == room && room.Valid()
    modifies reg`outbox, room`players
    ensures room.players == WithoutId(old(room.players), target)
    ensures reg.outbox == old(reg.outbox) + Departures([], old(room.players), target, room.spectators)
    ensures room.Valid()
  {
    var entries := room.players;
    ghost var kept: seq<Entry> := [];
    var i := 0;
    while i < |entries|
      invariant 0 <= i <= |entries|
      invariant kept == WithoutId(entries[..i], target)
      invariant room.players == kept + entries[i..]
      invariant reg.outbox + Departures(kept, entries[i..], target, room.spectators)
                == old(reg.outbox) + Departures([], entries, target, room.spectators)
    {
      kept := RemoveStep(reg, room, roomId, entries, i, target, kept);
      i := i + 1;
    }
    assert entries[..|entries|] == entries;
  }

  method KickCommand(reg: Registry, room: Room, roomId: string, sessionId: string)
    requires roomId in reg.rooms && reg.rooms[roomId] == room && room.Valid()
    modifies reg`outbox, room`players
    ensures room.Snapshot() == KickSpec(old(room.Snapshot()), sessionId).room
    ensures reg.outbox == old(reg.outbox) + KickSpec(old(room.Snapshot()), sessionId).effects
    ensures room.Valid()
  {
    ghost var s0 := room.Snapshot();
    var player := Get(room.players, sessionId);
    if player.None? {
      return;
    }
    reg.outbox := reg.outbox + [Close(player.value.ws, 4001)];
    ghost var out1 := reg.outbox;
    RemoveById(reg, room, roomId, sessionId);
    ghost var gone := Departures([], s0.players, sessionId, s0.spectators);
    assert reg.outbox == out1 + gone;
    AppendAssoc3(old(reg.outbox), [Close(player.value.ws, 4001)], gone);
    assert room.Snapshot() == s0.(players := WithoutId(s0.players, sessionId));
  }

  /**
   * The loop of `start_game`: players are started in map order until the
   * first one who is not ready; `finished` says whether the loop ran to
   * the end.
   */
  method StartPlayers(room: Room, engine: Engine) returns (finished: bool)
    modifies room`players
    ensures var ps := old(room.players);
            room.players == StartPrefix(ps, FirstUnready(ps), engine) &&
            (finished <==> FirstUnready(ps) == |ps|)
  {
    ghost var ps := room.players;
    ghost var k := FirstUnready(ps);
    var i := 0;
    while i < |room.players|
      invariant 0 <= i <= k
      invariant room.players == StartPrefix(ps, i, engine)
    {
      if !room.players[i].player.ready {
        return false;
      }
      var started := room.players[i].player.(playing := true, gameState := Some(engine.createGameState()));
      StartPrefixStep(ps, i, engine);
      room.players := room.players[i := Entry(room.players[i].key, started)];
      i := i + 1;
    }
    return true;
  }

  method StartGameCommand(reg: Registry, room: Room, roomId: string, sender: SocketId, now: int, engine: Engine)
    requires roomId in reg.rooms && reg.rooms[roomId] == room && room.Valid()
    modifies reg`outbox, room`players, room`ongoing
    ensures room.Snapshot() == StartGameSpec(old(room.Snapshot()), sender, now, engine).room
    ensures reg.outbox == old(reg.outbox) + StartGameSpec(old(room.Snapshot()), sender, now, engine).effects
    ensures room.Valid()
  {
    ghost var s0 := room.Snapshot();
    if ReadyCount(room.players) < 2 {
      reg.outbox := reg.outbox + [Send(sender, ErrorMsg("Not enough players"))];
      return;
    }
    if room.ongoing {
      reg.outbox := reg.outbox + [Send(sender, ErrorMsg("Game already started"))];
      return;
    }
    BeginGame(reg, room, roomId, now, engine);
    StartKeepsKeys(s0, sender, now, engine);
  }

  /** The accepted `start_game`: mark the game ongoing, start the ready prefix, announce it if everybody was ready. */
  method BeginGame(reg: Registry, room: Room, roomId: string, now: int, engine: Engine)
    requires roomId in reg.rooms && reg.rooms[roomId] == room
    modifies reg`outbox, room`players, room`ongoing
    ensures var ps := old(room.players);
            var started := StartPrefix(ps, FirstUnready(ps), engine);
            room.Snapshot() == old(room.Snapshot()).(ongoing := true, players := started) &&
            reg.outbox == old(reg.outbox) +
              (if FirstUnready(ps) < |ps| then []
               else Broadcast(started, room.spectators, GameStarted(Some(now + COUNTDOWN), Some(GetPublicPlayers(engine, started)))))
  {
    room.ongoing := true;
    var finished := StartPlayers(room, engine);
    if finished {
      reg.SendRoom(roomId, GameStarted(Some(now + COUNTDOWN), Some(GetPublicPlayers(engine, room.players))));
    }
  }

  /** The loop of `reset_game`: every player is marked not ready, in place. */
  method UnreadyAll(room: Room)
    modifies room`players
    ensures room.players == Unready(old(room.players))
  {
    ghost var ps := room.players;
    var i := 0;
    while i < |room.players|
      invariant 0 <= i <= |ps| && |room.players| == |ps|
      invariant forall j :: 0 <= j < i ==> room.players[j] == Entry(ps[j].key, ps[j].player.(ready := false))
      invariant forall j :: i <= j < |ps| ==> room.players[j] == ps[j]
    {
      room.players := room.players[i := Entry(room.players[i].key, room.players[i].player.(ready := false))];
      i := i + 1;
    }
  }

  method ResetGameCommand(reg: Registry, room: Room, roomId: string, sender: SocketId)
    requires roomId in reg.rooms && reg.rooms[roomId] == room && room.Valid()
    modifies reg`outbox, room`players, room`ongoing
    ensures room.Snapshot() == ResetGameSpec(old(room.Snapshot()), sender).room
    ensures reg.outbox == old(reg.outbox) + ResetGameSpec(old(room.Snapshot()), sender).effects
    ensures room.Valid()
  {
    if !room.ongoing {
      reg.outbox := reg.outbox + [Send(sender, ErrorMsg("Game not started"))];
      return;
    }
    room.ongoing := false;
    ghost var ps := room.players;
    UnreadyAll(room);
    assert room.players == Unready(ps);
    reg.SendRoom(roomId, GameReset(None));
    assert reg.outbox == old(reg.outbox) + Broadcast(Unready(ps), room.spectators, GameReset(None));
  }

  method TransferHostCommand(reg: Registry, room: Room, roomId: string, userId: string)
    requires roomId in reg.rooms && reg.rooms[roomId] == room && room.Valid()
    modifies reg`outbox, room`host
    ensures room.Snapshot() == TransferHostSpec(old(room.Snapshot()), userId).room
    ensures reg.outbox == old(reg.outbox) + TransferHostSpec(old(room.Snapshot()), userId).effects
    ensures room.Valid()
  {
    var player := Get(room.players, userId);
    if player.None? {
      return;
    }
    room.host := player.value.info;
    reg.SendRoom(roomId, HostChanged(player.value.info));
  }

  method UnbanCommand(room: Room, userId: string)
    requires room.Valid()
    modifies room`banned
    ensures room.Snapshot() == UnbanSpec(old(room.Snapshot()), userId).room
    ensures room.Valid()
  {
    room.banned := room.banned - {userId};
  }

  method RoomSettingsCommand(room: Room, maxPlayers: int, ft: real, isPublic: bool)
    requires room.Valid()
    modifies room`maxPlayers, room`ft, room`isPublic
    ensures room.Snapshot() == RoomSettingsSpec(old(room.Snapshot()), maxPlayers, ft, isPublic).room
    ensures room.Valid()
  {
    room.maxPlayers := maxPlayers;
    room.ft := ft;
    room.isPublic := Some(isPublic);
  }

  /**
   * `handleGeneralMessage`: a missing room does nothing; otherwise the room
   * and the outbox change exactly as `GeneralStep` says, and no other room,
   * no map and no connection changes.
   */
  method HandleGeneralMessage(reg: Registry, conn: Connection, msg: GeneralMessage, now: int, engine: Engine)
    requires conn.roomId in reg.rooms ==> reg.rooms[conn.roomId].Valid()
    modifies reg`outbox, if conn.roomId in reg.rooms then {reg.rooms[conn.roomId]} else {}
    ensures conn.roomId !in reg.rooms ==> reg.outbox == old(reg.outbox)
    ensures conn.roomId in reg.rooms ==>
              var room := reg.rooms[conn.roomId];
              room.Valid() &&
              room.Snapshot() == GeneralStep(old(room.Snapshot()), conn, msg, now, engine).room &&
              reg.outbox == old(reg.outbox) + GeneralStep(old(room.Snapshot()), conn, msg, now, engine).effects
  {
    if conn.roomId !in reg.rooms {
      return;
    }
    var room := reg.rooms[conn.roomId];
    if conn.info.userId != room.host.userId {
      return;
    }
    HostCommand(reg, room, conn, msg, now, engine);
  }

  /** The dispatch on the command name, once the sender is known to be the host. */
  method HostCommand(reg: Registry, room: Room, conn: Connection, msg: GeneralMessage, now: int, engine: Engine)
    requires conn.roomId in reg.rooms && reg.rooms[conn.roomId] == room && room.Valid()
    requires conn.info.userId == room.host.userId
    modifies reg`outbox, room
    ensures room.Valid()
    ensures room.Snapshot() == GeneralStep(old(room.Snapshot()), conn, msg, now, engine).room
    ensures reg.outbox == old(reg.outbox) + GeneralStep(old(room.Snapshot()), conn, msg, now, engine).effects
  {
    ghost var s0 := room.Snapshot();
    match msg {
      case Kick(sessionId) =>
        assert GeneralStep(s0, conn, msg, now, engine) == KickSpec(s0, sessionId);
        KickCommand(reg, room, conn.roomId, sessionId);
      case Ban(_) =>
      case Unban(userId) =>
        assert GeneralStep(s0, conn, msg, now, engine) == UnbanSpec(s0, userId);
        UnbanCommand(room, userId);
      case StartGame =>
        assert GeneralStep(s0, conn, msg, now, engine) == StartGameSpec(s0, conn.id, now, engine);
        StartGameCommand(reg, room, conn.roomId, conn.id, now, engine);
      case ResetGame =>
        assert GeneralStep(s0, conn, msg, now, engine) == ResetGameSpec(s0, conn.id);
        ResetGameCommand(reg, room, conn.roomId, conn.id);
      case TransferHost(userId) =>
        assert GeneralStep(s0, conn, msg, now, engine) == TransferHostSpec(s0, userId);
        TransferHostCommand(reg, room, conn.roomId, userId);
      case RoomSettings(maxPlayers, ft, isPublic) =>
        assert GeneralStep(s0, conn, msg, now, engine) == RoomSettingsSpec(s0, maxPlayers, ft, isPublic);
        RoomSettingsCommand(room, maxPlayers, ft, isPublic);
    }
  }
}

=== FILE: json.dfy ===
/** Parsed JSON values, the input of every zod schema in the model. */
module Json {
  import opened Wrappers

  /** A JSON value; object key order is irrelevant to the schemas, so objects are maps. */
  datatype Json =
    | JNull
    | JBool(b: bool)
    | JNumber(n: real)
    | JString(s: string)
    | JArray(items: seq<Json>)
    | JObject(fields: map<string, Json>)

  /** Property access `v[key]` on an object; absent for a missing key or a non-object. */
  function Field(v: Json, key: string): (r: Option<Json>)
    ensures r.Some? <==> v.JObject? && key in v.fields
    ensures r.Some? ==> r.value == v.fields[key]
  {
    if v.JObject? && key in v.fields then Some(v.fields[key]) else None
  }

  /** `z.string()`: the string a value holds, if it is one. */
  function AsString(v: Json): (r: Option<string>)
    ensures r.Some? <==> v.JString?
    ensures r.Some? ==> v == JString(r.value)
  {
    if v.JString? then Some(v.s) else None
  }
}

=== FILE: lifecycle.dfy ===
/**
 * What the handlers together allow over a room's life.
 *
 * The socket game flag `ongoing` is set only by `start_game`, which needs
 * two ready players; a player becomes ready only through `ready`, which is
 * ignored while `ongoing` is false. A room that `create` builds starts with
 * the flag off and nobody ready, and every handler in this model keeps it
 * so (`Idle`): on the socket side the game never starts, `start_game`
 * always answers "Not enough players", and `ready` and `unready` change
 * nothing.
 *
 * The HTTP `start` and `unban` endpoints compare the host record's `id`
 * with the caller's, but no record any handler builds carries an `id`, and
 * every handler keeps it so (`Anonymous`): those two endpoints always
 * refuse. `startRound`, which `start` calls, is not part of this model.
 */
module Lifecycle {
  import opened Wrappers
  import opened Json
  import opened Messages
  import opened Tetris
  import opened Bots
  import opened Rooms
  import opened GeneralMessages
  import opened PlayerMessages
  import opened Sockets
  import opened RoomApi

  /** Every seat satisfies `f`. */
  predicate AllSeats(ps: seq<Entry>, f: PlayerData -> bool) {
    forall e :: e in ps ==> f(e.player)
  }

  function NotReady(p: PlayerData): bool {
    !p.ready
  }

  function NoId(p: PlayerData): bool {
    p.info.id.None?
  }

  /** No socket game is under way and no seat is ready. */
  predicate Idle(s: RoomState) {
    !s.ongoing && AllSeats(s.players, NotReady)
  }

  /** Neither the host record nor any seat's record carries an `id`. */
  predicate Anonymous(s: RoomState) {
    s.host.id.None? && AllSeats(s.players, NoId)
  }

  // ---------------------------------------------------------------------------
  // Seat maps whose every seat satisfies a property

  /** Setting a seat that satisfies `f` keeps every seat satisfying it. */
  lemma {:induction false} PutAllSeats(ps: seq<Entry>, key: string, p: PlayerData, f: PlayerData -> bool)
    requires AllSeats(ps, f) && f(p)
    ensures AllSeats(Put(ps, key, p), f)
  {
    if ps != [] && ps[0].key != key {
      assert forall e :: e in ps[1..] ==> e in ps;
      PutAllSeats(ps[1..], key, p, f);
      assert ps[0] in ps;
    } else if ps != [] {
      assert forall e :: e in ps[1..] ==> e in ps;
    }
  }

  lemma DeleteAllSeats(ps: seq<Entry>, key: string, f: PlayerData -> bool)
    requires AllSeats(ps, f)
    ensures AllSeats(Delete(ps, key), f)
  {
    forall e | e in Delete(ps, key) ensures f(e.player) {
      DeleteMembers(ps, key, e);
    }
  }

  lemma WithoutIdAllSeats(ps: seq<Entry>, target: string, f: PlayerData -> bool)
    requires AllSeats(ps, f)
    ensures AllSeats(WithoutId(ps, target), f)
  {
    forall e | e in WithoutId(ps, target) ensures f(e.player) {
      WithoutIdMembers(ps, target, e);
    }
  }

  /** A seat map that agrees with one satisfying `f`, seat by seat, on `f`. */
  lemma SameSeats(ps: seq<Entry>, qs: seq<Entry>, f: PlayerData -> bool)
    requires AllSeats(ps, f) && |qs| == |ps|
    requires forall i :: 0 <= i < |ps| ==> f(qs[i].player) == f(ps[i].player)
    ensures AllSeats(qs, f)
  {
    forall e | e in qs ensures f(e.player) {
      var i :| 0 <= i < |qs| && qs[i] == e;
      assert ps[i] in ps;
    }
  }

  /** With nobody ready, nobody counts as ready. */
  lemma NoneReadyCount(ps: seq<Entry>)
    requires AllSeats(ps, NotReady)
    ensures ReadyCount(ps) == 0
  {
    forall i | 0 <= i < |ps| ensures !ps[i].player.ready {
      assert ps[i] in ps;
    }
  }

  // ---------------------------------------------------------------------------
  // Socket handlers

  /**
   * Every host command keeps a room idle; in particular `start_game` from
   * the host answers "Not enough players" to the sender alone.
   */
  lemma HostCommandsKeepIdle(s: RoomState, conn: Connection, msg: GeneralMessage, now: int, engine: Engine)
    requires Idle(s)
    ensures Idle(GeneralStep(s, conn, msg, now, engine).room)
    ensures conn.info.userId == s.host.userId && msg == StartGame ==>
              GeneralStep(s, conn, msg, now, engine) == Step(s, [Send(conn.id, ErrorMsg("Not enough players"))])
  {
    NoneReadyCount(s.players);
    if conn.info.userId == s.host.userId {
      match msg {
        case Kick(sessionId) => WithoutIdAllSeats(s.players, sessionId, NotReady);
        case _ =>
      }
    }
  }

  /** Every host command keeps a room anonymous: a new host is always some seat's record. */
  lemma HostCommandsKeepAnonymous(s: RoomState, conn: Connection, msg: GeneralMessage, now: int, engine: Engine)
    requires Anonymous(s)
    ensures Anonymous(GeneralStep(s, conn, msg, now, engine).room)
  {
    var r := GeneralStep(s, conn, msg, now, engine);
    if conn.info.userId != s.host.userId {
      assert r.room == s;
    } else {
      match msg {
        case Kick(sessionId) =>
          assert r == KickSpec(s, sessionId);
          KickKeepsAnonymous(s, sessionId);
        case Ban(_) =>
          assert r.room == s;
        case Unban(userId) =>
          assert r == UnbanSpec(s, userId);
        case StartGame =>
          assert r == StartGameSpec(s, conn.id, now, engine);
          StartResetKeepAnonymous(s, conn.id, now, engine);
        case ResetGame =>
          assert r == ResetGameSpec(s, conn.id);
          StartResetKeepAnonymous(s, conn.id, now, engine);
        case TransferHost(userId) =>
          assert r == TransferHostSpec(s, userId);
          TransferKeepsAnonymous(s, userId);
        case RoomSettings(maxPlayers, ft, isPublic) =>
          assert r == RoomSettingsSpec(s, maxPlayers, ft, isPublic);
      }
    }
  }

  /** `kick` only removes seats. */
  lemma KickKeepsAnonymous(s: RoomState, id: string)
    requires Anonymous(s)
    ensures Anonymous(KickSpec(s, id).room)
  {
    WithoutIdAllSeats(s.players, id, NoId);
  }

  /** `start_game` and `reset_game` change no id. */
  lemma StartResetKeepAnonymous(s: RoomState, sender: SocketId, now: int, engine: Engine)
    requires Anonymous(s)
    ensures Anonymous(StartGameSpec(s, sender, now, engine).room) && Anonymous(ResetGameSpec(s, sender).room)
  {
    SameSeats(s.players, StartPrefix(s.players, FirstUnready(s.players), engine), NoId);
    SameSeats(s.players, GeneralMessages.Unready(s.players), NoId);
  }

  /** `transfer_host` installs the record of a seat, whose `id` is unset. */
  lemma TransferKeepsAnonymous(s: RoomState, userId: string)
    requires Anonymous(s)
    ensures Anonymous(TransferHostSpec(s, userId).room)
  {
    var p := Get(s.players, userId);
    if p.Some? {
      assert Entry(userId, p.value) in s.players;
    }
  }

  /** Every player message keeps a room idle, and `ready` and `unready` change nothing and send nothing. */
  lemma PlayerMessagesKeepIdle(s: RoomState, sender: SocketId, req: PlayerRequest, engine: Engine)
    requires Idle(s)
    ensures Idle(PlayerStep(s, sender, req, engine).room)
    ensures !req.Commands? ==> PlayerStep(s, sender, req, engine) == Step(s, [])
  {
    if req.Commands? && sender in KeySet(s.players) {
      CommandsKeepSeats(s, sender, req.commands, engine, NotReady);
    }
  }

  /** Every player message keeps a room anonymous. */
  lemma PlayerMessagesKeepAnonymous(s: RoomState, sender: SocketId, req: PlayerRequest, engine: Engine)
    requires Anonymous(s)
    ensures Anonymous(PlayerStep(s, sender, req, engine).room)
  {
    if sender in KeySet(s.players) {
      var p := Get(s.players, sender).value;
      assert Entry(sender, p) in s.players;
      if req.Commands? {
        CommandsKeepSeats(s, sender, req.commands, engine, NoId);
      } else if s.ongoing {
        PutAllSeats(s.players, sender, p.(ready := req.Ready?), NoId);
      }
    }
  }

  /** `commands` only replaces game states, so any property of seats that ignores game states is kept. */
  lemma CommandsKeepSeats(s: RoomState, sender: SocketId, cs: seq<Command>, engine: Engine, f: PlayerData -> bool)
    requires sender in KeySet(s.players) && AllSeats(s.players, f)
    requires forall p: PlayerData, g :: f(p.(gameState := g)) == f(p)
    ensures AllSeats(CommandsSpec(s, sender, cs, engine).room.players, f)
  {
    var p := Get(s.players, sender).value;
    assert Entry(sender, p) in s.players;
    var exec := engine.executeCommands(p.gameState, cs);
    var ps1 := Put(s.players, sender, p.(gameState := Some(exec.gameState)));
    PutAllSeats(s.players, sender, p.(gameState := Some(exec.gameState)), f);
    var st := ApplyEvents(Step(s.(players := ps1), []), sender, exec.events, engine);
    ApplyEventsFrame(Step(s.(players := ps1), []), sender, exec.events, engine);
    forall i | 0 <= i < |ps1| ensures f(st.room.players[i].player) == f(ps1[i].player) {
      assert st.room.players[i].player == ps1[i].player.(gameState := st.room.players[i].player.gameState);
    }
    SameSeats(ps1, st.room.players, f);
  }

  /** Both steps of a join keep a room idle: a new seat is never ready. */
  lemma JoinKeepsIdle(s: RoomState, info: RoomInfo, ws: SocketId, spectating: bool, token: Option<string>,
                      sessionId: string, pinfo: PlayerInfo)
    requires Idle(s)
    ensures Idle(ConnectSpec(s, info, ws, spectating, token).room)
    ensures Idle(SeatSpec(s, ws, spectating, sessionId, pinfo).room)
  {
    PutAllSeats(s.players, ws, NewSeat(ws, sessionId, pinfo), NotReady);
  }

  /** A join keeps a room anonymous, because a new seat carries the connection's record, which has no `id`. */
  lemma JoinKeepsAnonymous(s: RoomState, info: RoomInfo, ws: SocketId, spectating: bool, token: Option<string>,
                           sessionId: string, profile: Profile)
    requires Anonymous(s)
    ensures Anonymous(ConnectSpec(s, info, ws, spectating, token).room)
    ensures Anonymous(SeatSpec(s, ws, spectating, sessionId, InfoOf(profile)).room)
  {
    PutAllSeats(s.players, ws, NewSeat(ws, sessionId, InfoOf(profile)), NoId);
  }

  lemma CloseKeepsIdleAndAnonymous(s: RoomState, ws: SocketId)
    ensures Idle(s) ==> Idle(CloseSpec(s, ws))
    ensures Anonymous(s) ==> Anonymous(CloseSpec(s, ws))
  {
    if Idle(s) {
      DeleteAllSeats(s.players, ws, NotReady);
    }
    if Anonymous(s) {
      DeleteAllSeats(s.players, ws, NoId);
    }
  }

  // ---------------------------------------------------------------------------
  // HTTP endpoints

  /** A new room is idle and anonymous. */
  lemma CreatedRoomIdle(profile: Profile, c: CreateRequest)
    ensures Idle(NewRoomState(profile, c)) && Anonymous(NewRoomState(profile, c))
  {
  }

  lemma {:induction false} BanSweepMembers(live: seq<Entry>, rest: seq<Entry>, targetId: string, specs: seq<SocketId>, e: Entry)
    requires e in BanSweep(live, rest, targetId, specs).players
    ensures e in live
    decreases |rest|
  {
    if rest != [] {
      var x := rest[0];
      if x.key !in KeySet(live) || x.player.info.userId != targetId {
        BanSweepMembers(live, rest[1..], targetId, specs, e);
      } else {
        BanSweepMembers(Delete(live, x.player.sessionId), rest[1..], targetId, specs, e);
        DeleteMembers(live, x.player.sessionId, e);
      }
    }
  }

  /** `start` enlists players without making anyone ready or touching records. */
  lemma StartKeepsIdle(s: RoomState, caller: Profile, roomId: string)
    ensures Idle(s) ==> Idle(StartRoom(s, caller, roomId).room)
    ensures Anonymous(s) ==> Anonymous(StartRoom(s, caller, roomId).room)
  {
    if Idle(s) {
      SameSeats(s.players, Enlisted(s.players), NotReady);
    }
    if Anonymous(s) {
      SameSeats(s.players, Enlisted(s.players), NoId);
    }
  }

  /** The ban loop only ever drops seats, and the ban map is not the host. */
  lemma BanKeepsIdle(s: RoomState, caller: Profile, targetId: string, found: bool)
    ensures Idle(s) ==> Idle(BanRoom(s, caller, targetId, found).room)
    ensures Anonymous(s) ==> Anonymous(BanRoom(s, caller, targetId, found).room)
  {
    forall x | x in BanSweep(s.players, s.players, targetId, s.spectators).players ensures x in s.players {
      BanSweepMembers(s.players, s.players, targetId, s.spectators, x);
    }
  }

  /** The remaining endpoints leave the seats and the socket game flag alone; a transferred host is the caller's record, which has no `id`. */
  lemma SettingsEndpointsKeepIdle(s: RoomState, caller: Profile, targetId: string, found: bool,
                                  bot: Option<Bot>, e: EditRequest, engine: Engine)
    requires Idle(s) && Anonymous(s)
    ensures Idle(ResetRoom(s, engine).room) && Anonymous(ResetRoom(s, engine).room)
    ensures Idle(KickRoom(s, targetId).room) && Anonymous(KickRoom(s, targetId).room)
    ensures Idle(UnbanRoom(s, caller, targetId, bot).room) && Anonymous(UnbanRoom(s, caller, targetId, bot).room)
    ensures Idle(EditRoom(s, e).room) && Anonymous(EditRoom(s, e).room)
    ensures Idle(TransferHostRoom(s, caller, found).room) && Anonymous(TransferHostRoom(s, caller, found).room)
  {
  }

  /** In an anonymous room `start` always answers 403 and `unban` always 401, whoever calls. */
  lemma HostChecksAlwaysRefuse(s: RoomState, caller: Profile, roomId: string, targetId: string, bot: Option<Bot>)
    requires Anonymous(s)
    ensures StartRoom(s, caller, roomId) == Outcome(Failure(403, "You are not the host of this room."), s, [])
    ensures UnbanRoom(s, caller, targetId, bot) == Outcome(Failure(401, "You aren't the host for this room."), s, [])
  {
  }
}

=== FILE: messages.dfy ===
/**
 * The inbound message validators of server/utils/messages.ts: `AuthSchema`
 * and `PlayerMessageSchema`, as parsers from JSON to message datatypes.
 * zod objects ignore keys they do not name, so only the named keys matter.
 */
module Messages {
  import opened Wrappers
  import opened Json

  /** The commands an `action` message may carry (`none` included). */
  datatype Command =
    | MoveLeft | MoveRight | SonicLeft | SonicRight | Drop | SonicDrop
    | RotateCw | RotateCcw | Hold | NoCommand

  function CommandName(c: Command): string {
    match c
    case MoveLeft => "move_left"
    case MoveRight => "move_right"
    case SonicLeft => "sonic_left"
    case SonicRight => "sonic_right"
    case Drop => "drop"
    case SonicDrop => "sonic_drop"
    case RotateCw => "rotate_cw"
    case RotateCcw => "rotate_ccw"
    case Hold => "hold"
    case NoCommand => "none"
  }

  /** The union of command literals: a JSON string naming one of the ten commands. */
  function ParseCommand(v: Json): (r: Option<Command>)
    ensures r.Some? ==> v == JString(CommandName(r.value))
    ensures r.None? ==> forall c: Command :: v != JString(CommandName(c))
  {
    if v == JString("move_left") then Some(MoveLeft)
    else if v == JString("move_right") then Some(MoveRight)
    else if v == JString("sonic_left") then Some(SonicLeft)
    else if v == JString("sonic_right") then Some(SonicRight)
    else if v == JString("drop") then Some(Drop)
    else if v == JString("sonic_drop") then Some(SonicDrop)
    else if v == JString("rotate_cw") then Some(RotateCw)
    else if v == JString("rotate_ccw") then Some(RotateCcw)
    else if v == JString("hold") then Some(Hold)
    else if v == JString("none") then Some(NoCommand)
    else None
  }

  /** `.array()` of commands: one element that fails rejects the whole array. */
  function ParseCommands(items: seq<Json>): (r: Option<seq<Command>>)
    ensures r.Some? <==> forall i :: 0 <= i < |items| ==> ParseCommand(items[i]).Some?
    ensures r.Some? ==> |r.value| == |items| && forall i :: 0 <= i < |items| ==> r.value[i] == ParseCommand(items[i]).value
  {
    if items == [] then Some([])
    else match (ParseCommand(items[0]), ParseCommands(items[1..]))
      case (Some(c), Some(rest)) => Some([c] + rest)
      case _ => None
  }

  datatype PlayerMessage = Action(commands: seq<Command>) | Ping

  /** The `action` branch of the union: `{ type: "action", payload: { commands: [...] } }`. */
  function ParseAction(v: Json): (r: Option<PlayerMessage>)
    ensures r.Some? ==> r.value.Action? && Field(v, "type") == Some(JString("action"))
  {
    if Field(v, "type") != Some(JString("action")) || Field(v, "payload").None? then None
    else
      var commands := Field(Field(v, "payload").value, "commands");
      if commands.None? || !commands.value.JArray? then None
      else
        match ParseCommands(commands.value.items)
        case Some(cs) => Some(Action(cs))
        case None => None
  }

  /**
   * `PlayerMessageSchema.safeParse`: the `action` object is tried first and
   * the bare `ping` object second; anything else is rejected.
   */
  function ParsePlayerMessage(v: Json): (r: Option<PlayerMessage>)
    ensures r.Some? && r.value.Action? ==> Field(v, "type") == Some(JString("action"))
    ensures r.Some? && r.value.Ping? ==> Field(v, "type") == Some(JString("ping"))
    ensures Field(v, "type") == Some(JString("ping")) ==> r == Some(Ping)
    ensures Field(v, "type") != Some(JString("action")) && Field(v, "type") != Some(JString("ping")) ==> r.None?
  {
    match ParseAction(v)
    case Some(m) => Some(m)
    case None => if Field(v, "type") == Some(JString("ping")) then Some(Ping) else None
  }

  /** The wire form of a command list. */
  function EncodeCommands(cs: seq<Command>): (r: seq<Json>)
    ensures |r| == |cs|
  {
    if cs == [] then [] else [JString(CommandName(cs[0]))] + EncodeCommands(cs[1..])
  }

  /** The wire form of a player message. */
  function EncodePlayerMessage(m: PlayerMessage): Json {
    match m
    case Ping => JObject(map["type" := JString("ping")])
    case Action(cs) =>
      JObject(map["type" := JString("action"),
                  "payload" := JObject(map["commands" := JArray(EncodeCommands(cs))])])
  }

  lemma CommandRoundTrip(c: Command)
    ensures ParseCommand(JString(CommandName(c))) == Some(c)
  {
    match c
    case MoveLeft => case MoveRight => case SonicLeft => case SonicRight => case Drop =>
    case SonicDrop => case RotateCw => case RotateCcw => case Hold => case NoCommand =>
  }

  lemma {:induction false} CommandsRoundTrip(cs: seq<Command>)
    ensures ParseCommands(EncodeCommands(cs)) == Some(cs)
  {
    if cs != [] {
      CommandRoundTrip(cs[0]);
      CommandsRoundTrip(cs[1..]);
      assert EncodeCommands(cs)[1..] == EncodeCommands(cs[1..]);
      assert [cs[0]] + cs[1..] == cs;
    }
  }

  /** Every player message survives a round trip through its wire form. */
  lemma PlayerMessageRoundTrip(m: PlayerMessage)
    ensures ParsePlayerMessage(EncodePlayerMessage(m)) == Some(m)
  {
    if m.Action? {
      CommandsRoundTrip(m.commands);
      var v := EncodePlayerMessage(m);
      assert Field(v, "type") == Some(JString("action"));
      assert Field(Field(v, "payload").value, "commands") == Some(JArray(EncodeCommands(m.commands)));
    } else {
      assert Field(EncodePlayerMessage(m), "type") == Some(JString("ping"));
    }
  }

  /**
   * An action message is accepted exactly when every element of its
   * `commands` array is one of the ten command names; an empty array is
   * accepted, and one bad element rejects the message.
   */
  lemma ActionAcceptance(payload: map<string, Json>, items: seq<Json>)
    requires "commands" in payload && payload["commands"] == JArray(items)
    ensures var v := JObject(map["type" := JString("action"), "payload" := JObject(payload)]);
            ParsePlayerMessage(v).Some? <==> forall i :: 0 <= i < |items| ==> exists c: Command :: items[i] == JString(CommandName(c))
  {
    var v := JObject(map["type" := JString("action"), "payload" := JObject(payload)]);
    forall i | 0 <= i < |items|
      ensures ParseCommand(items[i]).Some? <==> exists c: Command :: items[i] == JString(CommandName(c))
    {
      if ParseCommand(items[i]).Some? {
        assert items[i] == JString(CommandName(ParseCommand(items[i]).value));
      }
    }
    assert Field(v, "type") == Some(JString("action"));
  }

  /** An action message with an empty command list is accepted. */
  lemma EmptyActionAccepted()
    ensures ParsePlayerMessage(JObject(map["type" := JString("action"),
                                           "payload" := JObject(map["commands" := JArray([])])])) == Some(Action([]))
  {
  }

  /** A ping needs no payload. */
  lemma PingAccepted(fields: map<string, Json>)
    requires "type" in fields && fields["type"] == JString("ping")
    ensures ParsePlayerMessage(JObject(fields)) == Some(Ping)
  {
  }

  /** A message whose `type` is neither "action" nor "ping" is rejected. */
  lemma OtherTypesRejected(v: Json)
    requires Field(v, "type") != Some(JString("action")) && Field(v, "type") != Some(JString("ping"))
    ensures ParsePlayerMessage(v) == None
  {
  }

  datatype AuthMessage = Auth(userToken: string, roomToken: string)

  /** `AuthSchema`: `{ type: "auth", payload: { userToken: string, roomToken: string } }`. */
  function ParseAuth(v: Json): (r: Option<AuthMessage>)
    ensures r.Some? <==>
      Field(v, "type") == Some(JString("auth")) && Field(v, "payload").Some? &&
      AsString(Field(Field(v, "payload").value, "userToken").OrElse(JNull)).Some? &&
      AsString(Field(Field(v, "payload").value, "roomToken").OrElse(JNull)).Some?
    ensures r.Some? ==>
      Field(Field(v, "payload").value, "userToken") == Some(JString(r.value.userToken)) &&
      Field(Field(v, "payload").value, "roomToken") == Some(JString(r.value.roomToken))
  {
    if Field(v, "type") != Some(JString("auth")) || Field(v, "payload").None? then None
    else
      var payload := Field(v, "payload").value;
      match (Field(payload, "userToken"), Field(payload, "roomToken"))
      case (Some(JString(u)), Some(JString(rt))) => Some(Auth(u, rt))
      case _ => None
  }
}

=== FILE: pace.dfy ===
/**
 * The pace schedules: `getPps` (server/utils/game.ts), margins in
 * milliseconds, and `calculateMessiness` (utils/game.ts), margins in seconds.
 * Both hold the initial value before the start margin, the final value from
 * the end margin on, and interpolate linearly in between. JavaScript numbers
 * are modelled as reals: the arithmetic is plain linear interpolation.
 */
module Pace {

  /** `x` lies between `a` and `b`, whichever of the two is larger. */
  predicate Between(x: real, a: real, b: real) {
    (a <= x <= b) || (b <= x <= a)
  }

  /** The interpolation step: `initial + (final - initial) * ratio`. */
  function Lerp(initial: real, final: real, ratio: real): real {
    initial + (final - initial) * ratio
  }

  /** A non-negative amount scaled by a ratio in [0, 1] stays within [0, amount]. */
  lemma ScaleWithin(amount: real, ratio: real)
    requires amount >= 0.0 && 0.0 <= ratio <= 1.0
    ensures 0.0 <= amount * ratio <= amount
  {
    assert amount * (1.0 - ratio) >= 0.0;
  }

  lemma LerpBetween(initial: real, final: real, ratio: real)
    requires 0.0 <= ratio <= 1.0
    ensures Between(Lerp(initial, final, ratio), initial, final)
  {
    var step := (final - initial) * ratio;
    assert Lerp(initial, final, ratio) == initial + step;
    if initial <= final {
      ScaleWithin(final - initial, ratio);
      assert initial <= initial + step <= final;
    } else {
      var back := (initial - final) * ratio;
      ScaleWithin(initial - final, ratio);
      assert step == -back;
      assert final <= initial + step <= initial;
    }
  }

  /** A part of a positive span, divided by the span, is a ratio in [0, 1). */
  lemma RatioBelowOne(part: real, span: real)
    requires 0.0 <= part < span
    ensures 0.0 <= part / span < 1.0
  {
    var q := part / span;
    assert q * span == part;
  }

  /**
   * `getPps`: before `startMargin` the initial pace, once `endMargin -
   * startMargin` has elapsed since the start the final pace, and in between the
   * linear interpolation. The division is reached only when
   * `0 <= marginTime < maxMarginTime`, so its divisor is positive.
   */
  function GetPps(currentTime: real, initialPps: real, finalPps: real, startMargin: real, endMargin: real): (r: real)
    ensures currentTime < startMargin ==> r == initialPps
    ensures currentTime >= startMargin && currentTime - startMargin >= endMargin - startMargin ==> r == finalPps
    ensures Between(r, initialPps, finalPps)
  {
    var marginTime := currentTime - startMargin;
    var maxMarginTime := endMargin - startMargin;
    if marginTime < 0.0 then initialPps
    else if marginTime >= maxMarginTime then finalPps
    else
      var ratio := marginTime / maxMarginTime;
      RatioBelowOne(marginTime, maxMarginTime);
      LerpBetween(initialPps, finalPps, ratio);
      Lerp(initialPps, finalPps, ratio)
  }

  /**
   * Strictly between the margins the pace is the interpolation at the
   * fraction of the ramp elapsed, a ratio in [0, 1).
   */
  lemma GetPpsInterpolates(currentTime: real, initialPps: real, finalPps: real, startMargin: real, endMargin: real)
    requires startMargin <= currentTime < endMargin
    ensures var ratio := (currentTime - startMargin) / (endMargin - startMargin);
            0.0 <= ratio < 1.0 &&
            GetPps(currentTime, initialPps, finalPps, startMargin, endMargin) == Lerp(initialPps, finalPps, ratio)
  {
    RatioBelowOne(currentTime - startMargin, endMargin - startMargin);
  }

  /** With the end margin at or before the start margin every time from the start gets the final pace. */
  lemma GetPpsDegenerate(currentTime: real, initialPps: real, finalPps: real, startMargin: real, endMargin: real)
    requires endMargin <= startMargin <= currentTime
    ensures GetPps(currentTime, initialPps, finalPps, startMargin, endMargin) == finalPps
  {
  }

  /** Dividing by a positive span keeps the order. */
  lemma DivideKeepsOrder(a: real, b: real, span: real)
    requires a <= b && span > 0.0
    ensures a / span <= b / span
  {
    assert b / span - a / span == (b - a) / span;
  }

  /** Scaling by a non-negative amount keeps the order. */
  lemma ScaleKeepsOrder(amount: real, x: real, y: real)
    requires amount >= 0.0 && x <= y
    ensures amount * x <= amount * y
  {
    assert amount * y - amount * x == amount * (y - x);
  }

  /** A rising interpolation rises with its ratio. */
  lemma LerpMonotone(initial: real, final: real, x: real, y: real)
    requires initial <= final && x <= y
    ensures Lerp(initial, final, x) <= Lerp(initial, final, y)
  {
    ScaleKeepsOrder(final - initial, x, y);
  }

  /** When the pace rises, it never falls as time passes. */
  lemma GetPpsMonotone(t1: real, t2: real, initialPps: real, finalPps: real, startMargin: real, endMargin: real)
    requires initialPps <= finalPps && t1 <= t2
    ensures GetPps(t1, initialPps, finalPps, startMargin, endMargin) <= GetPps(t2, initialPps, finalPps, startMargin, endMargin)
  {
    var span := endMargin - startMargin;
    var m1, m2 := t1 - startMargin, t2 - startMargin;
    if 0.0 <= m1 < span && 0.0 <= m2 < span {
      DivideKeepsOrder(m1, m2, span);
      LerpMonotone(initialPps, finalPps, m1 / span, m2 / span);
      GetPpsInterpolates(t1, initialPps, finalPps, startMargin, endMargin);
      GetPpsInterpolates(t2, initialPps, finalPps, startMargin, endMargin);
    } else if m1 < 0.0 {
      // t1 still gets the initial pace, the lowest there is.
      assert GetPps(t1, initialPps, finalPps, startMargin, endMargin) == initialPps;
    } else {
      // t2 is past the ramp and gets the final pace, the highest there is.
      assert m2 >= span;
      assert GetPps(t2, initialPps, finalPps, startMargin, endMargin) == finalPps;
    }
  }

  /**
   * `calculateMessiness`: the same schedule with both margins given in
   * seconds and converted to milliseconds (x1000) before use.
   */
  function CalculateMessiness(currentTime: real, initialMessiness: real, finalMessiness: real, startMargin: real, endMargin: real): (r: real)
    ensures currentTime < startMargin * 1000.0 ==> r == initialMessiness
    ensures currentTime >= endMargin * 1000.0 && currentTime >= startMargin * 1000.0 ==> r == finalMessiness
    ensures Between(r, initialMessiness, finalMessiness)
  {
    var startMarginMs := startMargin * 1000.0;
    var endMarginMs := endMargin * 1000.0;
    var marginTime := currentTime - startMarginMs;
    var maxMarginTime := endMarginMs - startMarginMs;
    if marginTime < 0.0 then initialMessiness
    else if marginTime >= maxMarginTime then finalMessiness
    else
      var ratio := marginTime / maxMarginTime;
      RatioBelowOne(marginTime, maxMarginTime);
      LerpBetween(initialMessiness, finalMessiness, ratio);
      Lerp(initialMessiness, finalMessiness, ratio)
  }

  /** The two schedules are one shape: messiness is the pace schedule over margins scaled to milliseconds. */
  lemma MessinessIsScaledPps(currentTime: real, initial: real, final: real, startMargin: real, endMargin: real)
    ensures CalculateMessiness(currentTime, initial, final, startMargin, endMargin)
         == GetPps(currentTime, initial, final, startMargin * 1000.0, endMargin * 1000.0)
  {
  }

  /** At the start margin of a non-empty ramp the messiness is still exactly the initial value. */
  lemma MessinessAtStart(initial: real, final: real, startMargin: real, endMargin: real)
    requires endMargin > startMargin
    ensures CalculateMessiness(startMargin * 1000.0, initial, final, startMargin, endMargin) == initial
  {
    assert 0.0 / ((endMargin - startMargin) * 1000.0) == 0.0;
  }

  /** With the end margin at or before the start margin, every time from the start gets the final messiness. */
  lemma MessinessDegenerate(currentTime: real, initial: real, final: real, startMargin: real, endMargin: real)
    requires endMargin <= startMargin && currentTime >= startMargin * 1000.0
    ensures CalculateMessiness(currentTime, initial, final, startMargin, endMargin) == final
  {
  }

  /** When messiness rises, it never falls as time passes. */
  lemma MessinessMonotone(t1: real, t2: real, initial: real, final: real, startMargin: real, endMargin: real)
    requires initial <= final && t1 <= t2
    ensures CalculateMessiness(t1, initial, final, startMargin, endMargin) <= CalculateMessiness(t2, initial, final, startMargin, endMargin)
  {
    MessinessIsScaledPps(t1, initial, final, startMargin, endMargin);
    MessinessIsScaledPps(t2, initial, final, startMargin, endMargin);
    GetPpsMonotone(t1, t2, initial, final, startMargin * 1000.0, endMargin * 1000.0);
  }
}

=== FILE: players.dfy ===
/**
 * A seated player's messages over a socket: `handlePlayerMessage` in
 * server/plugins/websockets.ts. As for the host's commands, each case is a
 * specification function from the room's state to its new state and the
 * effects it emits, and a method on a `Room` proved to agree with it.
 *
 * The handler switches on `ready`, `unready` and `commands`, which are not
 * the message types the player schema accepts (`action` and `ping`); the
 * model follows the handler's own cases, so a request arrives as one of
 * them.
 */
module PlayerMessages {
  import opened Wrappers
  import opened Messages
  import opened Tetris
  import opened Rooms

  datatype PlayerRequest = Ready | Unready | Commands(commands: seq<Command>)

  predicate EveryoneReady(ps: seq<Entry>) {
    forall i :: 0 <= i < |ps| ==> ps[i].player.ready
  }

  // ---------------------------------------------------------------------------
  // ready and unready

  /**
   * `ready` and `unready`: outside a game, or from a socket with no seat,
   * nothing happens. Otherwise the sender's seat gets the new flag in
   * place and the change is announced; after a `ready`, `all_ready`
   * follows when every seat is ready.
   */
  function SetReadySpec(s: RoomState, sender: SocketId, ready: bool): (r: Step)
    ensures !s.ongoing || sender !in KeySet(s.players) ==> r == Step(s, [])
    ensures r.room == s.(players := r.room.players)
  {
    if !s.ongoing then Step(s, [])
    else match Get(s.players, sender)
      case None => Step(s, [])
      case Some(p) =>
        var ps := Put(s.players, sender, p.(ready := ready));
        var s' := s.(players := ps);
        if ready then
          Step(s', Broadcast(ps, s.spectators, PlayerReady(sender))
                   + (if EveryoneReady(ps) then Broadcast(ps, s.spectators, AllReady) else []))
        else Step(s', Broadcast(ps, s.spectators, PlayerUnready(sender)))
  }

  /** Outside a game, `ready` and `unready` are ignored. */
  lemma SetReadyNeedsGame(s: RoomState, sender: SocketId, ready: bool)
    requires !s.ongoing
    ensures SetReadySpec(s, sender, ready) == Step(s, [])
  {
  }

  /**
   * During a game, the sender's seat and no other changes, only in its
   * flag, and the seats keep their keys; one announcement goes to every
   * player and spectator, and a second one, `all_ready`, exactly when the
   * flag was set and every seat is now ready.
   */
  lemma SetReadyChangesOnlySender(s: RoomState, sender: SocketId, ready: bool, other: string)
    requires s.ongoing && sender in KeySet(s.players)
    ensures var r := SetReadySpec(s, sender, ready);
            var p := Get(s.players, sender).value;
            Get(r.room.players, sender) == Some(p.(ready := ready)) &&
            (other != sender ==> Get(r.room.players, other) == Get(s.players, other)) &&
            KeySet(r.room.players) == KeySet(s.players) &&
            |r.effects| == (if ready && EveryoneReady(r.room.players) then 2 else 1) * (|s.players| + |s.spectators|)
  {
    var p := Get(s.players, sender).value;
    PutGet(s.players, sender, p.(ready := ready), other);
  }

  /**
   * During a game, `ready` and `unready` announce the sender's new flag to
   * every player and spectator; after a `ready` that leaves every seat
   * ready, `all_ready` follows to the same recipients, and only then.
   */
  lemma SetReadyAnnounces(s: RoomState, sender: SocketId, ready: bool)
    requires s.ongoing && sender in KeySet(s.players)
    ensures var r := SetReadySpec(s, sender, ready);
            var news := if ready then PlayerReady(sender) else PlayerUnready(sender);
            r.effects == Broadcast(s.players, s.spectators, news)
                         + (if ready && EveryoneReady(r.room.players) then Broadcast(s.players, s.spectators, AllReady) else [])
  {
    var p := Get(s.players, sender).value;
    var ps := Put(s.players, sender, p.(ready := ready));
    PutKeepsSockets(s.players, sender, p.(ready := ready));
    BroadcastSameSockets(ps, s.players, s.spectators, if ready then PlayerReady(sender) else PlayerUnready(sender));
    BroadcastSameSockets(ps, s.players, s.spectators, AllReady);
  }

  /**
   * Each recipient gets the sender's `player_ready` (or `player_unready`)
   * once for each place it holds among the players' sockets and the
   * spectators, and `all_ready` as often exactly when it is sent.
   */
  lemma SetReadyDeliveries(s: RoomState, sender: SocketId, ready: bool, to: SocketId)
    requires s.ongoing && sender in KeySet(s.players)
    ensures var r := SetReadySpec(s, sender, ready);
            var news := if ready then PlayerReady(sender) else PlayerUnready(sender);
            var n := Occurrences(Recipients(s.players, s.spectators), to);
            Delivered(r.effects, to, news) == n &&
            Delivered(r.effects, to, AllReady) == (if ready && EveryoneReady(r.room.players) then n else 0)
  {
    var news := if ready then PlayerReady(sender) else PlayerUnready(sender);
    var all := ready && EveryoneReady(SetReadySpec(s, sender, ready).room.players);
    SetReadyAnnounces(s, sender, ready);
    TwoBroadcastsDeliver(s.players, s.spectators, news, AllReady, all, to, news);
    TwoBroadcastsDeliver(s.players, s.spectators, news, AllReady, all, to, AllReady);
  }

  // ---------------------------------------------------------------------------
  // commands

  /**
   * One attack: every seat whose player id is not the sender's gets one
   * fresh garbage packet of that many lines queued onto its game state;
   * the sender's seat is passed over.
   */
  function AttackAll(ps: seq<Entry>, sender: SocketId, lines: int, engine: Engine): (r: seq<Entry>)
    ensures |r| == |ps|
    ensures forall i :: 0 <= i < |ps| ==>
              r[i].key == ps[i].key && r[i].player == ps[i].player.(gameState := r[i].player.gameState)
    ensures forall i :: 0 <= i < |ps| && ps[i].player.id == sender ==> r[i] == ps[i]
    ensures forall i :: 0 <= i < |ps| && ps[i].player.id != sender ==>
              r[i].player.gameState == Some(engine.queueGarbage(ps[i].player.gameState, engine.generateGarbage(lines)))
  {
    seq(|ps|, i requires 0 <= i < |ps| =>
      if ps[i].player.id == sender then ps[i]
      else Entry(ps[i].key, ps[i].player.(gameState := Some(engine.queueGarbage(ps[i].player.gameState, engine.generateGarbage(lines))))))
  }

  /** One event of the engine's report: `game_over` is announced, `attack` sends garbage, anything else is ignored. */
  function ApplyEvent(st: Step, sender: SocketId, ev: GameEvent, engine: Engine): Step {
    match ev
    case GameOverEvent => Step(st.room, st.effects + Broadcast(st.room.players, st.room.spectators, PlayerDied(sender)))
    case AttackEvent(lines) => Step(st.room.(players := AttackAll(st.room.players, sender, lines, engine)), st.effects)
    case OtherEvent(_) => st
  }

  /** The events, handled in the order the engine reported them. */
  function ApplyEvents(st: Step, sender: SocketId, evs: seq<GameEvent>, engine: Engine): (r: Step)
    ensures r.room == st.room.(players := r.room.players) && |r.room.players| == |st.room.players|
    ensures st.effects <= r.effects
  {
    if evs == [] then st
    else ApplyEvent(ApplyEvents(st, sender, evs[..|evs| - 1], engine), sender, evs[|evs| - 1], engine)
  }

  /**
   * `commands`: a socket with no seat is ignored. Otherwise the engine runs
   * the commands on the sender's game state, the seat takes the new state,
   * the reported events are handled in order, and one `player_commands`
   * with the commands, the public form of the new state and the events
   * goes to everybody.
   */
  function CommandsSpec(s: RoomState, sender: SocketId, cs: seq<Command>, engine: Engine): (r: Step)
    ensures sender !in KeySet(s.players) ==> r == Step(s, [])
    ensures r.room == s.(players := r.room.players)
  {
    match Get(s.players, sender)
    case None => Step(s, [])
    case Some(p) =>
      var exec := engine.executeCommands(p.gameState, cs);
      var s1 := s.(players := Put(s.players, sender, p.(gameState := Some(exec.gameState))));
      ApplyEventsFrame(Step(s1, []), sender, exec.events, engine);
      var st := ApplyEvents(Step(s1, []), sender, exec.events, engine);
      Step(st.room, st.effects + Broadcast(st.room.players, st.room.spectators,
                                           PlayerCommands(sender, cs, engine.getPublicGameState(Some(exec.gameState)), exec.events)))
  }

  /** The number of `game_over` events in a report. */
  function GameOvers(evs: seq<GameEvent>): nat {
    if evs == [] then 0 else GameOvers(evs[..|evs| - 1]) + (if evs[|evs| - 1].GameOverEvent? then 1 else 0)
  }

  /** `n` copies of the same sends, one after another. */
  function Repeat(n: nat, es: seq<Effect>): seq<Effect> {
    if n == 0 then [] else Repeat(n - 1, es) + es
  }

  /** Two seat lists with the same sockets at the same places reach the same recipients. */
  lemma BroadcastSameSockets(ps: seq<Entry>, qs: seq<Entry>, specs: seq<SocketId>, m: ServerMessage)
    requires |ps| == |qs| && forall i :: 0 <= i < |ps| ==> ps[i].player.ws == qs[i].player.ws
    ensures Broadcast(ps, specs, m) == Broadcast(qs, specs, m)
    ensures Recipients(ps, specs) == Recipients(qs, specs)
  {
  }

  /** Setting a present key to a player with the same socket keeps every seat's socket in place. */
  lemma PutKeepsSockets(ps: seq<Entry>, key: string, p: PlayerData)
    requires key in KeySet(ps) && p.ws == Get(ps, key).value.ws
    ensures var r := Put(ps, key, p);
            |r| == |ps| && forall j :: 0 <= j < |ps| ==> r[j].player.ws == ps[j].player.ws
  {
    var i := GetIndex(ps, key);
    PutInPlace(ps, key, p, i);
  }

  /** `n` copies of some sends deliver `n` times what one copy delivers. */
  lemma {:induction false} DeliveredRepeat(n: nat, es: seq<Effect>, to: SocketId, m: ServerMessage)
    ensures Delivered(Repeat(n, es), to, m) == n * Delivered(es, to, m)
  {
    if n > 0 {
      DeliveredRepeat(n - 1, es, to, m);
      DeliveredConcat(Repeat(n - 1, es), es, to, m);
      assert (n - 1) * Delivered(es, to, m) + Delivered(es, to, m) == n * Delivered(es, to, m);
    }
  }

  /**
   * Handling the events touches only game states: every seat keeps its key,
   * its socket and all its other fields, the sender's seat is untouched,
   * nothing else in the room changes, and the effects are one `player_died`
   * announcement per `game_over` event, all to the same recipients.
   */
  lemma {:induction false} ApplyEventsFrame(st: Step, sender: SocketId, evs: seq<GameEvent>, engine: Engine)
    ensures var r := ApplyEvents(st, sender, evs, engine);
            var ps := st.room.players;
            r.room == st.room.(players := r.room.players) && |r.room.players| == |ps| &&
            (forall i :: 0 <= i < |ps| ==>
               r.room.players[i].key == ps[i].key &&
               r.room.players[i].player == ps[i].player.(gameState := r.room.players[i].player.gameState)) &&
            (forall i :: 0 <= i < |ps| && ps[i].player.id == sender ==> r.room.players[i] == ps[i]) &&
            r.effects == st.effects + Repeat(GameOvers(evs), Broadcast(ps, st.room.spectators, PlayerDied(sender)))
  {
    if evs == [] {
      assert st.effects + [] == st.effects;
    } else {
      var init := evs[..|evs| - 1];
      var mid := ApplyEvents(st, sender, init, engine);
      ApplyEventsFrame(st, sender, init, engine);
      var died := Broadcast(st.room.players, st.room.spectators, PlayerDied(sender));
      BroadcastSameSockets(mid.room.players, st.room.players, st.room.spectators, PlayerDied(sender));
      if evs[|evs| - 1].GameOverEvent? {
        AppendAssoc3(st.effects, Repeat(GameOvers(init), died), died);
      }
    }
  }

  /**
   * After `commands` from a seated sender in a well-formed room, the
   * sender's seat holds exactly the state the engine returned (attacks pass
   * over it), and every seat keeps its key.
   */
  lemma CommandsUpdatesSender(s: RoomState, sender: SocketId, cs: seq<Command>, engine: Engine)
    requires WellFormed(s) && sender in KeySet(s.players)
    ensures var p := Get(s.players, sender).value;
            var exec := engine.executeCommands(p.gameState, cs);
            var r := CommandsSpec(s, sender, cs, engine);
            Get(r.room.players, sender) == Some(p.(gameState := Some(exec.gameState))) &&
            KeySet(r.room.players) == KeySet(s.players)
  {
    var p := Get(s.players, sender).value;
    var exec := engine.executeCommands(p.gameState, cs);
    var p' := p.(gameState := Some(exec.gameState));
    var ps1 := Put(s.players, sender, p');
    var st := ApplyEvents(Step(s.(players := ps1), []), sender, exec.events, engine);
    assert CommandsSpec(s, sender, cs, engine).room == st.room;
    PutGet(s.players, sender, p', sender);
    ApplyEventsFrame(Step(s.(players := ps1), []), sender, exec.events, engine);
    // The seat found under the sender's key is the one whose id is the sender.
    var i := GetIndex(ps1, sender);
    assert p.id == sender by {
      var j :| 0 <= j < |s.players| && s.players[j] == Entry(sender, p);
    }
    PutKeepsShape(s.players, sender, p');
    KeySetSameKeys(ps1, st.room.players);
    GetSameEntry(ps1, st.room.players, i);
  }

  /** `commands` from a seated sender sends one announcement per `game_over` event and one `player_commands`, each to everybody. */
  lemma CommandsEffectCount(s: RoomState, sender: SocketId, cs: seq<Command>, engine: Engine)
    requires sender in KeySet(s.players)
    ensures var p := Get(s.players, sender).value;
            var exec := engine.executeCommands(p.gameState, cs);
            |CommandsSpec(s, sender, cs, engine).effects| == (GameOvers(exec.events) + 1) * (|s.players| + |s.spectators|)
  {
    var p := Get(s.players, sender).value;
    var exec := engine.executeCommands(p.gameState, cs);
    var ps1 := Put(s.players, sender, p.(gameState := Some(exec.gameState)));
    var st := ApplyEvents(Step(s.(players := ps1), []), sender, exec.events, engine);
    ApplyEventsFrame(Step(s.(players := ps1), []), sender, exec.events, engine);
    var n, died := GameOvers(exec.events), Broadcast(ps1, s.spectators, PlayerDied(sender));
    assert |ps1| == |s.players|;
    assert |CommandsSpec(s, sender, cs, engine).effects| == |Repeat(n, died)| + |died|;
    assert Repeat(n + 1, died) == Repeat(n, died) + died;
    RepeatLength(n + 1, died);
  }

  /**
   * `commands` from a seated sender sends, for each `game_over` event in
   * the engine's report, one `player_died` for the sender to every player
   * and spectator, then one `player_commands` with the commands, the public
   * form of the new state and the events, to the same recipients.
   */
  lemma CommandsAnnounces(s: RoomState, sender: SocketId, cs: seq<Command>, engine: Engine)
    requires sender in KeySet(s.players)
    ensures var p := Get(s.players, sender).value;
            var exec := engine.executeCommands(p.gameState, cs);
            CommandsSpec(s, sender, cs, engine).effects
              == Repeat(GameOvers(exec.events), Broadcast(s.players, s.spectators, PlayerDied(sender)))
                 + Broadcast(s.players, s.spectators,
                             PlayerCommands(sender, cs, engine.getPublicGameState(Some(exec.gameState)), exec.events))
  {
    var p := Get(s.players, sender).value;
    var exec := engine.executeCommands(p.gameState, cs);
    var news := PlayerCommands(sender, cs, engine.getPublicGameState(Some(exec.gameState)), exec.events);
    var ps1 := Put(s.players, sender, p.(gameState := Some(exec.gameState)));
    var st := ApplyEvents(Step(s.(players := ps1), []), sender, exec.events, engine);
    assert CommandsSpec(s, sender, cs, engine).effects == st.effects + Broadcast(st.room.players, st.room.spectators, news);
    ApplyEventsFrame(Step(s.(players := ps1), []), sender, exec.events, engine);
    var died := Broadcast(ps1, s.spectators, PlayerDied(sender));
    assert st.effects == [] + Repeat(GameOvers(exec.events), died);
    assert [] + Repeat(GameOvers(exec.events), died) == Repeat(GameOvers(exec.events), died);
    PutKeepsSockets(s.players, sender, p.(gameState := Some(exec.gameState)));
    BroadcastSameSockets(ps1, s.players, s.spectators, PlayerDied(sender));
    BroadcastSameSockets(st.room.players, s.players, s.spectators, news);
  }

  /**
   * Each recipient gets `player_commands` once, and the sender's
   * `player_died` once per `game_over` event, for each place it holds
   * among the players' sockets and the spectators.
   */
  lemma CommandsDeliveries(s: RoomState, sender: SocketId, cs: seq<Command>, engine: Engine, to: SocketId)
    requires sender in KeySet(s.players)
    ensures var p := Get(s.players, sender).value;
            var exec := engine.executeCommands(p.gameState, cs);
            var news := PlayerCommands(sender, cs, engine.getPublicGameState(Some(exec.gameState)), exec.events);
            var n := Occurrences(Recipients(s.players, s.spectators), to);
            var r := CommandsSpec(s, sender, cs, engine);
            Delivered(r.effects, to, news) == n &&
            Delivered(r.effects, to, PlayerDied(sender)) == GameOvers(exec.events) * n
  {
    var p := Get(s.players, sender).value;
    var exec := engine.executeCommands(p.gameState, cs);
    var news := PlayerCommands(sender, cs, engine.getPublicGameState(Some(exec.gameState)), exec.events);
    var died := PlayerDied(sender);
    var deaths := Repeat(GameOvers(exec.events), Broadcast(s.players, s.spectators, died));
    var last := Broadcast(s.players, s.spectators, news);
    CommandsAnnounces(s, sender, cs, engine);
    DeliveredBlocks(deaths, last, GameOvers(exec.events), s.players, s.spectators, died, news, to);
  }

  /** `k` broadcasts of `died` and then one of `news`: how many copies of each a recipient gets. */
  lemma DeliveredBlocks(deaths: seq<Effect>, last: seq<Effect>, k: nat, ps: seq<Entry>, specs: seq<SocketId>,
                        died: ServerMessage, news: ServerMessage, to: SocketId)
    requires died != news
    requires deaths == Repeat(k, Broadcast(ps, specs, died)) && last == Broadcast(ps, specs, news)
    ensures var n := Occurrences(Recipients(ps, specs), to);
            Delivered(deaths + last, to, news) == n && Delivered(deaths + last, to, died) == k * n
  {
    BroadcastDelivers(ps, specs, died, to, died);
    BroadcastDelivers(ps, specs, died, to, news);
    BroadcastDelivers(ps, specs, news, to, died);
    BroadcastDelivers(ps, specs, news, to, news);
    DeliveredRepeat(k, Broadcast(ps, specs, died), to, died);
    DeliveredRepeat(k, Broadcast(ps, specs, died), to, news);
    DeliveredConcat(deaths, last, to, news);
    DeliveredConcat(deaths, last, to, died);
  }

  lemma {:induction false} RepeatLength(n: nat, es: seq<Effect>)
    ensures |Repeat(n, es)| == n * |es|
  {
    if n > 0 {
      RepeatLength(n - 1, es);
    }
  }

  /** The index at which `get` finds a key. */
  lemma GetIndex(ps: seq<Entry>, key: string) returns (i: int)
    requires key in KeySet(ps)
    ensures 0 <= i < |ps| && ps[i].key == key && Get(ps, key) == Some(ps[i].player)
    ensures forall j :: 0 <= j < i ==> ps[j].key != key
  {
    if ps[0].key == key {
      i := 0;
    } else {
      assert key in KeySet(ps[1..]) by {
        var e :| e in ps && e.key == key;
        var j :| 0 <= j < |ps| && ps[j] == e;
        assert ps[1..][j - 1] == e;
      }
      i := GetIndex(ps[1..], key);
      i := i + 1;
    }
  }

  /** Two seat lists with the same keys in the same places have the same key set. */
  lemma KeySetSameKeys(ps: seq<Entry>, qs: seq<Entry>)
    requires |ps| == |qs| && forall i :: 0 <= i < |ps| ==> ps[i].key == qs[i].key
    ensures KeySet(ps) == KeySet(qs)
  {
    forall k | k in KeySet(ps) ensures k in KeySet(qs) {
      var e :| e in ps && e.key == k;
      var j :| 0 <= j < |ps| && ps[j] == e;
      assert qs[j] in qs;
    }
    forall k | k in KeySet(qs) ensures k in KeySet(ps) {
      var e :| e in qs && e.key == k;
      var j :| 0 <= j < |qs| && qs[j] == e;
      assert ps[j] in ps;
    }
  }

  /** With distinct keys in the same places, an unchanged entry is still what `get` finds. */
  lemma GetSameEntry(ps: seq<Entry>, qs: seq<Entry>, i: int)
    requires DistinctKeys(ps) && |ps| == |qs| && forall j :: 0 <= j < |ps| ==> ps[j].key == qs[j].key
    requires 0 <= i < |ps| && qs[i] == ps[i]
    ensures Get(qs, ps[i].key) == Some(ps[i].player)
  {
    assert DistinctKeys(qs) by {
      forall a, b | 0 <= a < b < |qs| ensures qs[a].key != qs[b].key {
        assert ps[a].key != ps[b].key;
      }
    }
    GetAt(qs, i);
  }

  // ---------------------------------------------------------------------------
  // The handler on a room record

  /** `handlePlayerMessage` on a room that exists. */
  function PlayerStep(s: RoomState, sender: SocketId, req: PlayerRequest, engine: Engine): (r: Step)
    ensures r.room == s.(players := r.room.players)
  {
    match req
    case Ready => SetReadySpec(s, sender, true)
    case Unready => SetReadySpec(s, sender, false)
    case Commands(cs) => CommandsSpec(s, sender, cs, engine)
  }

  method SetReadyCommand(reg: Registry, room: Room, roomId: string, sender: SocketId, ready: bool)
    requires roomId in reg.rooms && reg.rooms[roomId] == room
    modifies reg`outbox, room`players
    ensures room.Snapshot() == SetReadySpec(old(room.Snapshot()), sender, ready).room
    ensures reg.outbox == old(reg.outbox) + SetReadySpec(old(room.Snapshot()), sender, ready).effects
  {
    if !room.ongoing {
      return;
    }
    var player := Get(room.players, sender);
    if player.None? {
      return;
    }
    room.players := Put(room.players, sender, player.value.(ready := ready));
    if ready {
      reg.SendRoom(roomId, PlayerReady(sender));
      if EveryoneReady(room.players) {
        reg.SendRoom(roomId, AllReady);
        AppendAssoc3(old(reg.outbox), Broadcast(room.players, room.spectators, PlayerReady(sender)),
                     Broadcast(room.players, room.spectators, AllReady));
      } else {
        assert Broadcast(room.players, room.spectators, PlayerReady(sender)) + []
            == Broadcast(room.players, room.spectators, PlayerReady(sender));
      }
    } else {
      reg.SendRoom(roomId, PlayerUnready(sender));
    }
  }

  /** The loop over the seats for one attack. */
  method Attack(room: Room, sender: SocketId, lines: int, engine: Engine)
    modifies room`players
    ensures room.players == AttackAll(old(room.players), sender, lines, engine)
  {
    ghost var ps := room.players;
    var i := 0;
    while i < |room.players|
      invariant 0 <= i <= |ps| && |room.players| == |ps|
      invariant forall j :: 0 <= j < i ==> room.players[j] == AttackAll(ps, sender, lines, engine)[j]
      invariant forall j :: i <= j < |ps| ==> room.players[j] == ps[j]
    {
      var player := room.players[i].player;
      if player.id != sender {
        var garbage := engine.generateGarbage(lines);
        room.players := room.players[i := Entry(room.players[i].key, player.(gameState := Some(engine.queueGarbage(player.gameState, garbage))))];
      }
      i := i + 1;
    }
  }

  /** The loop over the reported events. */
  method RunEvents(reg: Registry, room: Room, roomId: string, sender: SocketId, events: seq<GameEvent>, engine: Engine)
    requires roomId in reg.rooms && reg.rooms[roomId] == room
    modifies reg`outbox, room`players
    ensures var st := ApplyEvents(Step(old(room.Snapshot()), []), sender, events, engine);
            room.Snapshot() == st.room && reg.outbox == old(reg.outbox) + st.effects
  {
    ghost var s0 := room.Snapshot();
    var i := 0;
    while i < |events|
      invariant 0 <= i <= |events|
      invariant var st := ApplyEvents(Step(s0, []), sender, events[..i], engine);
                room.Snapshot() == st.room && reg.outbox == old(reg.outbox) + st.effects
    {
      ghost var st := ApplyEvents(Step(s0, []), sender, events[..i], engine);
      assert events[..i + 1][..i] == events[..i];
      var ev := events[i];
      if ev.GameOverEvent? {
        reg.SendRoom(roomId, PlayerDied(sender));
        AppendAssoc3(old(reg.outbox), st.effects, Broadcast(room.players, room.spectators, PlayerDied(sender)));
      }
      if ev.AttackEvent? {
        Attack(room, sender, ev.lines, engine);
      }
      i := i + 1;
    }
    assert events[..|events|] == events;
  }

  method CommandsCommand(reg: Registry, room: Room, roomId: string, sender: SocketId, cs: seq<Command>, engine: Engine)
    requires roomId in reg.rooms && reg.rooms[roomId] == room
    modifies reg`outbox, room`players
    ensures room.Snapshot() == CommandsSpec(old(room.Snapshot()), sender, cs, engine).room
    ensures reg.outbox == old(reg.outbox) + CommandsSpec(old(room.Snapshot()), sender, cs, engine).effects
  {
    var player := Get(room.players, sender);
    if player.None? {
      return;
    }
    var exec := engine.executeCommands(player.value.gameState, cs);
    room.players := Put(room.players, sender, player.value.(gameState := Some(exec.gameState)));
    ghost var st := ApplyEvents(Step(room.Snapshot(), []), sender, exec.events, engine);
    RunEvents(reg, room, roomId, sender, exec.events, engine);
    reg.SendRoom(roomId, PlayerCommands(sender, cs, engine.getPublicGameState(Some(exec.gameState)), exec.events));
    AppendAssoc3(old(reg.outbox), st.effects,
                 Broadcast(room.players, room.spectators,
                           PlayerCommands(sender, cs, engine.getPublicGameState(Some(exec.gameState)), exec.events)));
  }

  /**
   * `handlePlayerMessage`: a missing room does nothing; otherwise the room's
   * seats and the outbox change exactly as `PlayerStep` says, and nothing
   * else does.
   */
  method HandlePlayerMessage(reg: Registry, conn: Connection, req: PlayerRequest, engine: Engine)
    modifies reg`outbox, if conn.roomId in reg.rooms then {reg.rooms[conn.roomId]} else {}
    ensures conn.roomId !in reg.rooms ==> reg.outbox == old(reg.outbox)
    ensures conn.roomId in reg.rooms ==>
              var room := reg.rooms[conn.roomId];
              room.Snapshot() == PlayerStep(old(room.Snapshot()), conn.id, req, engine).room &&
              reg.outbox == old(reg.outbox) + PlayerStep(old(room.Snapshot()), conn.id, req, engine).effects
  {
    if conn.roomId !in reg.rooms {
      return;
    }
    var room := reg.rooms[conn.roomId];
    match req {
      case Ready => SetReadyCommand(reg, room, conn.roomId, conn.id, true);
      case Unready => SetReadyCommand(reg, room, conn.roomId, conn.id, false);
      case Commands(cs) => CommandsCommand(reg, room, conn.roomId, conn.id, cs, engine);
    }
  }
}

=== FILE: room_api.dfy ===
/**
 * The HTTP room endpoints under server/api/room: `create`, `start`,
 * `reset`, `kick`, `ban`, `unban`, `edit` and `transferHost`.
 *
 * Every endpoint first authenticates the caller (the signed-in profile is
 * an input, absent when `checkAuth` finds none), then validates the body
 * with its zod schema, then looks the room up in the registry. Each
 * endpoint that works on an existing room is a specification function from
 * the room's state to an `Outcome` and a method that performs it in place
 * and is proved to agree with that function. Store lookups (`prisma`) are
 * inputs: whether the target profile exists, and the target bot row.
 */
module RoomApi {
  import opened Wrappers
  import opened Json
  import opened Bots
  import opened Tetris
  import opened Rooms

  /** What an endpoint answers: success, the new room's id, an HTTP error, or an uncaught exception (a 500). */
  datatype Reply = Success | Created(roomId: string) | Failure(status: int, message: string) | Thrown

  const UNAUTHORIZED := Failure(401, "Unauthorized")
  const SCHEMA_MISMATCH := Failure(400, "Doesn't match schema.")
  const ROOM_NOT_FOUND := Failure(404, "Room not found.")
  const PLAYER_NOT_FOUND := Failure(404, "Player not found.")

  /** An endpoint's answer together with the room's new state and what was sent or closed, in order. */
  datatype Outcome = Outcome(reply: Reply, room: RoomState, effects: seq<Effect>)

  /** The record the endpoints build from the caller's profile, for the host and for the ban list. */
  function CallerInfo(profile: Profile): (r: PlayerInfo)
    ensures r.userId == profile.id && r.bot == profile.name && r.creator == profile.creator
    ensures r.avatar == Some(profile.avatar) && r.id.None?
  {
    PlayerInfo(profile.id, None, profile.creator, profile.name, Some(profile.avatar))
  }

  // ---------------------------------------------------------------------------
  // Request bodies

  function StringField(v: Json, key: string): (r: Option<string>)
    ensures r.Some? <==> Field(v, key).Some? && Field(v, key).value.JString?
    ensures r.Some? ==> Field(v, key) == Some(JString(r.value))
  {
    match Field(v, key)
    case Some(JString(s)) => Some(s)
    case _ => None
  }

  function NumberField(v: Json, key: string): (r: Option<real>)
    ensures r.Some? <==> Field(v, key).Some? && Field(v, key).value.JNumber?
    ensures r.Some? ==> Field(v, key) == Some(JNumber(r.value))
  {
    match Field(v, key)
    case Some(JNumber(n)) => Some(n)
    case _ => None
  }

  function BoolField(v: Json, key: string): (r: Option<bool>)
    ensures r.Some? <==> Field(v, key).Some? && Field(v, key).value.JBool?
    ensures r.Some? ==> Field(v, key) == Some(JBool(r.value))
  {
    match Field(v, key)
    case Some(JBool(b)) => Some(b)
    case _ => None
  }

  /** The schemas `{ roomId: string }` of `start` and `reset`. */
  function ParseRoomId(v: Json): (r: Option<string>)
    ensures r.Some? <==> Field(v, "roomId").Some? && Field(v, "roomId").value.JString?
    ensures r.Some? ==> Field(v, "roomId") == Some(JString(r.value))
  {
    StringField(v, "roomId")
  }

  datatype TargetRequest = TargetRequest(roomId: string, targetId: string)

  /** The schemas `{ roomId: string, targetId: string }` of `kick`, `ban`, `unban` and `transferHost`. */
  function ParseTarget(v: Json): (r: Option<TargetRequest>)
    ensures r.Some? <==> StringField(v, "roomId").Some? && StringField(v, "targetId").Some?
    ensures r.Some? ==> Field(v, "roomId") == Some(JString(r.value.roomId)) &&
                        Field(v, "targetId") == Some(JString(r.value.targetId))
  {
    match (StringField(v, "roomId"), StringField(v, "targetId"))
    case (Some(roomId), Some(targetId)) => Some(TargetRequest(roomId, targetId))
    case _ => None
  }

  function EncodeTarget(t: TargetRequest): Json {
    JObject(map["roomId" := JString(t.roomId), "targetId" := JString(t.targetId)])
  }

  lemma TargetRoundTrip(t: TargetRequest)
    ensures ParseTarget(EncodeTarget(t)) == Some(t)
  {
    assert Field(EncodeTarget(t), "roomId") == Some(JString(t.roomId));
    assert Field(EncodeTarget(t), "targetId") == Some(JString(t.targetId));
  }

  datatype CreateRequest = CreateRequest(
    isPrivate: bool, ft: real, pps: real, initialMultiplier: real, finalMultiplier: real,
    startMargin: real, endMargin: real)

  /** The bounds of `CreateGameSchema`. */
  predicate CreateBounds(c: CreateRequest) {
    1.0 <= c.ft <= 999.0 && 0.0 < c.pps <= 30.0 &&
    0.0 <= c.initialMultiplier <= 20.0 && 0.0 <= c.finalMultiplier <= 20.0 &&
    c.startMargin >= 0.0 && c.endMargin >= 0.0
  }

  /** `CreateGameSchema`: a boolean `private` and six numbers within their bounds. */
  function ParseCreate(v: Json): (r: Option<CreateRequest>)
    ensures r.Some? ==> CreateBounds(r.value)
    ensures r.Some? ==> Field(v, "private") == Some(JBool(r.value.isPrivate)) &&
                        Field(v, "ft") == Some(JNumber(r.value.ft)) &&
                        Field(v, "pps") == Some(JNumber(r.value.pps)) &&
                        Field(v, "initialMultiplier") == Some(JNumber(r.value.initialMultiplier)) &&
                        Field(v, "finalMultiplier") == Some(JNumber(r.value.finalMultiplier)) &&
                        Field(v, "startMargin") == Some(JNumber(r.value.startMargin)) &&
                        Field(v, "endMargin") == Some(JNumber(r.value.endMargin))
  {
    match (BoolField(v, "private"), NumberField(v, "ft"), NumberField(v, "pps"),
           NumberField(v, "initialMultiplier"), NumberField(v, "finalMultiplier"),
           NumberField(v, "startMargin"), NumberField(v, "endMargin"))
    case (Some(p), Some(ft), Some(pps), Some(im), Some(fm), Some(sm), Some(em)) =>
      var c := CreateRequest(p, ft, pps, im, fm, sm, em);
      if CreateBounds(c) then Some(c) else None
    case _ => None
  }

  function EncodeCreate(c: CreateRequest): Json {
    JObject(map["private" := JBool(c.isPrivate), "ft" := JNumber(c.ft), "pps" := JNumber(c.pps),
                "initialMultiplier" := JNumber(c.initialMultiplier), "finalMultiplier" := JNumber(c.finalMultiplier),
                "startMargin" := JNumber(c.startMargin), "endMargin" := JNumber(c.endMargin)])
  }

  /** A request within the bounds is accepted exactly as sent; one outside them never is. */
  lemma CreateRoundTrip(c: CreateRequest)
    ensures ParseCreate(EncodeCreate(c)) == (if CreateBounds(c) then Some(c) else None)
  {
    var v := EncodeCreate(c);
    assert BoolField(v, "private") == Some(c.isPrivate);
    assert NumberField(v, "ft") == Some(c.ft);
    assert NumberField(v, "pps") == Some(c.pps);
    assert NumberField(v, "initialMultiplier") == Some(c.initialMultiplier);
    assert NumberField(v, "finalMultiplier") == Some(c.finalMultiplier);
    assert NumberField(v, "startMargin") == Some(c.startMargin);
    assert NumberField(v, "endMargin") == Some(c.endMargin);
  }

  datatype EditRequest = EditRequest(
    roomId: string, isPrivate: bool, ft: real, initialPps: real, finalPps: real, startMargin: real, endMargin: real)

  /** The bounds of `EditGameSchema`; note the tighter `ft` and the strictly positive margins. */
  predicate EditBounds(e: EditRequest) {
    1.0 <= e.ft <= 99.0 && 0.0 < e.initialPps <= 30.0 && 0.0 < e.finalPps <= 30.0 &&
    e.startMargin > 0.0 && e.endMargin > 0.0
  }

  /** `EditGameSchema`: the room id, a boolean `private` and five numbers within their bounds. */
  function ParseEdit(v: Json): (r: Option<EditRequest>)
    ensures r.Some? ==> EditBounds(r.value)
    ensures r.Some? ==> Field(v, "roomId") == Some(JString(r.value.roomId)) &&
                        Field(v, "private") == Some(JBool(r.value.isPrivate)) &&
                        Field(v, "ft") == Some(JNumber(r.value.ft)) &&
                        Field(v, "initialPps") == Some(JNumber(r.value.initialPps)) &&
                        Field(v, "finalPps") == Some(JNumber(r.value.finalPps)) &&
                        Field(v, "startMargin") == Some(JNumber(r.value.startMargin)) &&
                        Field(v, "endMargin") == Some(JNumber(r.value.endMargin))
  {
    match (StringField(v, "roomId"), BoolField(v, "private"), NumberField(v, "ft"),
           NumberField(v, "initialPps"), NumberField(v, "finalPps"),
           NumberField(v, "startMargin"), NumberField(v, "endMargin"))
    case (Some(id), Some(p), Some(ft), Some(ip), Some(fp), Some(sm), Some(em)) =>
      var e := EditRequest(id, p, ft, ip, fp, sm, em);
      if EditBounds(e) then Some(e) else None
    case _ => None
  }

  function EncodeEdit(e: EditRequest): Json {
    JObject(map["roomId" := JString(e.roomId), "private" := JBool(e.isPrivate), "ft" := JNumber(e.ft),
                "initialPps" := JNumber(e.initialPps), "finalPps" := JNumber(e.finalPps),
                "startMargin" := JNumber(e.startMargin), "endMargin" := JNumber(e.endMargin)])
  }

  lemma EditRoundTrip(e: EditRequest)
    ensures ParseEdit(EncodeEdit(e)) == (if EditBounds(e) then Some(e) else None)
  {
    var v := EncodeEdit(e);
    assert StringField(v, "roomId") == Some(e.roomId);
    assert BoolField(v, "private") == Some(e.isPrivate);
    assert NumberField(v, "ft") == Some(e.ft);
    assert NumberField(v, "initialPps") == Some(e.initialPps);
    assert NumberField(v, "finalPps") == Some(e.finalPps);
    assert NumberField(v, "startMargin") == Some(e.startMargin);
    assert NumberField(v, "endMargin") == Some(e.endMargin);
  }

  // ---------------------------------------------------------------------------
  // The checks before the room is touched

  /**
   * The answer an endpoint gives before it reaches the room, if any: no
   * profile is a 401, a body the schema rejects is `schemaError`, an
   * unknown room is a 404.
   */
  function Gate<R>(profile: Option<Profile>, req: Option<R>, schemaError: Reply, found: bool): (r: Option<Reply>)
    ensures r.None? <==> profile.Some? && req.Some? && found
    ensures profile.None? ==> r == Some(UNAUTHORIZED)
    ensures profile.Some? && req.None? ==> r == Some(schemaError)
    ensures profile.Some? && req.Some? && !found ==> r == Some(ROOM_NOT_FOUND)
  {
    if profile.None? then Some(UNAUTHORIZED)
    else if req.None? then Some(schemaError)
    else if !found then Some(ROOM_NOT_FOUND)
    else None
  }

  /** The room a parsed body names, if the registry has it. */
  function Named(rooms: map<string, Room>, roomId: Option<string>): (r: Option<Room>)
    ensures r.Some? <==> roomId.Some? && roomId.value in rooms
    ensures r.Some? ==> r.value == rooms[roomId.value]
  {
    if roomId.Some? && roomId.value in rooms then Some(rooms[roomId.value]) else None
  }

  function Objects(r: Option<Room>): set<Room> {
    if r.Some? then {r.value} else {}
  }

  function TargetRoomId(req: Option<TargetRequest>): Option<string> {
    if req.Some? then Some(req.value.roomId) else None
  }

  function EditRoomId(req: Option<EditRequest>): Option<string> {
    if req.Some? then Some(req.value.roomId) else None
  }

  // ---------------------------------------------------------------------------
  // create

  /** Some candidate id is not taken yet. */
  predicate Available(taken: set<string>, candidates: seq<string>) {
    exists k :: 0 <= k < |candidates| && candidates[k] !in taken
  }

  /** The id the `create` loop settles on: the first candidate not taken. */
  function FirstFree(taken: set<string>, candidates: seq<string>): (id: string)
    requires Available(taken, candidates)
    ensures id !in taken
    ensures exists k :: 0 <= k < |candidates| && candidates[k] == id && forall j :: 0 <= j < k ==> candidates[j] in taken
  {
    if candidates[0] !in taken then candidates[0]
    else
      var k :| 0 <= k < |candidates| && candidates[k] !in taken;
      assert candidates[1..][k - 1] == candidates[k];
      var id := FirstFree(taken, candidates[1..]);
      var k' :| 0 <= k' < |candidates[1..]| && candidates[1..][k'] == id &&
                forall j :: 0 <= j < k' ==> candidates[1..][j] in taken;
      assert candidates[k' + 1] == id;
      assert forall j :: 0 <= j < k' + 1 ==> candidates[j] in taken by {
        forall j | 0 <= j < k' + 1 ensures candidates[j] in taken {
          if j > 0 { assert candidates[j] == candidates[1..][j - 1]; }
        }
      }
      id
  }

  /** The room `create` builds: the caller's profile as host, two seats, no game yet, nobody banned or inside. */
  function NewRoomState(profile: Profile, c: CreateRequest): (s: RoomState)
    ensures s.host == CallerInfo(profile) && s.maxPlayers == 2
    ensures s.isPrivate == c.isPrivate && s.ft == c.ft && s.startMargin == c.startMargin && s.endMargin == c.endMargin
    ensures !s.ongoing && !s.gameOngoing && !s.roundOngoing
    ensures s.players == [] && s.spectators == [] && s.banned == map[]
  {
    RoomState(CallerInfo(profile), None, c.isPrivate, c.ft, 2, false, false, false, None, None,
              c.startMargin, c.endMargin, map[], [], [])
  }

  /**
   * `create`: after the checks, the first candidate id not in use names a
   * new room, filed under that id, and nothing else in the registry
   * changes. `first` is what `genRoomId` returns and `retries` what the
   * successive `nanoid` calls return; `now` is `Date.now()`.
   */
  method Create(reg: Registry, profile: Option<Profile>, body: Json, first: string, retries: seq<string>, now: int)
    returns (reply: Reply)
    requires profile.Some? && ParseCreate(body).Some? ==> Available(reg.rooms.Keys, [first] + retries)
    modifies reg`rooms
    ensures profile.None? ==> reply == UNAUTHORIZED && reg.rooms == old(reg.rooms)
    ensures profile.Some? && ParseCreate(body).None? ==> reply == SCHEMA_MISMATCH && reg.rooms == old(reg.rooms)
    ensures profile.Some? && ParseCreate(body).Some? ==>
              var id := FirstFree(old(reg.rooms).Keys, [first] + retries);
              var c := ParseCreate(body).value;
              reply == Created(id) && id !in old(reg.rooms) && id in reg.rooms &&
              reg.rooms == old(reg.rooms)[id := reg.rooms[id]] && fresh(reg.rooms[id]) &&
              reg.rooms[id].id == id && reg.rooms[id].createdAt == now &&
              reg.rooms[id].pps == c.pps && reg.rooms[id].initialMultiplier == c.initialMultiplier &&
              reg.rooms[id].finalMultiplier == c.finalMultiplier &&
              reg.rooms[id].Snapshot() == NewRoomState(profile.value, c) && reg.rooms[id].Valid()
    ensures old(reg.Filed()) ==> reg.Filed()
  {
    if profile.None? {
      return UNAUTHORIZED;
    }
    var parsed := ParseCreate(body);
    if parsed.None? {
      return SCHEMA_MISMATCH;
    }
    var c := parsed.value;
    var roomId := PickRoomId(reg.rooms.Keys, first, retries);
    var room := new Room(roomId, now, CallerInfo(profile.value), c.isPrivate, c.ft, c.pps,
                         c.initialMultiplier, c.finalMultiplier, c.startMargin, c.endMargin);
    reg.rooms := reg.rooms[roomId := room];
    return Created(roomId);
  }

  /** The id loop of `create`: the first id, then fresh ones while the current one is taken. */
  method PickRoomId(taken: set<string>, first: string, retries: seq<string>) returns (roomId: string)
    requires Available(taken, [first] + retries)
    ensures roomId == FirstFree(taken, [first] + retries)
  {
    ghost var cs := [first] + retries;
    roomId := first;
    var i := 0;
    while roomId in taken
      invariant 0 <= i < |cs| && roomId == cs[i]
      invariant Available(taken, cs[i..])
      invariant FirstFree(taken, cs) == FirstFree(taken, cs[i..])
      decreases |retries| - i
    {
      ghost var k :| 0 <= k < |cs[i..]| && cs[i..][k] !in taken;
      assert k > 0;
      assert cs[i..][1..] == cs[i + 1..];
      assert cs[i + 1..][k - 1] == cs[i..][k];
      roomId := retries[i];
      i := i + 1;
    }
  }

  // ---------------------------------------------------------------------------
  // start

  /** The start loop's effect on the seats: every player plays, with no wins yet. */
  function Enlisted(ps: seq<Entry>): (r: seq<Entry>)
    ensures |r| == |ps|
    ensures forall i :: 0 <= i < |ps| ==>
              r[i].key == ps[i].key && r[i].player.playing && r[i].player.wins == Some(0) &&
              r[i].player.(playing := ps[i].player.playing, wins := ps[i].player.wins) == ps[i].player
  {
    seq(|ps|, i requires 0 <= i < |ps| => Entry(ps[i].key, ps[i].player.(wins := Some(0), playing := true)))
  }

  /** Enlisting every player keeps the seats' keys and ids, so a well-formed room stays well formed. */
  lemma EnlistedKeepsShape(s: RoomState)
    requires WellFormed(s)
    ensures WellFormed(s.(players := Enlisted(s.players)))
    ensures KeySet(Enlisted(s.players)) == KeySet(s.players)
  {
    var r := Enlisted(s.players);
    forall k | k in KeySet(r) ensures k in KeySet(s.players) {
      var e :| e in r && e.key == k;
      var i :| 0 <= i < |r| && r[i] == e;
      assert s.players[i] in s.players;
    }
    forall k | k in KeySet(s.players) ensures k in KeySet(r) {
      var e :| e in s.players && e.key == k;
      var i :| 0 <= i < |s.players| && s.players[i] == e;
      assert r[i] in r;
    }
  }

  /**
   * `start` on an existing room: the caller must be the host by `host.id`,
   * and the room must hold two to `maxPlayers` players and no game; then
   * every player is enlisted, `game_started` goes out without a payload,
   * and a round starts.
   */
  function StartRoom(s: RoomState, caller: Profile, roomId: string): (o: Outcome)
    ensures o.reply.Success? <==> s.host.id == Some(caller.id) && 2 <= |s.players| <= s.maxPlayers && !s.gameOngoing
    ensures !o.reply.Success? ==> o.room == s && o.effects == [] && o.reply.Failure?
    ensures s.host.id != Some(caller.id) ==> o.reply == Failure(403, "You are not the host of this room.")
    ensures s.host.id == Some(caller.id) && |s.players| < 2 ==>
              o.reply == Failure(400, "You need at 2 players to start the room.")
    ensures s.host.id == Some(caller.id) && 2 <= |s.players| && |s.players| > s.maxPlayers ==>
              o.reply == Failure(400, "Too many players.")
    ensures s.host.id == Some(caller.id) && 2 <= |s.players| <= s.maxPlayers && s.gameOngoing ==>
              o.reply == Failure(400, "Game already started.")
    ensures o.reply.Success? ==>
              o.room == s.(players := Enlisted(s.players)) &&
              o.effects == Broadcast(o.room.players, s.spectators, GameStarted(None, None)) + [StartRound(roomId)]
  {
    if s.host.id != Some(caller.id) then Outcome(Failure(403, "You are not the host of this room."), s, [])
    else if |s.players| < 2 then Outcome(Failure(400, "You need at 2 players to start the room."), s, [])
    else if |s.players| > s.maxPlayers then Outcome(Failure(400, "Too many players."), s, [])
    else if s.gameOngoing then Outcome(Failure(400, "Game already started."), s, [])
    else
      var ps := Enlisted(s.players);
      Outcome(Success, s.(players := ps), Broadcast(ps, s.spectators, GameStarted(None, None)) + [StartRound(roomId)])
  }

  /** A host record without an `id` (every host `create` and `transferHost` write) makes `start` answer 403. */
  lemma StartNeedsHostId(s: RoomState, caller: Profile, roomId: string)
    requires s.host.id.None?
    ensures StartRoom(s, caller, roomId).reply == Failure(403, "You are not the host of this room.")
  {
  }

  /** The start loop, in place. */
  method EnlistAll(room: Room)
    modifies room`players
    ensures room.players == Enlisted(old(room.players))
  {
    ghost var ps := room.players;
    var i := 0;
    while i < |room.players|
      invariant 0 <= i <= |ps| && |room.players| == |ps|
      invariant forall j :: 0 <= j < i ==> room.players[j] == Enlisted(ps)[j]
      invariant forall j :: i <= j < |ps| ==> room.players[j] == ps[j]
    {
      room.players := room.players[i := Entry(room.players[i].key, room.players[i].player.(wins := Some(0), playing := true))];
      i := i + 1;
    }
  }

  method StartOnRoom(reg: Registry, room: Room, roomId: string, caller: Profile) returns (reply: Reply)
    requires roomId in reg.rooms && reg.rooms[roomId] == room && room.id == roomId && room.Valid()
    modifies reg`outbox, room`players
    ensures var o := StartRoom(old(room.Snapshot()), caller, roomId);
            reply == o.reply && room.Snapshot() == o.room && reg.outbox == old(reg.outbox) + o.effects
    ensures room.Valid()
  {
    ghost var s := room.Snapshot();
    if room.host.id != Some(caller.id) {
      return Failure(403, "You are not the host of this room.");
    }
    if |room.players| < 2 {
      return Failure(400, "You need at 2 players to start the room.");
    }
    if |room.players| > room.maxPlayers {
      return Failure(400, "Too many players.");
    }
    if room.gameOngoing {
      return Failure(400, "Game already started.");
    }
    EnlistAll(room);
    EnlistedKeepsShape(s);
    reg.SendRoom(room.id, GameStarted(None, None));
    reg.outbox := reg.outbox + [StartRound(room.id)];
    return Success;
  }

  /** `start`. The room is sent to by its own `id`, which is the id it is filed under. */
  method Start(reg: Registry, profile: Option<Profile>, body: Json) returns (reply: Reply)
    requires reg.Filed()
    requires var r := Named(reg.rooms, ParseRoomId(body)); r.Some? ==> r.value.Valid()
    modifies reg`outbox, Objects(Named(reg.rooms, ParseRoomId(body)))
    ensures var g := Gate(profile, ParseRoomId(body), SCHEMA_MISMATCH, Named(reg.rooms, ParseRoomId(body)).Some?);
            g.Some? ==> reply == g.value && reg.outbox == old(reg.outbox)
    ensures var r := Named(reg.rooms, ParseRoomId(body));
            profile.Some? && r.Some? ==>
              var o := StartRoom(old(r.value.Snapshot()), profile.value, ParseRoomId(body).value);
              reply == o.reply && r.value.Snapshot() == o.room && reg.outbox == old(reg.outbox) + o.effects &&
              r.value.Valid()
  {
    var roomId := ParseRoomId(body);
    var g := Gate(profile, roomId, SCHEMA_MISMATCH, Named(reg.rooms, roomId).Some?);
    if g.Some? {
      return g.value;
    }
    reply := StartOnRoom(reg, reg.rooms[roomId.value], roomId.value, profile.value);
  }

  // ---------------------------------------------------------------------------
  // reset

  /** `reset` on an existing room: a room with no game answers 400; otherwise both game flags clear and `game_reset` carries the public players. */
  function ResetRoom(s: RoomState, engine: Engine): (o: Outcome)
    ensures o.reply.Success? <==> s.gameOngoing
    ensures !s.gameOngoing ==> o == Outcome(Failure(400, "Game not started."), s, [])
    ensures s.gameOngoing ==>
              o.room == s.(gameOngoing := false, roundOngoing := false) &&
              o.effects == Broadcast(s.players, s.spectators, GameReset(Some(GetPublicPlayers(engine, s.players))))
  {
    if !s.gameOngoing then Outcome(Failure(400, "Game not started."), s, [])
    else
      Outcome(Success, s.(gameOngoing := false, roundOngoing := false),
              Broadcast(s.players, s.spectators, GameReset(Some(GetPublicPlayers(engine, s.players)))))
  }

  /** `reset`; a body that does not match its schema throws, which answers 500. */
  method Reset(reg: Registry, profile: Option<Profile>, body: Json, engine: Engine) returns (reply: Reply)
    modifies reg`outbox, Objects(Named(reg.rooms, ParseRoomId(body)))
    ensures var g := Gate(profile, ParseRoomId(body), Thrown, Named(reg.rooms, ParseRoomId(body)).Some?);
            g.Some? ==> reply == g.value && reg.outbox == old(reg.outbox)
    ensures var r := Named(reg.rooms, ParseRoomId(body));
            profile.Some? && r.Some? ==>
              var o := ResetRoom(old(r.value.Snapshot()), engine);
              reply == o.reply && r.value.Snapshot() == o.room && reg.outbox == old(reg.outbox) + o.effects
  {
    if profile.None? {
      return UNAUTHORIZED;
    }
    var roomId := ParseRoomId(body);
    if roomId.None? {
      return Thrown;
    }
    if roomId.value !in reg.rooms {
      return ROOM_NOT_FOUND;
    }
    var room := reg.rooms[roomId.value];
    if !room.gameOngoing {
      return Failure(400, "Game not started.");
    }
    room.gameOngoing := false;
    room.roundOngoing := false;
    reg.SendRoom(roomId.value, GameReset(Some(GetPublicPlayers(engine, room.players))));
    return Success;
  }

  // ---------------------------------------------------------------------------
  // kick

  /**
   * `kick` on an existing room: an unknown key answers 404; otherwise the
   * player's socket is closed with 4001 and its session id is announced as
   * gone, but the seat itself stays in the room.
   */
  function KickRoom(s: RoomState, targetId: string): (o: Outcome)
    ensures o.room == s
    ensures o.reply.Success? <==> targetId in KeySet(s.players)
    ensures targetId !in KeySet(s.players) ==> o.reply == PLAYER_NOT_FOUND && o.effects == []
    ensures targetId in KeySet(s.players) ==>
              var p := Get(s.players, targetId).value;
              Entry(targetId, p) in s.players &&
              o.effects == [Close(p.ws, 4001)] + Broadcast(s.players, s.spectators, PlayerLeft(p.sessionId))
  {
    match Get(s.players, targetId)
    case None => Outcome(PLAYER_NOT_FOUND, s, [])
    case Some(p) => Outcome(Success, s, [Close(p.ws, 4001)] + Broadcast(s.players, s.spectators, PlayerLeft(p.sessionId)))
  }

  /** `kick`; a body that does not match its schema throws, which answers 500. No room changes. */
  method Kick(reg: Registry, profile: Option<Profile>, body: Json) returns (reply: Reply)
    modifies reg`outbox
    ensures var g := Gate(profile, ParseTarget(body), Thrown, Named(reg.rooms, TargetRoomId(ParseTarget(body))).Some?);
            g.Some? ==> reply == g.value && reg.outbox == old(reg.outbox)
    ensures var r := Named(reg.rooms, TargetRoomId(ParseTarget(body)));
            profile.Some? && r.Some? ==>
              var o := KickRoom(r.value.Snapshot(), ParseTarget(body).value.targetId);
              reply == o.reply && reg.outbox == old(reg.outbox) + o.effects
  {
    if profile.None? {
      return UNAUTHORIZED;
    }
    var req := ParseTarget(body);
    if req.None? {
      return Thrown;
    }
    if req.value.roomId !in reg.rooms {
      return ROOM_NOT_FOUND;
    }
    reply := KickOnRoom(reg, reg.rooms[req.value.roomId], req.value.roomId, req.value.targetId);
  }

  method KickOnRoom(reg: Registry, room: Room, roomId: string, targetId: string) returns (reply: Reply)
    requires roomId in reg.rooms && reg.rooms[roomId] == room
    modifies reg`outbox
    ensures var o := KickRoom(room.Snapshot(), targetId);
            reply == o.reply && reg.outbox == old(reg.outbox) + o.effects
  {
    var player := Get(room.players, targetId);
    if player.None? {
      return PLAYER_NOT_FOUND;
    }
    ghost var out0 := reg.outbox;
    var close := [Close(player.value.ws, 4001)];
    reg.outbox := reg.outbox + close;
    reg.SendRoom(roomId, PlayerLeft(player.value.sessionId));
    AppendAssoc3(out0, close, Broadcast(room.players, room.spectators, PlayerLeft(player.value.sessionId)));
    return Success;
  }

  // ---------------------------------------------------------------------------
  // ban

  /** The seats left and the effects of the ban loop. */
  datatype Sweep = Sweep(players: seq<Entry>, effects: seq<Effect>)

  /**
   * The ban loop over a live map: `live` is the map as it stands and
   * `rest` the entries still to visit, in their original order; an entry
   * deleted before it is reached is not visited. A visited player of the
   * target user has its socket closed with 4002, the entry under its
   * `sessionId` field is deleted, and its key goes out as `player_left`.
   */
  function BanSweep(live: seq<Entry>, rest: seq<Entry>, targetId: string, specs: seq<SocketId>): (r: Sweep)
    ensures KeySet(r.players) <= KeySet(live)
    ensures DistinctKeys(live) ==> DistinctKeys(r.players)
    ensures KeyedById(live) ==> KeyedById(r.players)
    decreases |rest|
  {
    if rest == [] then Sweep(live, [])
    else
      var e := rest[0];
      if e.key !in KeySet(live) || e.player.info.userId != targetId then BanSweep(live, rest[1..], targetId, specs)
      else
        var left := Delete(live, e.player.sessionId);
        DeleteKeepsShape(live, e.player.sessionId);
        var tail := BanSweep(left, rest[1..], targetId, specs);
        Sweep(tail.players, [Close(e.player.ws, 4002)] + Broadcast(left, specs, PlayerLeft(e.key)) + tail.effects)
  }

  /** No seat's `sessionId` field is the key of a seat, as with the fresh session ids the join handler assigns. */
  predicate SessionsApart(ps: seq<Entry>) {
    forall i, j :: 0 <= i < |ps| && 0 <= j < |ps| ==> ps[i].player.sessionId != ps[j].key
  }

  /** The effects of the ban loop when it deletes nothing: per visited target seat, a close and a `player_left` to everybody. */
  function BanNotices(rest: seq<Entry>, ps: seq<Entry>, targetId: string, specs: seq<SocketId>): seq<Effect>
    decreases |rest|
  {
    if rest == [] then []
    else if rest[0].player.info.userId != targetId then BanNotices(rest[1..], ps, targetId, specs)
    else [Close(rest[0].player.ws, 4002)] + Broadcast(ps, specs, PlayerLeft(rest[0].key)) + BanNotices(rest[1..], ps, targetId, specs)
  }

  /**
   * The ban loop deletes by the `sessionId` field rather than by the key it
   * iterates. With session ids apart from the keys, it therefore removes
   * nobody: every seat of the banned user stays, while its socket is closed
   * with 4002 and its departure is announced.
   */
  lemma {:induction false} BanSweepKeepsSeats(ps: seq<Entry>, rest: seq<Entry>, targetId: string, specs: seq<SocketId>)
    requires SessionsApart(ps) && forall e :: e in rest ==> e in ps
    ensures BanSweep(ps, rest, targetId, specs) == Sweep(ps, BanNotices(rest, ps, targetId, specs))
    decreases |rest|
  {
    if rest != [] {
      var e := rest[0];
      assert e in rest;
      assert forall x :: x in rest[1..] ==> x in rest;
      BanSweepKeepsSeats(ps, rest[1..], targetId, specs);
      if e.key in KeySet(ps) && e.player.info.userId == targetId {
        var i :| 0 <= i < |ps| && ps[i] == e;
        assert e.player.sessionId !in KeySet(ps) by {
          forall x | x in ps ensures x.key != e.player.sessionId {
            var j :| 0 <= j < |ps| && ps[j] == x;
          }
        }
        DeleteAbsent(ps, e.player.sessionId);
      }
    }
  }

  /** Every seat of the target user gets its socket closed with 4002. */
  lemma {:induction false} BanNoticesCloseEach(rest: seq<Entry>, ps: seq<Entry>, targetId: string, specs: seq<SocketId>, i: int)
    requires 0 <= i < |rest| && rest[i].player.info.userId == targetId
    ensures Close(rest[i].player.ws, 4002) in BanNotices(rest, ps, targetId, specs)
    decreases |rest|
  {
    if i > 0 {
      BanNoticesCloseEach(rest[1..], ps, targetId, specs, i - 1);
    }
  }

  /** `ban` on an existing room: an unknown target profile answers 404; otherwise the caller's record enters the ban map, the loop runs, and `player_banned` follows. */
  function BanRoom(s: RoomState, caller: Profile, targetId: string, targetFound: bool): (o: Outcome)
    ensures !targetFound ==> o == Outcome(PLAYER_NOT_FOUND, s, [])
    ensures targetFound ==>
              var sw := BanSweep(s.players, s.players, targetId, s.spectators);
              o.reply == Success &&
              o.room == s.(banned := s.banned[caller.id := CallerInfo(caller)], players := sw.players) &&
              o.effects == sw.effects + Broadcast(sw.players, s.spectators, PlayerBanned(CallerInfo(caller)))
  {
    if !targetFound then Outcome(PLAYER_NOT_FOUND, s, [])
    else
      var info := CallerInfo(caller);
      var sw := BanSweep(s.players, s.players, targetId, s.spectators);
      Outcome(Success, s.(banned := s.banned[caller.id := info], players := sw.players),
              sw.effects + Broadcast(sw.players, s.spectators, PlayerBanned(info)))
  }

  /**
   * In a room whose session ids are apart from its keys, a ban keeps every
   * seat, records the caller (not the target) in the ban map, and closes
   * every socket of the target user with 4002.
   */
  lemma BanRoomKeepsSeats(s: RoomState, caller: Profile, targetId: string, i: int)
    requires SessionsApart(s.players) && 0 <= i < |s.players| && s.players[i].player.info.userId == targetId
    ensures var o := BanRoom(s, caller, targetId, true);
            o.room.players == s.players && caller.id in o.room.banned &&
            o.room.banned[caller.id].userId == caller.id &&
            Close(s.players[i].player.ws, 4002) in o.effects
  {
    BanSweepKeepsSeats(s.players, s.players, targetId, s.spectators);
    BanNoticesCloseEach(s.players, s.players, targetId, s.spectators, i);
  }

  /** One step of the sweep, stated on values: how the entry at `i` is handled. */
  lemma BanSweepStep(live: seq<Entry>, entries: seq<Entry>, i: int, targetId: string, specs: seq<SocketId>)
    requires 0 <= i < |entries|
    ensures var e := entries[i];
            var here := BanSweep(live, entries[i..], targetId, specs);
            if e.key !in KeySet(live) || e.player.info.userId != targetId then
              here == BanSweep(live, entries[i + 1..], targetId, specs)
            else
              var left := Delete(live, e.player.sessionId);
              var tail := BanSweep(left, entries[i + 1..], targetId, specs);
              here == Sweep(tail.players, [Close(e.player.ws, 4002)] + Broadcast(left, specs, PlayerLeft(e.key)) + tail.effects)
  {
    var rest := entries[i..];
    assert rest[0] == entries[i] && rest[1..] == entries[i + 1..];
  }

  /** One iteration of the ban loop: a live seat of the target user is closed, deleted by its `sessionId` field and announced. */
  method SweepOne(reg: Registry, room: Room, roomId: string, entries: seq<Entry>, i: int, targetId: string)
    requires roomId in reg.rooms && reg.rooms[roomId] == room && 0 <= i < |entries|
    modifies reg`outbox, room`players
    ensures var before := BanSweep(old(room.players), entries[i..], targetId, room.spectators);
            var after := BanSweep(room.players, entries[i + 1..], targetId, room.spectators);
            after.players == before.players && reg.outbox + after.effects == old(reg.outbox) + before.effects
  {
    var sessionId := entries[i].key;
    var player := entries[i].player;
    BanSweepStep(room.players, entries, i, targetId, room.spectators);
    if sessionId in KeySet(room.players) && player.info.userId == targetId {
      reg.outbox := reg.outbox + [Close(player.ws, 4002)];
      room.players := Delete(room.players, player.sessionId);
      reg.SendRoom(roomId, PlayerLeft(sessionId));
      AppendAssoc(old(reg.outbox), [Close(player.ws, 4002)], Broadcast(room.players, room.spectators, PlayerLeft(sessionId)),
                  BanSweep(room.players, entries[i + 1..], targetId, room.spectators).effects);
    }
  }

  /** The loop of `ban` over a snapshot of the players map, skipping entries deleted meanwhile. */
  method SweepBanned(reg: Registry, room: Room, roomId: string, targetId: string)
    requires roomId in reg.rooms && reg.rooms[roomId] == room
    modifies reg`outbox, room`players
    ensures var sw := BanSweep(old(room.players), old(room.players), targetId, room.spectators);
            room.players == sw.players && reg.outbox == old(reg.outbox) + sw.effects
  {
    var entries := room.players;
    ghost var full := BanSweep(entries, entries, targetId, room.spectators);
    var i := 0;
    while i < |entries|
      invariant 0 <= i <= |entries|
      invariant BanSweep(room.players, entries[i..], targetId, room.spectators).players == full.players
      invariant reg.outbox + BanSweep(room.players, entries[i..], targetId, room.spectators).effects == old(reg.outbox) + full.effects
    {
      SweepOne(reg, room, roomId, entries, i, targetId);
      i := i + 1;
    }
    assert entries[|entries|..] == [];
  }

  method BanOnRoom(reg: Registry, room: Room, roomId: string, caller: Profile, targetId: string, targetFound: bool)
    returns (reply: Reply)
    requires roomId in reg.rooms && reg.rooms[roomId] == room && room.Valid()
    modifies reg`outbox, room`players, room`banned
    ensures var o := BanRoom(old(room.Snapshot()), caller, targetId, targetFound);
            reply == o.reply && room.Snapshot() == o.room && reg.outbox == old(reg.outbox) + o.effects
    ensures room.Valid()
  {
    if !targetFound {
      return PLAYER_NOT_FOUND;
    }
    ghost var s0 := room.Snapshot();
    ghost var out0 := reg.outbox;
    var info := CallerInfo(caller);
    room.banned := room.banned[caller.id := info];
    SweepBanned(reg, room, roomId, targetId);
    ghost var sw := BanSweep(s0.players, s0.players, targetId, s0.spectators);
    assert room.Snapshot() == s0.(banned := s0.banned[caller.id := info], players := sw.players);
    assert reg.outbox == out0 + sw.effects;
    reg.SendRoom(roomId, PlayerBanned(info));
    AppendAssoc3(out0, sw.effects, Broadcast(sw.players, s0.spectators, PlayerBanned(info)));
    assert WellFormed(room.Snapshot());
    return Success;
  }

  /** `ban`; `targetFound` says whether the store holds a profile with the target id. */
  method Ban(reg: Registry, profile: Option<Profile>, body: Json, targetFound: bool) returns (reply: Reply)
    requires var r := Named(reg.rooms, TargetRoomId(ParseTarget(body))); r.Some? ==> r.value.Valid()
    modifies reg`outbox, Objects(Named(reg.rooms, TargetRoomId(ParseTarget(body))))
    ensures var g := Gate(profile, ParseTarget(body), SCHEMA_MISMATCH, Named(reg.rooms, TargetRoomId(ParseTarget(body))).Some?);
            g.Some? ==> reply == g.value && reg.outbox == old(reg.outbox)
    ensures var r := Named(reg.rooms, TargetRoomId(ParseTarget(body)));
            profile.Some? && r.Some? ==>
              var o := BanRoom(old(r.value.Snapshot()), profile.value, ParseTarget(body).value.targetId, targetFound);
              reply == o.reply && r.value.Snapshot() == o.room && reg.outbox == old(reg.outbox) + o.effects &&
              r.value.Valid()
  {
    var req := ParseTarget(body);
    var g := Gate(profile, req, SCHEMA_MISMATCH, Named(reg.rooms, TargetRoomId(req)).Some?);
    if g.Some? {
      return g.value;
    }
    reply := BanOnRoom(reg, reg.rooms[req.value.roomId], req.value.roomId, profile.value, req.value.targetId, targetFound);
  }

  // ---------------------------------------------------------------------------
  // unban

  /**
   * `unban` on an existing room: the caller must be the host by `host.id`
   * (401 otherwise) and the target bot must exist (404 otherwise); then the
   * target id leaves the ban map and `player_unbanned` carries the bot's
   * public record, whether or not it was banned.
   */
  function UnbanRoom(s: RoomState, caller: Profile, targetId: string, targetBot: Option<Bot>): (o: Outcome)
    ensures s.host.id != Some(caller.id) ==> o == Outcome(Failure(401, "You aren't the host for this room."), s, [])
    ensures s.host.id == Some(caller.id) && targetBot.None? ==> o == Outcome(PLAYER_NOT_FOUND, s, [])
    ensures s.host.id == Some(caller.id) && targetBot.Some? ==>
              o.reply == Success && o.room == s.(banned := s.banned - {targetId}) &&
              targetId !in o.room.banned &&
              (forall u :: u != targetId ==> (u in o.room.banned <==> u in s.banned)) &&
              o.effects == Broadcast(s.players, s.spectators, PlayerUnbanned(ToPublicBot(targetBot.value)))
  {
    if s.host.id != Some(caller.id) then Outcome(Failure(401, "You aren't the host for this room."), s, [])
    else if targetBot.None? then Outcome(PLAYER_NOT_FOUND, s, [])
    else
      Outcome(Success, s.(banned := s.banned - {targetId}),
              Broadcast(s.players, s.spectators, PlayerUnbanned(ToPublicBot(targetBot.value))))
  }

  /** `unban`; `targetBot` is the store's bot row with the target id, with its developers. */
  method Unban(reg: Registry, profile: Option<Profile>, body: Json, targetBot: Option<Bot>) returns (reply: Reply)
    modifies reg`outbox, Objects(Named(reg.rooms, TargetRoomId(ParseTarget(body))))
    ensures var g := Gate(profile, ParseTarget(body), SCHEMA_MISMATCH, Named(reg.rooms, TargetRoomId(ParseTarget(body))).Some?);
            g.Some? ==> reply == g.value && reg.outbox == old(reg.outbox)
    ensures var r := Named(reg.rooms, TargetRoomId(ParseTarget(body)));
            profile.Some? && r.Some? ==>
              var o := UnbanRoom(old(r.value.Snapshot()), profile.value, ParseTarget(body).value.targetId, targetBot);
              reply == o.reply && r.value.Snapshot() == o.room && reg.outbox == old(reg.outbox) + o.effects
  {
    if profile.None? {
      return UNAUTHORIZED;
    }
    var req := ParseTarget(body);
    if req.None? {
      return SCHEMA_MISMATCH;
    }
    if req.value.roomId !in reg.rooms {
      return ROOM_NOT_FOUND;
    }
    var room := reg.rooms[req.value.roomId];
    if room.host.id != Some(profile.value.id) {
      return Failure(401, "You aren't the host for this room.");
    }
    if targetBot.None? {
      return PLAYER_NOT_FOUND;
    }
    var botInfo := ToPublicBot(targetBot.value);
    room.banned := room.banned - {req.value.targetId};
    reg.SendRoom(req.value.roomId, PlayerUnbanned(botInfo));
    return Success;
  }

  // ---------------------------------------------------------------------------
  // edit

  /**
   * `edit` on an existing room: the six settings are replaced (the margins
   * arrive in seconds and are stored in milliseconds), and the new room
   * data goes out as `settings_changed`. Seats, bans and flags stay.
   */
  function EditRoom(s: RoomState, e: EditRequest): (o: Outcome)
    ensures o.reply == Success
    ensures o.room.initialPps == Some(e.initialPps) && o.room.finalPps == Some(e.finalPps)
    ensures o.room.startMargin == e.startMargin * 1000.0 && o.room.endMargin == e.endMargin * 1000.0
    ensures o.room.ft == e.ft && o.room.isPrivate == e.isPrivate
    ensures o.room.players == s.players && o.room.spectators == s.spectators && o.room.host == s.host
    ensures o.room.banned == s.banned && o.room.maxPlayers == s.maxPlayers
    ensures o.room.gameOngoing == s.gameOngoing && o.room.roundOngoing == s.roundOngoing && o.room.ongoing == s.ongoing
    ensures o.room.isPublic == s.isPublic
    ensures o.room == s.(initialPps := Some(e.initialPps), finalPps := Some(e.finalPps),
                         startMargin := e.startMargin * 1000.0, endMargin := e.endMargin * 1000.0,
                         ft := e.ft, isPrivate := e.isPrivate)
    ensures o.effects == Broadcast(s.players, s.spectators, SettingsChanged(o.room))
  {
    var t := s.(initialPps := Some(e.initialPps), finalPps := Some(e.finalPps),
                startMargin := e.startMargin * 1000.0, endMargin := e.endMargin * 1000.0,
                ft := e.ft, isPrivate := e.isPrivate);
    Outcome(Success, t, Broadcast(s.players, s.spectators, SettingsChanged(t)))
  }

  /** Stored margins are positive, so the pace window of an edited room is never empty at its start. */
  lemma EditedMarginsPositive(s: RoomState, v: Json)
    requires ParseEdit(v).Some?
    ensures var t := EditRoom(s, ParseEdit(v).value).room;
            t.startMargin > 0.0 && t.endMargin > 0.0 && 0.0 < t.initialPps.value <= 30.0 && 0.0 < t.finalPps.value <= 30.0
  {
  }

  /** `edit`. */
  method Edit(reg: Registry, profile: Option<Profile>, body: Json) returns (reply: Reply)
    modifies reg`outbox, Objects(Named(reg.rooms, EditRoomId(ParseEdit(body))))
    ensures var g := Gate(profile, ParseEdit(body), SCHEMA_MISMATCH, Named(reg.rooms, EditRoomId(ParseEdit(body))).Some?);
            g.Some? ==> reply == g.value && reg.outbox == old(reg.outbox)
    ensures var r := Named(reg.rooms, EditRoomId(ParseEdit(body)));
            profile.Some? && r.Some? ==>
              var o := EditRoom(old(r.value.Snapshot()), ParseEdit(body).value);
              reply == o.reply && r.value.Snapshot() == o.room && reg.outbox == old(reg.outbox) + o.effects
  {
    if profile.None? {
      return UNAUTHORIZED;
    }
    var req := ParseEdit(body);
    if req.None? {
      return SCHEMA_MISMATCH;
    }
    var e := req.value;
    if e.roomId !in reg.rooms {
      return ROOM_NOT_FOUND;
    }
    reply := EditOnRoom(reg, reg.rooms[e.roomId], e);
  }

  method EditOnRoom(reg: Registry, room: Room, e: EditRequest) returns (reply: Reply)
    requires e.roomId in reg.rooms && reg.rooms[e.roomId] == room
    modifies reg`outbox, room`initialPps, room`finalPps, room`startMargin, room`endMargin, room`ft, room`isPrivate
    ensures var o := EditRoom(old(room.Snapshot()), e);
            reply == o.reply && room.Snapshot() == o.room && reg.outbox == old(reg.outbox) + o.effects
  {
    room.initialPps := Some(e.initialPps);
    room.finalPps := Some(e.finalPps);
    room.startMargin := e.startMargin * 1000.0;
    room.endMargin := e.endMargin * 1000.0;
    room.ft := e.ft;
    room.isPrivate := e.isPrivate;
    reg.SendRoom(e.roomId, SettingsChanged(room.Snapshot()));
    return Success;
  }

  // ---------------------------------------------------------------------------
  // transferHost

  /** `transferHost` on an existing room: an unknown target profile answers 404; otherwise the caller's own record becomes the host, silently. */
  function TransferHostRoom(s: RoomState, caller: Profile, targetFound: bool): (o: Outcome)
    ensures !targetFound ==> o == Outcome(PLAYER_NOT_FOUND, s, [])
    ensures targetFound ==> o == Outcome(Success, s.(host := CallerInfo(caller)), [])
  {
    if !targetFound then Outcome(PLAYER_NOT_FOUND, s, [])
    else Outcome(Success, s.(host := CallerInfo(caller)), [])
  }

  /** `transferHost`; `targetFound` says whether the store holds a profile with the target id. */
  method TransferHost(reg: Registry, profile: Option<Profile>, body: Json, targetFound: bool) returns (reply: Reply)
    modifies Objects(Named(reg.rooms, TargetRoomId(ParseTarget(body))))
    ensures var g := Gate(profile, ParseTarget(body), SCHEMA_MISMATCH, Named(reg.rooms, TargetRoomId(ParseTarget(body))).Some?);
            g.Some? ==> reply == g.value
    ensures var r := Named(reg.rooms, TargetRoomId(ParseTarget(body)));
            profile.Some? && r.Some? ==>
              var o := TransferHostRoom(old(r.value.Snapshot()), profile.value, targetFound);
              reply == o.reply && r.value.Snapshot() == o.room
  {
    if profile.None? {
      return UNAUTHORIZED;
    }
    var req := ParseTarget(body);
    if req.None? {
      return SCHEMA_MISMATCH;
    }
    if req.value.roomId !in reg.rooms {
      return ROOM_NOT_FOUND;
    }
    var room := reg.rooms[req.value.roomId];
    if !targetFound {
      return PLAYER_NOT_FOUND;
    }
    room.host := CallerInfo(profile.value);
    return Success;
  }
}

=== FILE: rooms.dfy ===
/**
 * The room registry of server/utils/rooms.ts: the records a room is made of,
 * the module-level `rooms` and `connections` maps, `sendRoom`, and the
 * public projections `getRoomInfo`, `getPublicPlayerData` and
 * `getPublicPlayers`.
 *
 * Sockets are identified by their ids; everything the server sends or
 * closes is appended to the registry's outbox. A JavaScript `Map` keeps
 * insertion order, so `players` is a sequence of key/value entries and
 * `spectators` a sequence of socket ids.
 */
module Rooms {
  import opened Wrappers
  import opened Json
  import opened Messages
  import opened Tetris
  import opened Bots

  type SocketId = string

  /**
   * A player's public identity. The files disagree on the host's key:
   * most records carry `userId`, while some guards read `id`, which no
   * record in this model ever sets.
   */
  datatype PlayerInfo = PlayerInfo(userId: string, id: Option<string>, creator: string, bot: string, avatar: Option<Json>)

  /** A signed-in account as the store returns it. */
  datatype Profile = Profile(id: string, name: string, creator: string, avatar: Json)

  /** One seat in a room; `ws` is the seat's socket. */
  datatype PlayerData = PlayerData(
    id: string,
    sessionId: string,
    ws: SocketId,
    ready: bool,
    playing: bool,
    wins: Option<int>,
    gameState: Option<GameState>,
    info: PlayerInfo)

  /** An entry of the `players` map, in insertion order. */
  datatype Entry = Entry(key: string, player: PlayerData)

  // ---------------------------------------------------------------------------
  // The `players` and `spectators` maps

  predicate DistinctKeys(ps: seq<Entry>) {
    forall i, j :: 0 <= i < j < |ps| ==> ps[i].key != ps[j].key
  }

  predicate Distinct<X(==)>(xs: seq<X>) {
    forall i, j :: 0 <= i < j < |xs| ==> xs[i] != xs[j]
  }

  /** Every player is filed under its own id. */
  predicate KeyedById(ps: seq<Entry>) {
    forall i :: 0 <= i < |ps| ==> ps[i].key == ps[i].player.id
  }

  /** In a map, an entry's key occurs neither before nor after it. */
  lemma DistinctSplit(ps: seq<Entry>, i: int)
    requires DistinctKeys(ps) && 0 <= i < |ps|
    ensures ps[i].key !in KeySet(ps[..i]) && ps[i].key !in KeySet(ps[i + 1..])
  {
    forall e | e in ps[..i] ensures e.key != ps[i].key {
      var j :| 0 <= j < i && ps[..i][j] == e;
    }
    forall e | e in ps[i + 1..] ensures e.key != ps[i].key {
      var j :| 0 <= j < |ps| - i - 1 && ps[i + 1..][j] == e;
      assert ps[i + 1 + j] == e;
    }
  }

  function KeySet(ps: seq<Entry>): set<string> {
    set e | e in ps :: e.key
  }

  lemma KeySetCons(e: Entry, ps: seq<Entry>)
    ensures KeySet([e] + ps) == {e.key} + KeySet(ps)
  {
    assert forall x :: x in [e] + ps <==> x == e || x in ps;
  }

  /** `players.get(key)`. */
  function Get(ps: seq<Entry>, key: string): (r: Option<PlayerData>)
    ensures r.Some? <==> key in KeySet(ps)
    ensures r.Some? ==> Entry(key, r.value) in ps
  {
    if ps == [] then None
    else if ps[0].key == key then Some(ps[0].player)
    else
      assert forall e :: e in ps[1..] ==> e in ps;
      Get(ps[1..], key)
  }

  /** With distinct keys, the entry at index `i` is what `get` finds for its key. */
  lemma {:induction false} GetAt(ps: seq<Entry>, i: int)
    requires DistinctKeys(ps) && 0 <= i < |ps|
    ensures Get(ps, ps[i].key) == Some(ps[i].player)
  {
    if i > 0 {
      assert DistinctKeys(ps[1..]);
      GetAt(ps[1..], i - 1);
    }
  }

  /** `players.delete(key)`: every other entry stays, in order. */
  function Delete(ps: seq<Entry>, key: string): (r: seq<Entry>)
    ensures KeySet(r) == KeySet(ps) - {key}
    ensures |r| <= |ps|
  {
    if ps == [] then []
    else
      KeySetCons(ps[0], ps[1..]);
      assert ps == [ps[0]] + ps[1..];
      if ps[0].key == key then Delete(ps[1..], key)
      else
        KeySetCons(ps[0], Delete(ps[1..], key));
        [ps[0]] + Delete(ps[1..], key)
  }

  /** Deleting a key keeps exactly the entries with other keys. */
  lemma {:induction false} DeleteMembers(ps: seq<Entry>, key: string, e: Entry)
    ensures e in Delete(ps, key) <==> e in ps && e.key != key
  {
    if ps != [] {
      DeleteMembers(ps[1..], key, e);
      assert ps == [ps[0]] + ps[1..];
    }
  }

  /** Deleting from a well-formed map keeps it well formed. */
  lemma DeleteKeepsShape(ps: seq<Entry>, key: string)
    ensures DistinctKeys(ps) ==> DistinctKeys(Delete(ps, key))
    ensures KeyedById(ps) ==> KeyedById(Delete(ps, key))
  {
    if DistinctKeys(ps) {
      DeleteKeepsDistinct(ps, key);
    }
    if KeyedById(ps) {
      DeleteKeepsKeyed(ps, key);
    }
  }

  lemma {:induction false} DeleteKeepsDistinct(ps: seq<Entry>, key: string)
    requires DistinctKeys(ps)
    ensures DistinctKeys(Delete(ps, key))
  {
    if ps != [] {
      DeleteKeepsDistinct(ps[1..], key);
      if ps[0].key != key {
        var r := Delete(ps[1..], key);
        DistinctSplit(ps, 0);
        assert ps[0].key !in KeySet(r);
        forall j | 0 <= j < |r| ensures r[j].key != ps[0].key {
          assert r[j] in r;
        }
        assert Delete(ps, key) == [ps[0]] + r;
      }
    }
  }

  lemma {:induction false} DeleteKeepsKeyed(ps: seq<Entry>, key: string)
    requires KeyedById(ps)
    ensures KeyedById(Delete(ps, key))
  {
    if ps != [] {
      DeleteKeepsKeyed(ps[1..], key);
    }
  }

  lemma {:induction false} DeleteConcat(a: seq<Entry>, b: seq<Entry>, key: string)
    ensures Delete(a + b, key) == Delete(a, key) + Delete(b, key)
  {
    if a == [] {
      assert a + b == b;
    } else {
      assert (a + b)[0] == a[0];
      assert (a + b)[1..] == a[1..] + b;
      DeleteConcat(a[1..], b, key);
      if a[0].key != key {
        assert Delete(a + b, key) == [a[0]] + (Delete(a[1..], key) + Delete(b, key));
      }
    }
  }

  lemma {:induction false} DeleteAbsent(ps: seq<Entry>, key: string)
    requires key !in KeySet(ps)
    ensures Delete(ps, key) == ps
  {
    if ps != [] {
      assert ps[0] in ps;
      assert forall e :: e in ps[1..] ==> e in ps;
      DeleteAbsent(ps[1..], key);
    }
  }

  /** Deleting the key of an entry removes exactly that entry when keys are distinct. */
  lemma DeleteEntry(a: seq<Entry>, e: Entry, b: seq<Entry>)
    requires e.key !in KeySet(a) && e.key !in KeySet(b)
    ensures Delete(a + [e] + b, e.key) == a + b
  {
    DeleteConcat(a + [e], b, e.key);
    DeleteConcat(a, [e], e.key);
    assert Delete([e], e.key) == [];
    DeleteAbsent(a, e.key);
    DeleteAbsent(b, e.key);
    assert a + [] == a;
  }

  /** `players.set(key, p)`: an existing key keeps its position, a new key goes last. */
  function Put(ps: seq<Entry>, key: string, p: PlayerData): (r: seq<Entry>)
    ensures key in KeySet(ps) ==> |r| == |ps|
    ensures key !in KeySet(ps) ==> r == ps + [Entry(key, p)]
    ensures KeySet(r) == KeySet(ps) + {key}
  {
    if ps == [] then [Entry(key, p)]
    else if ps[0].key == key then [Entry(key, p)] + ps[1..]
    else
      KeySetCons(ps[0], ps[1..]);
      KeySetCons(ps[0], Put(ps[1..], key, p));
      [ps[0]] + Put(ps[1..], key, p)
  }

  /** `set` on a key first found at index `i` replaces that entry's value in place and leaves every other entry as it was. */
  lemma {:induction false} PutInPlace(ps: seq<Entry>, key: string, p: PlayerData, i: int)
    requires 0 <= i < |ps| && ps[i].key == key && forall j :: 0 <= j < i ==> ps[j].key != key
    ensures Put(ps, key, p) == ps[i := Entry(key, p)]
  {
    if i > 0 {
      assert ps[0].key != key;
      PutInPlace(ps[1..], key, p, i - 1);
      assert [ps[0]] + ps[1..][i - 1 := Entry(key, p)] == ps[i := Entry(key, p)];
    }
  }

  /** After `set`, `get` finds the new value, and every other key keeps its value. */
  lemma {:induction false} PutGet(ps: seq<Entry>, key: string, p: PlayerData, other: string)
    ensures Get(Put(ps, key, p), key) == Some(p)
    ensures other != key ==> Get(Put(ps, key, p), other) == Get(ps, other)
  {
    if ps != [] && ps[0].key != key {
      PutGet(ps[1..], key, p, other);
    }
  }

  /** Setting a key keeps a map's keys distinct, and keeps every player under its own id when the new one is. */
  lemma {:induction false} PutKeepsShape(ps: seq<Entry>, key: string, p: PlayerData)
    ensures DistinctKeys(ps) ==> DistinctKeys(Put(ps, key, p))
    ensures KeyedById(ps) && p.id == key ==> KeyedById(Put(ps, key, p))
  {
    if ps != [] && ps[0].key != key {
      PutKeepsShape(ps[1..], key, p);
      var r := Put(ps[1..], key, p);
      if DistinctKeys(ps) {
        DistinctSplit(ps, 0);
        assert ps[0].key !in KeySet(r);
        forall j | 0 <= j < |r| ensures r[j].key != ps[0].key {
          assert r[j] in r;
        }
      }
    } else if ps != [] && DistinctKeys(ps) {
      DistinctSplit(ps, 0);
      forall j | 1 <= j < |ps| ensures ps[j].key != key {
        assert ps[j] in ps[1..];
      }
    }
  }

  /** `spectators.delete(id)`. */
  function Without(xs: seq<SocketId>, x: SocketId): (r: seq<SocketId>)
    ensures x !in r && forall y :: y in r ==> y in xs
    ensures |r| <= |xs|
  {
    if xs == [] then [] else if xs[0] == x then Without(xs[1..], x) else [xs[0]] + Without(xs[1..], x)
  }

  /** `spectators.set(id, ws)`: a new id goes last, a present one stays where it is. */
  function AddSpectator(xs: seq<SocketId>, x: SocketId): (r: seq<SocketId>)
    ensures x in r && forall y :: y in r <==> y in xs || y == x
    ensures Distinct(xs) ==> Distinct(r)
  {
    if x in xs then xs else xs + [x]
  }

  // ---------------------------------------------------------------------------
  // Room records

  /** The mutable part of a room, as one value. */
  datatype RoomState = RoomState(
    host: PlayerInfo,
    isPublic: Option<bool>,
    isPrivate: bool,
    ft: real,
    maxPlayers: int,
    ongoing: bool,
    gameOngoing: bool,
    roundOngoing: bool,
    initialPps: Option<real>,
    finalPps: Option<real>,
    startMargin: real,
    endMargin: real,
    banned: map<string, PlayerInfo>,
    players: seq<Entry>,
    spectators: seq<SocketId>)

  /**
   * The shape every room keeps: each map key at most once, and each player
   * filed under its own id, as the join handler files it.
   */
  predicate WellFormed(s: RoomState) {
    DistinctKeys(s.players) && KeyedById(s.players) && Distinct(s.spectators)
  }

  /**
   * A room record. The files disagree on its shape, so it carries the
   * union of the fields they use: `ongoing` next to `gameOngoing` and
   * `roundOngoing`, and both `public` and `private`. `banned` is the map
   * `create` builds, from user id to the record of who banned it; the
   * socket handlers and the HTTP endpoints read that same map. A field the creating code never sets reads as
   * `None` or `false`, as `undefined` does in the guards that read it.
   */
  class Room {
    const id: string
    const createdAt: int
    const pps: real
    const initialMultiplier: real
    const finalMultiplier: real
    const startedAt: Option<int>
    const endedAt: Option<int>
    const lastWinner: Option<string>

    var host: PlayerInfo
    var isPublic: Option<bool>
    var isPrivate: bool
    var ft: real
    var maxPlayers: int
    var ongoing: bool
    var gameOngoing: bool
    var roundOngoing: bool
    var initialPps: Option<real>
    var finalPps: Option<real>
    var startMargin: real
    var endMargin: real
    var banned: map<string, PlayerInfo>
    var players: seq<Entry>
    var spectators: seq<SocketId>

    function Snapshot(): RoomState
      reads this
    {
      RoomState(host, isPublic, isPrivate, ft, maxPlayers, ongoing, gameOngoing, roundOngoing,
                initialPps, finalPps, startMargin, endMargin, banned, players, spectators)
    }

    predicate Valid()
      reads this
    {
      WellFormed(Snapshot())
    }

    /** The room record built by `create`: two seats, no game, nobody banned, nobody inside. */
    constructor (id: string, createdAt: int, host: PlayerInfo, isPrivate: bool, ft: real, pps: real,
                 initialMultiplier: real, finalMultiplier: real, startMargin: real, endMargin: real)
      ensures this.id == id && this.createdAt == createdAt && this.pps == pps
      ensures this.initialMultiplier == initialMultiplier && this.finalMultiplier == finalMultiplier
      ensures this.startedAt == None && this.endedAt == None && this.lastWinner == None
      ensures Snapshot() == RoomState(host, None, isPrivate, ft, 2, false, false, false, None, None,
                                      startMargin, endMargin, map[], [], [])
      ensures Valid()
    {
      this.id := id;
      this.createdAt := createdAt;
      this.pps := pps;
      this.initialMultiplier := initialMultiplier;
      this.finalMultiplier := finalMultiplier;
      this.startedAt := None;
      this.endedAt := None;
      this.lastWinner := None;
      this.host := host;
      this.isPublic := None;
      this.isPrivate := isPrivate;
      this.ft := ft;
      this.maxPlayers := 2;
      this.ongoing := false;
      this.gameOngoing := false;
      this.roundOngoing := false;
      this.initialPps := None;
      this.finalPps := None;
      this.startMargin := startMargin;
      this.endMargin := endMargin;
      this.banned := map[];
      this.players := [];
      this.spectators := [];
    }
  }

  // ---------------------------------------------------------------------------
  // Projections

  datatype PublicPlayer = PublicPlayer(
    id: string, ready: bool, sessionId: string, playing: bool, info: PlayerInfo, gameState: PublicGameState)

  /** `getPublicPlayerData`: every field but the socket, with the game state made public. */
  function GetPublicPlayerData(engine: Engine, p: PlayerData): (r: PublicPlayer)
    ensures r.id == p.id && r.ready == p.ready && r.sessionId == p.sessionId
    ensures r.playing == p.playing && r.info == p.info
    ensures r.gameState == engine.getPublicGameState(p.gameState)
  {
    PublicPlayer(p.id, p.ready, p.sessionId, p.playing, p.info, engine.getPublicGameState(p.gameState))
  }

  /**
   * `getPublicPlayers`: one public record per player, in map order. The
   * source calls a `getPublicPlayerInfo` that no shown file defines; the
   * model uses `getPublicPlayerData`, the projection of that name and shape.
   */
  function GetPublicPlayers(engine: Engine, ps: seq<Entry>): (r: seq<PublicPlayer>)
    ensures |r| == |ps|
    ensures forall i :: 0 <= i < |ps| ==> r[i] == GetPublicPlayerData(engine, ps[i].player)
  {
    seq(|ps|, i requires 0 <= i < |ps| => GetPublicPlayerData(engine, ps[i].player))
  }

  datatype RoomInfo = RoomInfo(
    id: string, host: PlayerInfo, isPublic: Option<bool>, ft: real, maxPlayers: int, ongoing: bool,
    players: seq<PublicPlayer>)

  /** `getRoomInfo`: the room's id and settings with its public players; never `banned` or `spectators`. */
  function GetRoomInfo(engine: Engine, id: string, s: RoomState): (r: RoomInfo)
    ensures r.id == id && r.host == s.host && r.isPublic == s.isPublic && r.ft == s.ft
    ensures r.maxPlayers == s.maxPlayers && r.ongoing == s.ongoing
    ensures |r.players| == |s.players|
    ensures forall i :: 0 <= i < |s.players| ==> r.players[i] == GetPublicPlayerData(engine, s.players[i].player)
    ensures forall i :: 0 <= i < |s.players| ==> r.players[i].sessionId == s.players[i].player.sessionId
  {
    RoomInfo(id, s.host, s.isPublic, s.ft, s.maxPlayers, s.ongoing, GetPublicPlayers(engine, s.players))
  }

  /** Two rooms that differ only in who is banned and who is watching have the same room info. */
  lemma RoomInfoHidesBansAndSpectators(engine: Engine, id: string, s: RoomState,
                                       banned: map<string, PlayerInfo>, spectators: seq<SocketId>)
    ensures GetRoomInfo(engine, id, s) == GetRoomInfo(engine, id, s.(banned := banned, spectators := spectators))
  {
  }

  // ---------------------------------------------------------------------------
  // Outgoing traffic

  datatype ServerMessage =
    | Authenticated(id: SocketId)
    | ErrorMsg(text: string)
    | RoomInfoMsg(info: RoomInfo)
    | PlayerLeft(sessionId: string)
    | PlayerReady(userId: string)
    | AllReady
    | PlayerUnready(userId: string)
    | PlayerDied(userId: string)
    | PlayerCommands(sessionId: string, commands: seq<Command>, newGameState: PublicGameState, events: seq<GameEvent>)
    | GameStarted(startsAt: Option<int>, players: Option<seq<PublicPlayer>>)
    | GameReset(resetPlayers: Option<seq<PublicPlayer>>)
    | HostChanged(hostInfo: PlayerInfo)
    | SettingsChanged(roomData: RoomState)
    | PlayerBanned(playerInfo: PlayerInfo)
    | PlayerUnbanned(botInfo: PublicBot)

  /** What the server does to a socket, in order: send one message, or close it with a code; `StartRound` marks a call of `startRound`. */
  datatype Effect = Send(to: SocketId, msg: ServerMessage) | Close(to: SocketId, code: int) | StartRound(roomId: string)

  lemma AppendAssoc<T>(a: seq<T>, b: seq<T>, c: seq<T>, d: seq<T>)
    ensures (a + b + c) + d == a + (b + c + d)
  {
  }

  lemma AppendAssoc3<T>(a: seq<T>, b: seq<T>, c: seq<T>)
    ensures (a + b) + c == a + (b + c)
  {
  }

  /** A room's new state and the effects one event produced, in order. */
  datatype Step = Step(room: RoomState, effects: seq<Effect>)

  /** The sockets `sendRoom` reaches: each player's socket in map order, then each spectator. */
  function Recipients(ps: seq<Entry>, specs: seq<SocketId>): (r: seq<SocketId>)
    ensures |r| == |ps| + |specs|
  {
    seq(|ps|, i requires 0 <= i < |ps| => ps[i].player.ws) + specs
  }

  /** The sends of one `sendRoom`. */
  function Broadcast(ps: seq<Entry>, specs: seq<SocketId>, m: ServerMessage): (r: seq<Effect>)
    ensures |r| == |ps| + |specs|
    ensures forall i :: 0 <= i < |r| ==> r[i] == Send(Recipients(ps, specs)[i], m)
    ensures forall i :: 0 <= i < |ps| ==> r[i] == Send(ps[i].player.ws, m)
    ensures forall i :: 0 <= i < |specs| ==> r[|ps| + i] == Send(specs[i], m)
  {
    seq(|ps|, i requires 0 <= i < |ps| => Send(ps[i].player.ws, m)) + seq(|specs|, i requires 0 <= i < |specs| => Send(specs[i], m))
  }

  /** The players' sends come first, then the spectators'. */
  lemma BroadcastSplit(ps: seq<Entry>, specs: seq<SocketId>, m: ServerMessage)
    ensures Broadcast(ps, specs, m) == Broadcast(ps, [], m) + Broadcast([], specs, m)
  {
  }

  /** How many effects of `es` send something to `to`. */
  function SendsTo(es: seq<Effect>, to: SocketId): nat {
    if es == [] then 0 else (if es[0].Send? && es[0].to == to then 1 else 0) + SendsTo(es[1..], to)
  }

  lemma {:induction false} SendsToConcat(a: seq<Effect>, b: seq<Effect>, to: SocketId)
    ensures SendsTo(a + b, to) == SendsTo(a, to) + SendsTo(b, to)
  {
    if a == [] {
      assert a + b == b;
    } else {
      assert (a + b)[0] == a[0];
      assert (a + b)[1..] == a[1..] + b;
      SendsToConcat(a[1..], b, to);
    }
  }

  function Occurrences(xs: seq<SocketId>, x: SocketId): nat {
    if xs == [] then 0 else (if xs[0] == x then 1 else 0) + Occurrences(xs[1..], x)
  }

  lemma {:induction false} SendsToOccurrences(xs: seq<SocketId>, m: ServerMessage, to: SocketId)
    ensures SendsTo(seq(|xs|, i requires 0 <= i < |xs| => Send(xs[i], m)), to) == Occurrences(xs, to)
  {
    if xs != [] {
      var es := seq(|xs|, i requires 0 <= i < |xs| => Send(xs[i], m));
      assert es[1..] == seq(|xs[1..]|, i requires 0 <= i < |xs[1..]| => Send(xs[1..][i], m));
      SendsToOccurrences(xs[1..], m, to);
    }
  }

  lemma {:induction false} OccurrencesDistinct(xs: seq<SocketId>, x: SocketId)
    requires Distinct(xs) && x in xs
    ensures Occurrences(xs, x) == 1
  {
    if xs[0] == x {
      OccurrencesAbsent(xs[1..], x);
    } else {
      OccurrencesDistinct(xs[1..], x);
    }
  }

  lemma {:induction false} OccurrencesAbsent(xs: seq<SocketId>, x: SocketId)
    requires x !in xs
    ensures Occurrences(xs, x) == 0
  {
    if xs != [] {
      OccurrencesAbsent(xs[1..], x);
    }
  }

  /**
   * Each recipient gets exactly as many copies as it has places in the
   * recipient list: with distinct sockets, exactly one copy each and
   * nothing for anybody else.
   */
  lemma BroadcastOnce(ps: seq<Entry>, specs: seq<SocketId>, m: ServerMessage, to: SocketId)
    requires Distinct(Recipients(ps, specs))
    ensures to in Recipients(ps, specs) ==> SendsTo(Broadcast(ps, specs, m), to) == 1
    ensures to !in Recipients(ps, specs) ==> SendsTo(Broadcast(ps, specs, m), to) == 0
  {
    var rs := Recipients(ps, specs);
    assert Broadcast(ps, specs, m) == seq(|rs|, i requires 0 <= i < |rs| => Send(rs[i], m));
    SendsToOccurrences(rs, m, to);
    if to in rs {
      OccurrencesDistinct(rs, to);
    } else {
      OccurrencesAbsent(rs, to);
    }
  }
  /** How many effects of `es` send exactly the message `m` to `to`. */
  function Delivered(es: seq<Effect>, to: SocketId, m: ServerMessage): nat {
    if es == [] then 0 else (if es[0] == Send(to, m) then 1 else 0) + Delivered(es[1..], to, m)
  }

  lemma {:induction false} DeliveredConcat(a: seq<Effect>, b: seq<Effect>, to: SocketId, m: ServerMessage)
    ensures Delivered(a + b, to, m) == Delivered(a, to, m) + Delivered(b, to, m)
  {
    if a == [] {
      assert a + b == b;
    } else {
      assert (a + b)[0] == a[0];
      assert (a + b)[1..] == a[1..] + b;
      DeliveredConcat(a[1..], b, to, m);
    }
  }

  lemma {:induction false} DeliveredEach(xs: seq<SocketId>, m: ServerMessage, to: SocketId, m': ServerMessage)
    ensures Delivered(seq(|xs|, i requires 0 <= i < |xs| => Send(xs[i], m)), to, m') == (if m == m' then Occurrences(xs, to) else 0)
  {
    if xs != [] {
      var es := seq(|xs|, i requires 0 <= i < |xs| => Send(xs[i], m));
      assert es[1..] == seq(|xs[1..]|, i requires 0 <= i < |xs[1..]| => Send(xs[1..][i], m));
      DeliveredEach(xs[1..], m, to, m');
    }
  }

  /**
   * One `sendRoom` of `m` delivers `m` to each recipient once per place it
   * has in the recipient list, and delivers no other message.
   */
  lemma BroadcastDelivers(ps: seq<Entry>, specs: seq<SocketId>, m: ServerMessage, to: SocketId, m': ServerMessage)
    ensures Delivered(Broadcast(ps, specs, m), to, m') == (if m == m' then Occurrences(Recipients(ps, specs), to) else 0)
  {
    var rs := Recipients(ps, specs);
    assert Broadcast(ps, specs, m) == seq(|rs|, i requires 0 <= i < |rs| => Send(rs[i], m));
    DeliveredEach(rs, m, to, m');
  }

  /** One `sendRoom` of `m1`, then possibly one of `m2`, to the same recipients: how many copies of `m` each recipient gets. */
  lemma TwoBroadcastsDeliver(ps: seq<Entry>, specs: seq<SocketId>, m1: ServerMessage, m2: ServerMessage, second: bool,
                             to: SocketId, m: ServerMessage)
    ensures var n := Occurrences(Recipients(ps, specs), to);
            Delivered(Broadcast(ps, specs, m1) + (if second then Broadcast(ps, specs, m2) else []), to, m)
              == (if m1 == m then n else 0) + (if second && m2 == m then n else 0)
  {
    var b1 := Broadcast(ps, specs, m1);
    var b2: seq<Effect> := if second then Broadcast(ps, specs, m2) else [];
    BroadcastDelivers(ps, specs, m1, to, m);
    BroadcastDelivers(ps, specs, m2, to, m);
    DeliveredConcat(b1, b2, to, m);
  }


  // ---------------------------------------------------------------------------
  // Connections and the registry

  datatype Status = Playing | Spectating | Idle

  /** An authenticated socket; its socket is the one its id names. */
  datatype Connection = Connection(id: SocketId, token: string, status: Status, roomId: string, info: PlayerInfo)

  /** A handler registered on a socket with `ws.on`. */
  datatype Listener =
    | OnCloseCleanup(ws: SocketId, roomId: string, room: Room)
    | OnCloseSpectator(ws: SocketId, room: Room)
    | OnGeneralMessage(ws: SocketId, conn: Connection)
    | OnPlayerMessage(ws: SocketId, conn: Connection)

  /** The module-level `rooms` and `connections` maps, the outbox, and the registered socket handlers. */
  class Registry {
    var rooms: map<string, Room>
    var connections: map<SocketId, Connection>
    var outbox: seq<Effect>
    var listeners: seq<Listener>

    constructor ()
      ensures rooms == map[] && connections == map[] && outbox == [] && listeners == []
    {
      rooms := map[];
      connections := map[];
      outbox := [];
      listeners := [];
    }

    /** Every room is filed under its own id, as `create` files it. */
    predicate Filed()
      reads this
    {
      forall k :: k in rooms ==> rooms[k].id == k
    }

    /**
     * `sendRoom`: nothing when the room is unknown; otherwise the same
     * message to every player in map order, then to every spectator. It
     * changes no room and no map.
     */
    method SendRoom(roomId: string, msg: ServerMessage)
      modifies this`outbox
      ensures roomId !in rooms ==> outbox == old(outbox)
      ensures roomId in rooms ==>
                outbox == old(outbox) + Broadcast(rooms[roomId].players, rooms[roomId].spectators, msg)
    {
      if roomId !in rooms {
        return;
      }
      var room := rooms[roomId];
      SendEach(room.players, room.spectators, msg);
    }

    /** The two loops of `sendRoom`: every player's socket in order, then every spectator. */
    method SendEach(ps: seq<Entry>, specs: seq<SocketId>, msg: ServerMessage)
      modifies this`outbox
      ensures outbox == old(outbox) + Broadcast(ps, specs, msg)
    {
      SendToPlayers(ps, msg);
      SendToSpectators(specs, msg);
      BroadcastSplit(ps, specs, msg);
      AppendAssoc3(old(outbox), Broadcast(ps, [], msg), Broadcast([], specs, msg));
    }

    /** `room.players.forEach(...)`: one send per player socket, in map order. */
    method SendToPlayers(ps: seq<Entry>, msg: ServerMessage)
      modifies this`outbox
      ensures outbox == old(outbox) + Broadcast(ps, [], msg)
    {
      ghost var sent: seq<Effect> := [];
      var i := 0;
      while i < |ps|
        invariant 0 <= i <= |ps|
        invariant outbox == old(outbox) + sent
        invariant |sent| == i && forall k :: 0 <= k < i ==> sent[k] == Send(ps[k].player.ws, msg)
      {
        AppendAssoc3(old(outbox), sent, [Send(ps[i].player.ws, msg)]);
        outbox := outbox + [Send(ps[i].player.ws, msg)];
        sent := sent + [Send(ps[i].player.ws, msg)];
        i := i + 1;
      }
      assert sent == Broadcast(ps, [], msg);
    }

    /** `room.spectators.forEach(...)`: one send per spectator, in order. */
    method SendToSpectators(specs: seq<SocketId>, msg: ServerMessage)
      modifies this`outbox
      ensures outbox == old(outbox) + Broadcast([], specs, msg)
    {
      ghost var sent: seq<Effect> := [];
      var j := 0;
      while j < |specs|
        invariant 0 <= j <= |specs|
        invariant outbox == old(outbox) + sent
        invariant |sent| == j && forall k :: 0 <= k < j ==> sent[k] == Send(specs[k], msg)
      {
        AppendAssoc3(old(outbox), sent, [Send(specs[j], msg)]);
        outbox := outbox + [Send(specs[j], msg)];
        sent := sent + [Send(specs[j], msg)];
        j := j + 1;
      }
      assert sent == Broadcast([], specs, msg);
    }
  }
}

=== FILE: sockets.dfy ===
/**
 * The socket server's connection handler in server/plugins/websockets.ts:
 * the join checks, in their fixed order, and the handlers registered for
 * the socket's `close` event.
 *
 * The handler suspends once, while the token is checked against the store,
 * so the join is two steps here: `Connect` runs up to that point and
 * returns the authentication still to do, and `Authenticate` runs the rest
 * once the store has answered (the answer, a profile or none, is an input).
 * Other events may run in between, which is why the second ban check can
 * refuse a socket the first one let through. The fresh socket id and the
 * fresh session id are inputs too.
 */
module Sockets {
  import opened Wrappers
  import opened Json
  import opened Tetris
  import opened Rooms

  /** `urlParams.get(name)`. */
  function Param(q: map<string, string>, name: string): (r: Option<string>)
    ensures r.Some? <==> name in q
  {
    if name in q then Some(q[name]) else None
  }

  /** JavaScript truthiness of a query value: present and not the empty string. */
  predicate Truthy(v: Option<string>) {
    v.Some? && v.value != ""
  }

  /** The room id the request names, when it names one. */
  function RoomIdParam(query: Option<map<string, string>>): (r: Option<string>)
    ensures r.Some? <==> query.Some? && Truthy(Param(query.value, "roomId"))
  {
    if query.Some? && Truthy(Param(query.value, "roomId")) then Param(query.value, "roomId") else None
  }

  /** The authentication a joining socket still waits for. */
  datatype PendingAuth = PendingAuth(roomId: string, room: Room, token: string, spectating: bool)

  // ---------------------------------------------------------------------------
  // Before the token check

  /**
   * The part of the join that reads and changes the room that was found:
   * a banned non-spectator is closed with 4001 and the room is left alone;
   * anybody else is sent the room's info and a spectator is added to the
   * spectators. A socket that is neither spectating nor carrying a token is
   * then closed with 4005.
   */
  function ConnectSpec(s: RoomState, info: RoomInfo, ws: SocketId, spectating: bool, token: Option<string>): (r: Step)
    ensures r.room == s.(spectators := r.room.spectators)
    ensures !spectating ==> r.room == s
    ensures spectating ==> r.room == s.(spectators := AddSpectator(s.spectators, ws))
    ensures spectating ==> ws in r.room.spectators && (forall x :: x in s.spectators ==> x in r.room.spectators)
    ensures !spectating && ws in s.banned <==> r.effects == [Close(ws, 4001)]
    ensures !(!spectating && ws in s.banned) ==>
              |r.effects| >= 1 && r.effects[0] == Send(ws, RoomInfoMsg(info)) &&
              (Close(ws, 4005) in r.effects <==> !Truthy(token) && !spectating)
    ensures forall e :: e in r.effects ==> e == Send(ws, RoomInfoMsg(info)) || e == Close(ws, 4001) || e == Close(ws, 4005)
  {
    if !spectating && ws in s.banned then Step(s, [Close(ws, 4001)])
    else
      var s' := if spectating then s.(spectators := AddSpectator(s.spectators, ws)) else s;
      var effects := [Send(ws, RoomInfoMsg(info))] + (if !Truthy(token) && !spectating then [Close(ws, 4005)] else []);
      assert effects[0].Send?;
      Step(s', effects)
  }

  /** Joining keeps a well-formed room well formed. */
  lemma ConnectKeepsWellFormed(s: RoomState, info: RoomInfo, ws: SocketId, spectating: bool, token: Option<string>)
    requires WellFormed(s)
    ensures WellFormed(ConnectSpec(s, info, ws, spectating, token).room)
  {
  }

  /**
   * The connection handler up to the token check. Without a query string
   * the socket is closed with 4000; a missing or empty room id and an
   * unknown room are reported to the socket alone; otherwise the found
   * room changes as `ConnectSpec` says, the close handlers are registered,
   * and the authentication is returned when the request carries a token.
   */
  method Connect(reg: Registry, ws: SocketId, query: Option<map<string, string>>, engine: Engine) returns (pending: Option<PendingAuth>)
    requires RoomIdParam(query).Some? && RoomIdParam(query).value in reg.rooms ==> reg.rooms[RoomIdParam(query).value].Valid()
    modifies reg`outbox, reg`listeners
    modifies if RoomIdParam(query).Some? && RoomIdParam(query).value in reg.rooms then {reg.rooms[RoomIdParam(query).value]} else {}
    ensures query.None? ==> reg.outbox == old(reg.outbox) + [Close(ws, 4000)] && reg.listeners == old(reg.listeners) && pending.None?
    ensures query.Some? && RoomIdParam(query).None? ==>
              reg.outbox == old(reg.outbox) + [Send(ws, ErrorMsg("Invalid roomId"))] && reg.listeners == old(reg.listeners) && pending.None?
    ensures RoomIdParam(query).Some? && RoomIdParam(query).value !in reg.rooms ==>
              reg.outbox == old(reg.outbox) + [Send(ws, ErrorMsg("Room not found"))] && reg.listeners == old(reg.listeners) && pending.None?
    ensures RoomIdParam(query).Some? && RoomIdParam(query).value in reg.rooms ==>
              var roomId := RoomIdParam(query).value;
              var room := reg.rooms[roomId];
              var spectating := Param(query.value, "spectate") == Some("true");
              var token := Param(query.value, "token");
              var st := ConnectSpec(old(room.Snapshot()), GetRoomInfo(engine, room.id, old(room.Snapshot())), ws, spectating, token);
              room.Snapshot() == st.room && room.Valid() &&
              reg.outbox == old(reg.outbox) + st.effects &&
              (st.effects == [Close(ws, 4001)] ==> reg.listeners == old(reg.listeners) && pending.None?) &&
              (st.effects != [Close(ws, 4001)] ==>
                 reg.listeners == old(reg.listeners) + [OnCloseCleanup(ws, roomId, room)]
                                  + (if spectating then [OnCloseSpectator(ws, room)] else []) &&
                 pending == (if Truthy(token) then Some(PendingAuth(roomId, room, token.value, spectating)) else None))
    ensures reg.rooms == old(reg.rooms) && reg.connections == old(reg.connections)
  {
    if query.None? {
      reg.outbox := reg.outbox + [Close(ws, 4000)];
      return None;
    }
    var params := query.value;
    var roomId := Param(params, "roomId");
    if !Truthy(roomId) {
      reg.outbox := reg.outbox + [Send(ws, ErrorMsg("Invalid roomId"))];
      return None;
    }
    if roomId.value !in reg.rooms {
      reg.outbox := reg.outbox + [Send(ws, ErrorMsg("Room not found"))];
      return None;
    }
    var room := reg.rooms[roomId.value];
    var spectating := Param(params, "spectate") == Some("true");
    if !spectating && ws in room.banned {
      reg.outbox := reg.outbox + [Close(ws, 4001)];
      return None;
    }
    reg.outbox := reg.outbox + [Send(ws, RoomInfoMsg(GetRoomInfo(engine, room.id, room.Snapshot())))];
    reg.listeners := reg.listeners + [OnCloseCleanup(ws, roomId.value, room)];
    if spectating {
      room.spectators := AddSpectator(room.spectators, ws);
      reg.listeners := reg.listeners + [OnCloseSpectator(ws, room)];
    }
    var token := Param(params, "token");
    if !Truthy(token) && !spectating {
      reg.outbox := reg.outbox + [Close(ws, 4005)];
      return None;
    }
    if !Truthy(token) {
      return None;
    }
    return Some(PendingAuth(roomId.value, room, token.value, spectating));
  }

  // ---------------------------------------------------------------------------
  // After the token check

  /** The identity `authenticateWs` records for a profile: its id, creator and name; no avatar. */
  function InfoOf(profile: Profile): (r: PlayerInfo)
    ensures r.userId == profile.id && r.creator == profile.creator && r.bot == profile.name
    ensures r.id.None? && r.avatar.None?
  {
    PlayerInfo(profile.id, None, profile.creator, profile.name, None)
  }

  /** The seat a new player gets: filed under its socket id, not ready, not playing, no game state. */
  function NewSeat(ws: SocketId, sessionId: string, info: PlayerInfo): (p: PlayerData)
    ensures p.id == ws && p.ws == ws && p.sessionId == sessionId && p.info == info
    ensures !p.ready && !p.playing && p.wins.None? && p.gameState.None?
  {
    PlayerData(ws, sessionId, ws, false, false, None, None, info)
  }

  /** Whether an authenticated socket takes a seat. */
  predicate Seats(s: RoomState, ws: SocketId, spectating: bool) {
    !spectating && ws !in s.banned && |s.players| < s.maxPlayers
  }

  /**
   * The rest of the join for an authenticated socket: a spectator stops
   * here; a banned socket and a full room are reported to the socket
   * alone; anybody else takes a new seat.
   */
  function SeatSpec(s: RoomState, ws: SocketId, spectating: bool, sessionId: string, info: PlayerInfo): (r: Step)
    ensures r.room == s.(players := r.room.players)
  {
    if spectating then Step(s, [])
    else if ws in s.banned then Step(s, [Send(ws, ErrorMsg("You are banned from this room"))])
    else if |s.players| >= s.maxPlayers then Step(s, [Send(ws, ErrorMsg("Room is full"))])
    else Step(s.(players := Put(s.players, ws, NewSeat(ws, sessionId, info))), [])
  }

  /**
   * A socket is seated exactly when it is not spectating, not banned and
   * the room has fewer players than its maximum; the new seat is found
   * under the socket's id, every other seat is kept, the room stays well
   * formed, and a room within its capacity stays within it.
   */
  lemma SeatOnlyWithinCapacity(s: RoomState, ws: SocketId, spectating: bool, sessionId: string, info: PlayerInfo)
    requires WellFormed(s)
    ensures var r := SeatSpec(s, ws, spectating, sessionId, info);
            WellFormed(r.room) &&
            (Seats(s, ws, spectating) ==>
               Get(r.room.players, ws) == Some(NewSeat(ws, sessionId, info)) &&
               KeySet(r.room.players) == KeySet(s.players) + {ws} && r.effects == []) &&
            (!Seats(s, ws, spectating) ==> r.room == s) &&
            (|s.players| <= s.maxPlayers ==> |r.room.players| <= s.maxPlayers)
  {
    var r := SeatSpec(s, ws, spectating, sessionId, info);
    if Seats(s, ws, spectating) {
      var p := NewSeat(ws, sessionId, info);
      assert r.room == s.(players := Put(s.players, ws, p)) && r.effects == [];
      PutKeepsShape(s.players, ws, p);
      PutGet(s.players, ws, p, ws);
      assert |r.room.players| <= |s.players| + 1;
    } else {
      assert r.room == s;
    }
  }

  /**
   * The connection handler after the token check. A token that matches no
   * profile closes the socket with 4004. Otherwise the connection is
   * recorded and acknowledged, the host's command handler is registered,
   * and the room changes as `SeatSpec` says; a seated socket also gets the
   * player's handler.
   */
  method Authenticate(reg: Registry, ws: SocketId, pending: PendingAuth, profile: Option<Profile>, sessionId: string)
    requires pending.room.Valid()
    modifies reg`outbox, reg`connections, reg`listeners, pending.room`players
    ensures profile.None? ==>
              reg.outbox == old(reg.outbox) + [Close(ws, 4004)] && reg.connections == old(reg.connections) &&
              reg.listeners == old(reg.listeners) && pending.room.players == old(pending.room.players)
    ensures profile.Some? ==>
              var conn := Connection(ws, pending.token, Idle, pending.roomId, InfoOf(profile.value));
              var s := old(pending.room.Snapshot());
              var st := SeatSpec(s, ws, pending.spectating, sessionId, conn.info);
              reg.connections == old(reg.connections)[ws := conn] &&
              pending.room.Snapshot() == st.room &&
              reg.outbox == old(reg.outbox) + [Send(ws, Authenticated(ws))] + st.effects &&
              reg.listeners == old(reg.listeners) + [OnGeneralMessage(ws, conn)]
                               + (if Seats(s, ws, pending.spectating) then [OnPlayerMessage(ws, conn)] else [])
    ensures pending.room.Valid()
    ensures reg.rooms == old(reg.rooms)
  {
    if profile.None? {
      reg.outbox := reg.outbox + [Close(ws, 4004)];
      return;
    }
    var conn := Connection(ws, pending.token, Idle, pending.roomId, InfoOf(profile.value));
    reg.connections := reg.connections[ws := conn];
    reg.outbox := reg.outbox + [Send(ws, Authenticated(ws))];
    reg.listeners := reg.listeners + [OnGeneralMessage(ws, conn)];
    TakeSeat(reg, pending.room, ws, pending.spectating, sessionId, conn);
  }

  /** The join's last checks and the new seat, for an authenticated connection. */
  method TakeSeat(reg: Registry, room: Room, ws: SocketId, spectating: bool, sessionId: string, conn: Connection)
    requires room.Valid()
    modifies reg`outbox, reg`listeners, room`players
    ensures var s := old(room.Snapshot());
            var st := SeatSpec(s, ws, spectating, sessionId, conn.info);
            room.Snapshot() == st.room && room.Valid() &&
            reg.outbox == old(reg.outbox) + st.effects &&
            reg.listeners == old(reg.listeners) + (if Seats(s, ws, spectating) then [OnPlayerMessage(ws, conn)] else [])
  {
    ghost var s := room.Snapshot();
    SeatOnlyWithinCapacity(s, ws, spectating, sessionId, conn.info);
    if spectating {
      return;
    }
    if ws in room.banned {
      reg.outbox := reg.outbox + [Send(ws, ErrorMsg("You are banned from this room"))];
      return;
    }
    if |room.players| >= room.maxPlayers {
      reg.outbox := reg.outbox + [Send(ws, ErrorMsg("Room is full"))];
      return;
    }
    room.players := Put(room.players, ws, NewSeat(ws, sessionId, conn.info));
    reg.listeners := reg.listeners + [OnPlayerMessage(ws, conn)];
  }

  // ---------------------------------------------------------------------------
  // The close handlers

  /** What the first close handler does to the room it captured: the socket leaves the seats and the spectators. */
  function CloseSpec(s: RoomState, ws: SocketId): (r: RoomState)
    ensures r == s.(players := r.players, spectators := r.spectators)
  {
    s.(players := Delete(s.players, ws), spectators := Without(s.spectators, ws))
  }

  /** The room is dropped from the registry exactly when it is left with nobody. */
  predicate Deserted(s: RoomState) {
    |s.players| == 0 && |s.spectators| == 0
  }

  /**
   * After a close, the socket has neither a seat nor a place among the
   * spectators, every other seat and spectator is kept, and the room stays
   * well formed.
   */
  lemma CloseRemovesOnlySocket(s: RoomState, ws: SocketId, e: Entry, x: SocketId)
    requires WellFormed(s)
    ensures var r := CloseSpec(s, ws);
            ws !in KeySet(r.players) && ws !in r.spectators &&
            KeySet(r.players) == KeySet(s.players) - {ws} &&
            (e in r.players <==> e in s.players && e.key != ws) &&
            (x != ws ==> (x in r.spectators <==> x in s.spectators)) &&
            WellFormed(r)
  {
    DeleteMembers(s.players, ws, e);
    DeleteKeepsShape(s.players, ws);
    WithoutMembers(s.spectators, ws, x);
    WithoutKeepsDistinct(s.spectators, ws);
  }

  /** Closing twice is closing once. */
  lemma CloseIdempotent(s: RoomState, ws: SocketId)
    ensures CloseSpec(CloseSpec(s, ws), ws) == CloseSpec(s, ws)
  {
    DeleteAbsent(Delete(s.players, ws), ws);
    WithoutAbsent(Without(s.spectators, ws), ws);
  }

  lemma {:induction false} WithoutMembers(xs: seq<SocketId>, x: SocketId, y: SocketId)
    ensures y in Without(xs, x) <==> y in xs && y != x
  {
    if xs != [] {
      WithoutMembers(xs[1..], x, y);
      assert xs == [xs[0]] + xs[1..];
    }
  }

  lemma {:induction false} WithoutKeepsDistinct(xs: seq<SocketId>, x: SocketId)
    requires Distinct(xs)
    ensures Distinct(Without(xs, x))
  {
    if xs != [] {
      assert Distinct(xs[1..]);
      WithoutKeepsDistinct(xs[1..], x);
      if xs[0] != x {
        var r := Without(xs[1..], x);
        forall j | 0 <= j < |r| ensures r[j] != xs[0] {
          assert r[j] in r;
          WithoutMembers(xs[1..], x, r[j]);
          var k :| 0 <= k < |xs[1..]| && xs[1..][k] == r[j];
          assert xs[k + 1] == r[j];
        }
      }
    }
  }

  lemma {:induction false} WithoutAbsent(xs: seq<SocketId>, x: SocketId)
    requires x !in xs
    ensures Without(xs, x) == xs
  {
    if xs != [] {
      assert xs[0] in xs;
      assert forall y :: y in xs[1..] ==> y in xs;
      WithoutAbsent(xs[1..], x);
    }
  }

  /**
   * The first close handler: the connection is forgotten, the socket
   * leaves the room it joined, and the room id is dropped from the
   * registry exactly when that room is left with nobody.
   */
  method CloseCleanup(reg: Registry, ws: SocketId, roomId: string, room: Room)
    modifies reg`connections, reg`rooms, room`players, room`spectators
    ensures reg.connections == old(reg.connections) - {ws}
    ensures room.Snapshot() == CloseSpec(old(room.Snapshot()), ws)
    ensures reg.rooms == if Deserted(room.Snapshot()) then old(reg.rooms) - {roomId} else old(reg.rooms)
  {
    reg.connections := reg.connections - {ws};
    room.players := Delete(room.players, ws);
    room.spectators := Without(room.spectators, ws);
    if |room.players| == 0 && |room.spectators| == 0 {
      reg.rooms := reg.rooms - {roomId};
    }
  }

  /** The second close handler, registered for spectators: the socket leaves the spectators. */
  method CloseSpectator(room: Room, ws: SocketId)
    modifies room`spectators
    ensures room.spectators == Without(old(room.spectators), ws)
  {
    room.spectators := Without(room.spectators, ws);
  }

  /** The spectator's close handler, run after the first one, changes nothing more. */
  lemma SpectatorCloseAfterCleanup(s: RoomState, ws: SocketId)
    ensures Without(CloseSpec(s, ws).spectators, ws) == CloseSpec(s, ws).spectators
  {
    WithoutAbsent(Without(s.spectators, ws), ws);
  }
}

=== FILE: sweeps.dfy ===
/**
 * The two periodic sweeps over the room registry: the cleanup plugin
 * (server/plugins/cleanup.ts) drops every room with no players and no
 * spectators, and the timeout plugin (server/plugins/timeout.ts) drops
 * such a room only once it is more than `TIMEOUT` milliseconds old. The
 * timer that runs them, and the expired-invite deletion in the store that
 * precedes the cleanup, are not part of this model.
 */
module Sweeps {
  import opened Rooms

  /** How old an empty room must be before the timeout sweep drops it, in milliseconds. */
  const TIMEOUT := 10 * 1000

  /** Nobody is seated and nobody is watching. */
  predicate Deserted(room: Room)
    reads room
  {
    |room.players| == 0 && |room.spectators| == 0
  }

  /** An empty room older than `TIMEOUT` at time `now`; the age comparison is strict. */
  predicate Expired(room: Room, now: int)
    reads room
  {
    now - room.createdAt > TIMEOUT && Deserted(room)
  }

  /** The registry after the cleanup sweep: exactly the rooms somebody is in, each under its old id. */
  function Occupied(rooms: map<string, Room>): (r: map<string, Room>)
    reads rooms.Values
    ensures forall k :: k in r <==> k in rooms && !Deserted(rooms[k])
    ensures forall k :: k in r ==> r[k] == rooms[k]
  {
    map k | k in rooms && !Deserted(rooms[k]) :: rooms[k]
  }

  /** The registry after the timeout sweep at time `now`: exactly the rooms that have not expired. */
  function Unexpired(rooms: map<string, Room>, now: int): (r: map<string, Room>)
    reads rooms.Values
    ensures forall k :: k in r <==> k in rooms && !Expired(rooms[k], now)
    ensures forall k :: k in r ==> r[k] == rooms[k]
  {
    map k | k in rooms && !Expired(rooms[k], now) :: rooms[k]
  }

  /** A second cleanup right after the first removes nothing more. */
  lemma CleanupIdempotent(rooms: map<string, Room>)
    ensures Occupied(Occupied(rooms)) == Occupied(rooms)
  {
  }

  /** The timeout sweep only removes rooms the cleanup sweep removes too, so after a cleanup it removes nothing. */
  lemma TimeoutWithinCleanup(rooms: map<string, Room>, now: int)
    ensures Occupied(rooms).Keys <= Unexpired(rooms, now).Keys
    ensures Unexpired(Occupied(rooms), now) == Occupied(rooms)
  {
  }

  /** A later timeout sweep removes at least what an earlier one does. */
  lemma TimeoutMonotone(rooms: map<string, Room>, earlier: int, later: int)
    requires earlier <= later
    ensures Unexpired(rooms, later).Keys <= Unexpired(rooms, earlier).Keys
  {
  }

  /** An empty room survives a sweep exactly `TIMEOUT` milliseconds after its creation and expires one millisecond later. */
  lemma TimeoutBoundary(rooms: map<string, Room>, id: string)
    requires id in rooms && Deserted(rooms[id])
    ensures id in Unexpired(rooms, rooms[id].createdAt + TIMEOUT)
    ensures id !in Unexpired(rooms, rooms[id].createdAt + TIMEOUT + 1)
  {
  }

  /** `rooms.forEach`: delete every deserted room; the rooms themselves are not touched. */
  method Cleanup(reg: Registry)
    modifies reg`rooms
    ensures reg.rooms == Occupied(old(reg.rooms))
    ensures old(reg.Filed()) ==> reg.Filed()
  {
    ghost var m := reg.rooms;
    var pending := reg.rooms.Keys;
    while pending != {}
      invariant pending <= m.Keys
      invariant forall k :: k in reg.rooms <==> k in m && (k in pending || !Deserted(m[k]))
      invariant forall k :: k in reg.rooms ==> reg.rooms[k] == m[k]
      decreases |pending|
    {
      var key :| key in pending;
      pending := pending - {key};
      if Deserted(reg.rooms[key]) {
        reg.rooms := reg.rooms - {key};
      }
    }
  }

  /** The loop of the timeout plugin at time `now`: delete every expired room. */
  method Timeout(reg: Registry, now: int)
    modifies reg`rooms
    ensures reg.rooms == Unexpired(old(reg.rooms), now)
    ensures old(reg.Filed()) ==> reg.Filed()
  {
    ghost var m := reg.rooms;
    var pending := reg.rooms.Keys;
    while pending != {}
      invariant pending <= m.Keys
      invariant forall k :: k in reg.rooms <==> k in m && (k in pending || !Expired(m[k], now))
      invariant forall k :: k in reg.rooms ==> reg.rooms[k] == m[k]
      decreases |pending|
    {
      var roomId :| roomId in pending;
      pending := pending - {roomId};
      var room := reg.rooms[roomId];
      if now - room.createdAt > TIMEOUT && |room.players| == 0 && |room.spectators| == 0 {
        reg.rooms := reg.rooms - {roomId};
      }
    }
  }
}

=== FILE: tetris.dfy ===
/**
 * The slice of the libtris game engine the room server calls. The engine
 * itself is not part of this model: its game states are abstract types and
 * its five entry points are fields of an `Engine` value, so every property
 * proved about the server holds for whatever the engine computes.
 */
module Tetris {
  import opened Wrappers
  import opened Messages

  /** A player's private game state. */
  type GameState(==, !new)

  /** The projection of a game state that is shown to other clients. */
  type PublicGameState(==, !new)

  /** A garbage packet produced for an attack. */
  type Garbage(!new)

  /** The events `executeCommands` reports; only `game_over` and `attack` are acted on by the server. */
  datatype GameEvent = GameOverEvent | AttackEvent(lines: int) | OtherEvent(kind: string)

  /** The result of `executeCommands`: the new state and the events it produced. */
  datatype Execution = Execution(gameState: GameState, events: seq<GameEvent>)

  /**
   * The engine's entry points. A game state read through a `!` assertion
   * in the server may still be null at run time, so those inputs are
   * optional here.
   */
  datatype Engine = Engine(
    createGameState: () -> GameState,
    executeCommands: (Option<GameState>, seq<Command>) -> Execution,
    generateGarbage: int -> Garbage,
    queueGarbage: (Option<GameState>, Garbage) -> GameState,
    getPublicGameState: Option<GameState> -> PublicGameState)
}

=== FILE: wrappers.dfy ===
/** Optional values: JavaScript's `null`/`undefined` against a present value. */
module Wrappers {

  datatype Option<+T> = None | Some(value: T) {
    /** The `??` operator: the value if present, otherwise the fallback. */
    function OrElse(fallback: T): T {
      match this
      case Some(v) => v
      case None => fallback
    }
  }
}
